=== FILE: README.md ===
# Trading-signal bot core, modelled in Dafny

This project models the deterministic core of a trading-signal bot. The bot reads alerts from two Telegram channels and turns them into signals. It paper-trades each signal under 135 strategies and ranks the strategies by a replayed balance. It also watches exchange announcements for new listings.

The modules follow the program's structure:

| module | file | what it models |
|---|---|---|
| `Signals` | signals.dfy | the `BKSignal` record every parser produces, with its id as a cuid, a number or null; `parseFloat`/`parseInt` as a parameter `NumberSyntax` |
| `Text`, `JsNumbers`, `Sequences`, `Wrappers` | text.dfy, jsnum.dfy, seqs.dfy, wrappers.dfy | the JavaScript string methods, IEEE numbers with ±Infinity and NaN, and result types the rest needs |
| `LabeledLines` | lines.dfy | `strReplace`, `findLine`, `splitValues` and the throw-on-missing fields shared by both parsers |
| `Cornix`, `Vip` | cornix.dfy, vip.dfy | the two alert parsers |
| `Router` | router.dfy | `TelegramService.processMessage`, `verifySignalData`, `isDowning` |
| `Orders`, `Policies`, `Strategy`, `Balance` | orders.dfy, policies.dfy, strategy.dfy, balance.dfy | `BaseStrategy`: the order book, the pricing rules, new signals, price ticks, expiry and the backtest |
| `Catalog`, `Registry` | catalog.dfy, registry.dfy | `StrategyService`: the 135-name catalog, tag dispatch, the dynamic stop, fan-out, ranking, snapshot and signal removal |
| `StrategyScenarios`, `BalanceScenarios` | scenarios.dfy | worked examples: one FIL signal through a strategy, and one buy/sell pair through the backtest |
| `NewCoins` | newcoin.dfy | `NewCoinService`: the `Will List … (SYM)` title parser, `addNewCoin`, `hasNewCoin`, `onNewCoinOrdered`, `getContractAddress` |
| `News` | news.dfy | `NewsService.getDataFromBinanceArticle` |

Everything is a pure function over immutable values. The clock (`now`), the `cuid()` generator (an `IdSource` threaded through), the exchange price table (`prices`), the daily statistics, number parsing, the `Number()` conversion of a route id and JavaScript's Unicode `toLowerCase` are parameters. Order books, the strategy registry and the new-coin list are sequences in insertion order. That is the order in which `Object.values`, `for … in` and `Array` visit them. A `forEach(async …)` fan-out is modelled as sequential.

JavaScript numbers are modelled where the program can actually produce non-finite values. `Math.max()` of nothing is -Infinity, `short[0]` of an empty list is undefined, and every comparison with NaN is false. Prices that come straight from a parser are `real`.

## Behaviour kept as written

The model follows the code where a reader might expect something else:

- A sell fills only when the price is strictly above its target. A buy fills when the price is at or under its price. A buy whose price is NaN fills at the first known price, since `NaN < price` is false.
- `onUpdatePrices` settles sells after buys in the same tick. A sell opened by a fill is therefore settled right away; see `StrategyScenarios.FilFillsAt80`.
- A sell is a copy of its buy with new id, side, price, stop, lifetime, status and creation time. It inherits the buy's leverage and signal id.
- When a buy fills but its signal is no longer stored, reading the sell price throws. The buy stays processed, and the rest of that strategy's tick is skipped. At the service level the throw also ends the `forEach`, so later strategies miss that tick.
- `onNewSignal` cancels the active buys of the coin even when an active sell then blocks the new buy.
- The backtest window is filtered on `createdAt`, for sells as well. For a book with no active sell, the replay sorts buys by `createdAt` and sells by `closedAt`, and orders of the same instant keep their book order, so a buy and the sell opened for it in the same tick replay buy first. An active sell has no `closedAt`, and the comparator then answers -1 both ways. That makes it an inconsistent comparator as ECMA-262 defines one for `Array.prototype.sort`, and the order of the whole array is left to the engine. The model's replay order, and with it SPOT, LOAN and TOTAL, is therefore the source's only for books without an active sell (see "## Left out").
- `removeSignal` compares ids with `==`. A VIP id is a number, so the route string `"007"` removes the orders of signal 7. An order whose signal id is null is never removed.
- The strategy service drops a signal unless `short[0] == Math.min(...short)` holds under JavaScript equality. This drops a signal with no short target.
- A new coin counts as existing only if the exchange quotes it at a price other than 0.

## Model

| member | source | states |
|---|---|---|
| LabeledLines.FirstWithPrefix | src/libs/message/cornix.msg.ts:31-33 | the index of the first line starting with the key, or -1 exactly when no line does |
| LabeledLines.FindLine | src/libs/message/cornix.msg.ts:30-39 | null exactly when no line starts with the key; otherwise the first such line without the key, with every comma removed and trimmed, so the value holds no comma |
| LabeledLines.FindLineRoundTrip | src/libs/message/cornix.msg.ts:30-39 | a line `key + padding + value` after lines without the key yields back exactly `value` |
| LabeledLines.Required | src/libs/message/cornix.msg.ts:41-45 | a mandatory field succeeds exactly when its line is present with a non-empty value; otherwise it throws the field's own message |
| LabeledLines.ParseRange | src/libs/message/cornix.msg.ts:67-72 | one number per `-`-separated piece, in order, parsed untrimmed |
| LabeledLines.SplitValues | src/libs/message/cornix.msg.ts:80-83 | `[]` for a missing or empty value; otherwise one number per `-`-separated piece, each trimmed |
| Text.SplitJoin | src/libs/message/cornix.msg.ts:110 | splitting a join of separator-free parts gives the parts back |
| Text.JoinSplit | src/libs/message/cornix.msg.ts:110 | joining the pieces of a split gives the text back |
| Cornix.ParseCoin | src/libs/message/cornix.msg.ts:23-28 | throws exactly when the COIN line is missing or empty; otherwise the value with its first `$` and first `/` removed |
| Cornix.CoinExample | src/libs/message/cornix.msg.ts:18-28 | `COIN: $BTC/USDT` gives `BTCUSDT` |
| Cornix.ParseLeverage | src/libs/message/cornix.msg.ts:53-58 | throws exactly when the Leverage line is missing or empty; otherwise the integer after removing the first `x` |
| Cornix.LeverageList | src/libs/message/cornix.msg.ts:115-117 | `[L]`, with 5 appended exactly when L is 3 |
| Cornix.ParseTargets | src/libs/message/cornix.msg.ts:85-107 | a non-empty TARGETS list puts its first min(5, n) values in short and the rest in mid; otherwise short and mid come from their own lines; long is always empty |
| Cornix.EntryAndOte | src/libs/message/cornix.msg.ts:122-124 | three entries give the middle one as ote and keep the outer two; otherwise ote is the mean of the first and last entries, and the list is kept; the band's ends are unchanged |
| Cornix.Parse | src/libs/message/cornix.msg.ts:109-139 | succeeds exactly when COIN, Direction, Leverage, ENTRY and STOP LOSS are all present and non-empty; each field of the signal is the one its line gives; the id and time are the ones supplied |
| Vip.ParseSignalId | src/libs/message/vip.msg.ts:11-15 | null exactly when the line does not start with the marker; otherwise the number `parseInt` reads after `SIGNAL ID:` once every marker is removed and the line trimmed |
| Vip.ParseCoin | src/libs/message/vip.msg.ts:22-33 | a coin exactly when the first space token is `COIN:` and a third token exists; the coin is the second token without its first `$` and `/`; the leverage is the stripped third token split on `-`, or `[1]` when that is empty |
| Vip.LeverageExample | src/libs/message/vip.msg.ts:17-27 | `COIN: $FIL/USDT (3-5x)` gives leverage `[3, 5]` |
| Vip.RangeExample | src/libs/message/vip.msg.ts:78-81 | the value `3-5` splits into `[3, 5]` |
| Vip.SplitValuesPair | src/libs/message/vip.msg.ts:78-81 | `a-b` with clean halves splits into the two parsed halves |
| Vip.ParseTerms | src/libs/message/vip.msg.ts:83-92 | each tier comes from its own line, split on `-`; a missing line gives `[]` |
| Vip.Parse | src/libs/message/vip.msg.ts:94-122 | nothing exactly when the first line lacks `SIGNAL ID:`; a signal exactly when the coin line and every mandatory field are present; ote is the smaller of the OTE value and the entry mean, so it never exceeds the mean |
| JsNumbers.MaxReal | src/services/telegram/telegram.service.ts:241 | `Math.max(...xs)`: the largest element, or -Infinity for no elements |
| JsNumbers.MinReal | src/services/telegram/telegram.service.ts:242 | `Math.min(...xs)`: the smallest element, or +Infinity for no elements |
| Router.ParseWith | src/services/telegram/telegram.service.ts:209-214 | a Cornix alert is parsed by the Cornix parser; a VIP alert that is not a signal throws when its id and coin are read |
| Router.VerifySignalDataIff | src/services/telegram/telegram.service.ts:236-248 | the check passes exactly when every entry is at or under every short target |
| Router.Route | src/services/telegram/telegram.service.ts:215-234 | a throw changes nothing; a repeat of the last symbol is a duplicate and changes nothing; a non-USDT pair changes nothing; otherwise the last symbol is updated, and the signal with its daily statistics is stored under its id and emitted exactly when it passes the check |
| Router.ProcessMessage | src/services/telegram/telegram.service.ts:209-234 | a failed parse leaves the state alone; an emitted signal is the parsed coin, quoted in USDT, with entries under targets, and stored under its id |
| Router.RouteSound | src/services/telegram/telegram.service.ts:225-233 | every stored signal sits under its own id, is quoted in USDT and passed the check, and routing keeps it so |
| Router.RouteRepeat | src/services/telegram/telegram.service.ts:217-225 | after a signal passed the duplicate and USDT checks, stored or not, the same coin next is a duplicate and changes nothing |
| Router.RouteAlternate | src/services/telegram/telegram.service.ts:217-225 | the duplicate memory has one slot: after another coin, the first coin is accepted again |
| Router.IsDowningIff | src/services/telegram/telegram.service.ts:172-175 | falling down holds exactly when there are two short targets and the first is above the second |
| Router.DowningDropped | src/services/strategy/strategy.service.ts:118-123 | a falling-down signal is one the strategy service drops |
| Orders.Put | src/libs/strategy/base-strategy.ts:68 | storing an order under its id replaces the order with that id in place or appends it; all other orders are kept, and ids stay unique |
| Policies.FirstAbove | src/services/strategy/strategy.service.ts:111-114 | the first point at or after the start strictly above the price, or -1 when none is |
| Policies.DynamicStopLossCases | src/services/strategy/strategy.service.ts:99-116 | the entry stop when no target is above the price; the signal's stop when the first or second target is the first above it; otherwise the target two places before, which is then at or under the price |
| Policies.BuyPrice | src/libs/strategy/base-strategy.ts:96-103 | ote by default and under otebuy, the market price under urgentbuy, the smallest entry under minentrybuy |
| Policies.SellPrice | src/libs/strategy/base-strategy.ts:105-114 | by default the last short target, or the first mid target when there is no short one; under each sell tag the maximum or minimum that tag's rule names |
| Policies.Leverage | src/libs/strategy/base-strategy.ts:87-94 | 1 by default and under noleverage, the largest listed leverage under highleverage, the smallest under normalleverage |
| Policies.StopLoss | src/libs/strategy/base-strategy.ts:116-127 | NaN exactly when an argument is; otherwise at least the rule's stop, the signal's stop, the current stop, 0, and the floor while the current stop is 0; and equal to one of them, so it never falls below the current stop or below 0 |
| Policies.FloorBelowPrice | src/libs/strategy/base-strategy.ts:125 | with leverage at least 1 the floor lies between half the price and the price |
| Strategy.OnNewSignal | src/libs/strategy/base-strategy.ts:43-85 | every active buy for the coin is cancelled and nothing else changes; an active sell for the coin blocks the new buy; otherwise exactly one active buy is appended, carrying the signal's own id, with the policy prices, a fresh id and a 24-hour lifetime |
| Strategy.FillBuysSpec | src/libs/strategy/base-strategy.ts:135-175 | the pass throws exactly when a filling buy's signal is unknown; otherwise each buy becomes processed exactly when it fills, the orders outside the pass are kept, and ids stay fresh |
| Strategy.FillBuysOpened | src/libs/strategy/base-strategy.ts:157-170 | every order the pass adds is the sell of some filled buy |
| Strategy.FillBuysCovers | src/libs/strategy/base-strategy.ts:150-170 | every filled buy has its sell among the added orders |
| Strategy.Settle | src/libs/strategy/base-strategy.ts:177-213 | a sell without a price or a signal is untouched; otherwise its stop becomes the ratcheted stop, which never decreases; it is stopped out when the stop is above the price, processed when the price is strictly above the target, and active otherwise; closedAt is set exactly when the status changes |
| Strategy.Expire | src/libs/strategy/base-strategy.ts:215-229 | an order times out exactly when it is an active buy with a lifetime other than -1 that has passed; sells never expire |
| Strategy.UpdateSellOrders | src/libs/strategy/base-strategy.ts:177-213 | the pass over the active sells: every order ends as `Settle` leaves it, so an order that is not an active sell is unchanged |
| Strategy.DisableOldOrders | src/libs/strategy/base-strategy.ts:215-229 | the pass over the active buys: every order ends as `Expire` leaves it, so only active buys past a finite lifetime change |
| Strategy.SettleAllPasses | src/libs/strategy/base-strategy.ts:177-229 | the one-pass update equals `updateSellOrders` run over the book and then `disableOldOrders` run over its result |
| Strategy.TickCrash | src/libs/strategy/base-strategy.ts:129-133 | a tick throws exactly when some filling buy's signal is unknown |
| Strategy.TickExisting | src/libs/strategy/base-strategy.ts:129-133 | after a tick each existing buy is filled then expired, and each existing sell is settled |
| Strategy.TickNewSells | src/libs/strategy/base-strategy.ts:129-133 | a buy filled in a tick has its sell added and settled in the same tick |
| Balance.InsertByTime | src/libs/strategy/base-strategy.ts:251-257 | inserting into a time-sorted list keeps it sorted and adds exactly that order |
| Balance.SortByTime | src/libs/strategy/base-strategy.ts:250-257 | the replay order is sorted by replay time and is a permutation of the book |
| Balance.SortKeepsSorted | src/libs/strategy/base-strategy.ts:250-257 | the sort leaves an already sorted book as it is |
| Balance.SortByTimeStable | src/libs/strategy/base-strategy.ts:250-257 | the sort is stable: the orders of any one replay instant come out in the order the book holds them |
| Balance.TradeSizeBounds | src/libs/strategy/base-strategy.ts:328-331 | an amount above 1 buys that many USDT, capped by the free balance; an amount of at most 1 buys that fraction of it; never more than the balance |
| Balance.SetHolding | src/libs/strategy/base-strategy.ts:281 | sets one coin's holding and keeps every other coin's |
| Balance.Step | src/libs/strategy/base-strategy.ts:258-302 | orders outside the window change nothing; orders that did not complete, and sells without a recorded buy, only open the coin's holding |
| Balance.StepOtherCoins | src/libs/strategy/base-strategy.ts:258-302 | replaying an order leaves the other coins' holdings alone |
| Balance.WindowOf | src/libs/strategy/base-strategy.ts:270-271 | exactly the orders created inside the window whose coin is not excluded |
| Balance.ReplayWindow | src/libs/strategy/base-strategy.ts:270-271 | replaying the book equals replaying only the orders in the window |
| Balance.ReplayBuyValues | src/libs/strategy/base-strategy.ts:277-286 | a buy spends the trade size from SPOT, borrows the leveraged part, adds trade size × leverage / price coins and records the trade |
| Balance.ReplaySellValues | src/libs/strategy/base-strategy.ts:287-301 | a sell adds the holding at its price minus the borrowed part to SPOT, repays the loan, empties the holding and closes the trade |
| Balance.BuyKeepsWorth | src/libs/strategy/base-strategy.ts:277-286 | valued at the buy price, SPOT − LOAN + holdings is the same before and after a buy, and SPOT stays non-negative |
| Balance.SellKeepsWorth | src/libs/strategy/base-strategy.ts:287-301 | valued at the sell price, SPOT − LOAN + holdings is the same before and after a sell |
| Balance.FirstBuy | src/libs/strategy/base-strategy.ts:272-286 | the first buy of a coin starts its holding at the coins bought |
| Balance.TradeRoundTrip | src/libs/strategy/base-strategy.ts:277-301 | a buy then its sell return the loan to where it was, empty the holding, and leave SPOT changed by the coins × sell price − trade size × leverage |
| Balance.Value | src/libs/strategy/base-strategy.ts:304-314 | the kept holdings are the list less the priced zero ones, in order; the USDT rows are the worths of the priced non-zero ones, in order; the total is the start plus exactly those worths |
| Balance.GetBalances | src/libs/strategy/base-strategy.ts:231-326 | SPOT, LOAN and trades are the replay of the time-sorted book from the start balance within the window; TOTAL is SPOT − LOAN plus the worths of the priced non-zero holdings of that replay, and the coin and USDT rows are those holdings kept and valued in order |
| StrategyScenarios.FilNewSignal | src/libs/strategy/base-strategy.ts:43-69 | a FIL signal on an empty default strategy opens one buy at ote with a 24-hour lifetime |
| StrategyScenarios.FilFirstStop | src/libs/strategy/base-strategy.ts:116-127 | the first stop of that trade is the signal's stop, since it is above the floor |
| StrategyScenarios.FilFill | src/libs/strategy/base-strategy.ts:135-175 | at 80 the buy fills and a sell at the last short target is opened |
| StrategyScenarios.FilSettleAt80 | src/libs/strategy/base-strategy.ts:177-213 | at 80 that sell is neither filled nor stopped |
| StrategyScenarios.FilFillsAt80 | src/libs/strategy/base-strategy.ts:129-133 | one tick at 80 fills the buy and opens the sell |
| StrategyScenarios.FilStopsAt74 | src/libs/strategy/base-strategy.ts:177-213 | at 74 the sell is stopped out and its close time recorded |
| BalanceScenarios.PairReplay | src/libs/strategy/base-strategy.ts:250-302 | a buy then its sell are replayed in that order |
| BalanceScenarios.PairValue | src/libs/strategy/base-strategy.ts:304-314 | an emptied, priced holding is dropped and adds nothing to the total |
| Catalog.CombineCount | src/services/strategy/strategy.service.ts:25-37 | the number of keys is the product of the list lengths |
| Catalog.NamesCount | src/services/strategy/strategy.service.ts:39-65 | the catalog has 3 · 5 · 3 · 3 = 135 names |
| Catalog.CombineMembers | src/services/strategy/strategy.service.ts:25-37 | a key is built exactly when it is one tag from each remaining list, joined by `-` after the prefix |
| Catalog.NamesAreTagChoices | src/services/strategy/strategy.service.ts:25-65 | a name is in the catalog exactly when it is buy-sell-stop-leverage tags joined by `-`, with no leading separator |
| Catalog.NameToTags | src/services/strategy/strategy.service.ts:25-65 | every catalog name splits into one tag per list |
| Catalog.TagsToName | src/services/strategy/strategy.service.ts:25-65 | every choice of one tag per list is a catalog name |
| Catalog.CombineDistinct | src/services/strategy/strategy.service.ts:25-37 | lists of distinct, separator-free tags give distinct keys |
| Catalog.NamesDistinct | src/services/strategy/strategy.service.ts:39-65 | no catalog name occurs twice |
| Catalog.UrgentBuyApart | src/services/strategy/strategy.service.ts:70 | among the tags only `urgentbuy` contains `urgentbuy` |
| Catalog.OteBuyApart | src/services/strategy/strategy.service.ts:71 | among the tags only `otebuy` contains `otebuy` |
| Catalog.MinEntryBuyApart | src/services/strategy/strategy.service.ts:72 | among the tags only `minentrybuy` contains `minentrybuy` |
| Catalog.ShortestApart | src/services/strategy/strategy.service.ts:74 | among the tags only `shortest` contains `shortest` |
| Catalog.ShortMaxApart | src/services/strategy/strategy.service.ts:75 | among the tags only `shortmax` contains `shortmax` |
| Catalog.MidestApart | src/services/strategy/strategy.service.ts:76 | among the tags only `midest` contains `midest` |
| Catalog.MidMaxApart | src/services/strategy/strategy.service.ts:77 | among the tags only `midmax` contains `midmax` |
| Catalog.LongestApart | src/services/strategy/strategy.service.ts:78 | among the tags only `longest` contains `longest` |
| Catalog.OrgStopApart | src/services/strategy/strategy.service.ts:80 | among the tags only `orgstop` contains `orgstop` |
| Catalog.MinEntryStopApart | src/services/strategy/strategy.service.ts:81 | among the tags only `minentrystop` contains `minentrystop` |
| Catalog.DynamicStopApart | src/services/strategy/strategy.service.ts:82 | among the tags only `dynamicstop` contains `dynamicstop` |
| Catalog.HighLeverageApart | src/services/strategy/strategy.service.ts:84 | among the tags only `highleverage` contains `highleverage` |
| Catalog.NormalLeverageApart | src/services/strategy/strategy.service.ts:85 | among the tags only `normalleverage` contains `normalleverage` |
| Catalog.NoLeverageApart | src/services/strategy/strategy.service.ts:86 | among the tags only `noleverage` contains `noleverage` |
| Catalog.TagInTag | src/services/strategy/strategy.service.ts:67-86 | no tag is a substring of another tag |
| Catalog.MentionsContains | src/services/strategy/strategy.service.ts:70 | `indexOf(tag) >= 0` holds exactly when the name contains the tag |
| Catalog.NameMentions | src/services/strategy/strategy.service.ts:67-86 | a catalog name contains a tag exactly when the tag is one of its four parts |
| Catalog.BuyOfName | src/services/strategy/strategy.service.ts:70-72 | a name's buy rule is the one for its buy tag |
| Catalog.SellOfName | src/services/strategy/strategy.service.ts:74-78 | a name's sell rule is the one for its sell tag |
| Catalog.StopOfName | src/services/strategy/strategy.service.ts:80-82 | a name's stop rule is the one for its stop tag |
| Catalog.LeverageOfName | src/services/strategy/strategy.service.ts:84-86 | a name's leverage rule is the one for its leverage tag |
| Catalog.PolicyOfName | src/services/strategy/strategy.service.ts:67-87 | every catalog name sets exactly one buy, sell, stop and leverage rule: those of its own tags |
| Catalog.NamePolicy | src/services/strategy/strategy.service.ts:67-96 | the policy each catalog name selects is exactly the four rules of the four tags the name is made of |
| Catalog.Strategies | src/services/strategy/strategy.service.ts:67-96 | one strategy per catalog name, in catalog order, with an empty book; each is named by four tags and carries exactly their four rules |
| Registry.Initial | src/services/strategy/strategy.service.ts:39-97 | 135 strategies with distinct names and empty books, each carrying the four rules of its name's tags |
| Registry.FallingCases | src/services/strategy/strategy.service.ts:120 | a signal is dropped exactly when it has no short target or one below the first |
| Registry.SignalAll | src/services/strategy/strategy.service.ts:124 | every strategy in turn takes the signal; names and policies are kept |
| Registry.SignalAllEach | src/services/strategy/strategy.service.ts:124 | each strategy's book is its own `onNewSignal` result with the ids left by those before it |
| Registry.SignalAllFresh | src/services/strategy/strategy.service.ts:124 | ids handed out later stay new to every book |
| Registry.UpdateAll | src/services/strategy/strategy.service.ts:130-133 | every strategy in turn takes the prices; names and policies are kept |
| Registry.UpdateAllCrash | src/services/strategy/strategy.service.ts:130-133 | a round throws exactly when some strategy's tick throws |
| Registry.UpdateAllStops | src/services/strategy/strategy.service.ts:130-133 | strategies after the one that throws are left as they were |
| Registry.UpdateAllEach | src/services/strategy/strategy.service.ts:130-133 | before any throw, each strategy's book is its own tick result |
| Registry.UpdateAllFresh | src/services/strategy/strategy.service.ts:130-133 | a round that does not throw keeps ids fresh |
| Registry.OnNewSignal | src/services/strategy/strategy.service.ts:118-128 | a falling signal changes nothing; any signal keeps the strategies' number, names and policies and moves the ids forward |
| Registry.OnNewSignalEach | src/services/strategy/strategy.service.ts:118-128 | for a signal that is not falling, every strategy no earlier throw cut off takes the signal as on its own and then ticks at the current prices, each with the ids the strategies before it left |
| Registry.OnNewSignalCrash | src/services/strategy/strategy.service.ts:118-128 | handling a signal throws iff it is not falling and some strategy, once it holds the signal's buy, throws on the price tick |
| Registry.OnNewSignalFresh | src/services/strategy/strategy.service.ts:118-128 | ids stay fresh across a signal |
| Registry.Insert | src/services/strategy/strategy.service.ts:143-147 | inserting a row adds exactly that row |
| Registry.Rank | src/services/strategy/strategy.service.ts:143-147 | ranking is a permutation of the rows |
| Registry.InsertDescending | src/services/strategy/strategy.service.ts:143-147 | inserting into rows ordered by non-increasing TOTAL keeps them so |
| Registry.RankDescending | src/services/strategy/strategy.service.ts:143-147 | without NaN totals the ranking is ordered by non-increasing TOTAL |
| Registry.Rows | src/services/strategy/strategy.service.ts:136-142 | one row per strategy, in registry order, named by the strategy and holding that strategy's own backtest balances |
| Registry.GetBalances | src/services/strategy/strategy.service.ts:135-148 | the ranked rows are a permutation of the per-strategy rows |
| Registry.GetBalancesRanked | src/services/strategy/strategy.service.ts:135-148 | without NaN totals, one row per strategy in non-increasing TOTAL order |
| Registry.GetData | src/services/strategy/strategy.service.ts:150-157 | the snapshot has exactly the registered names as keys |
| Registry.GetDataBooks | src/services/strategy/strategy.service.ts:150-157 | each name maps to that strategy's book |
| Registry.SetData | src/services/strategy/strategy.service.ts:159-164 | restoring keeps the registry's names, order and policies |
| Registry.SetGetData | src/services/strategy/strategy.service.ts:150-164 | restoring a snapshot of the registry changes nothing |
| Registry.GetSetData | src/services/strategy/strategy.service.ts:150-164 | after a restore, a strategy's book is the given one when its name is a key, and its own book otherwise; unknown keys are ignored |
| Registry.SetDataTwice | src/services/strategy/strategy.service.ts:159-164 | restoring twice is restoring once |
| Registry.WithoutMembers | src/services/strategy/strategy.service.ts:169-172 | an order survives exactly when its signal id is not loosely equal to the route's id |
| Registry.WithoutTwice | src/services/strategy/strategy.service.ts:169-172 | removing twice is removing once |
| Registry.RemoveSignal | src/services/strategy/strategy.service.ts:166-174 | removal keeps every strategy, its name and its policy |
| Registry.RemoveSignalMembers | src/services/strategy/strategy.service.ts:166-174 | in every strategy, whatever the status, an order goes exactly when its signal id `==` the route's string: a cuid when it is that string, a number when `Number` reads the string as it, and an order with a null id always stays |
| Registry.RemoveSignalTwice | src/services/strategy/strategy.service.ts:166-174 | removing a signal twice is removing it once |
| NewCoins.FindToken | src/services/new-coin/new-coin.service.ts:81 | the leftmost match of `\([A-Z0-9]{3,10}\)`, or none when there is no match |
| NewCoins.ParseTitle | src/services/new-coin/new-coin.service.ts:80-90 | a title is ignored exactly when it has no token or no `Will List` at or before the token; a listing's pair is the token followed by USDT |
| NewCoins.ListingRoundTrip | src/services/new-coin/new-coin.service.ts:80-90 | `… Will List <name> (<TOKEN>) …` gives back the pair `<TOKEN>USDT` and the name |
| NewCoins.IndexOfSymbol | src/services/new-coin/new-coin.service.ts:72 | the first entry for the pair, or -1 exactly when it is not listed |
| NewCoins.AddNewCoin | src/services/new-coin/new-coin.service.ts:96-107 | a listed pair changes nothing; a new one is appended, existing exactly when the exchange quotes it |
| NewCoins.AddNewCoinListed | src/services/new-coin/new-coin.service.ts:96-107 | afterwards the pair is listed |
| NewCoins.AddNewCoinUnique | src/services/new-coin/new-coin.service.ts:96-107 | adding never creates a duplicate pair |
| NewCoins.AddNewCoinTwice | src/services/new-coin/new-coin.service.ts:96-107 | adding the same pair again changes nothing, whatever the name, prices or time |
| NewCoins.CheckNewCoins | src/services/new-coin/new-coin.service.ts:78-94 | the entries already there are kept as they were |
| NewCoins.CheckTitleAppended | src/services/new-coin/new-coin.service.ts:79-107 | one title appends at most one entry, for the pair it announces, under the announced name, trading iff quoted, stamped now, and only when the pair was not listed |
| NewCoins.CheckNewCoinsAppended | src/services/new-coin/new-coin.service.ts:78-107 | every entry a scan appends is for a pair one of the titles announces, under that title's name, trading iff quoted, stamped now, and for a pair not listed before the scan |
| NewCoins.CheckNewCoinsUnique | src/services/new-coin/new-coin.service.ts:78-94 | a list without duplicate pairs stays without them |
| NewCoins.CheckNewCoinsListed | src/services/new-coin/new-coin.service.ts:78-94 | every pair announced by one of the titles is listed afterwards |
| NewCoins.Pending | src/services/new-coin/new-coin.service.ts:115 | exactly the entries not yet existing |
| NewCoins.HasNewCoin | src/services/new-coin/new-coin.service.ts:114-117 | true exactly when some entry does not exist yet |
| NewCoins.OnNewCoinOrdered | src/services/new-coin/new-coin.service.ts:69-76 | only the first entry for the pair changes, and it becomes existing; an unlisted pair changes nothing |
| NewCoins.OrderedPending | src/services/new-coin/new-coin.service.ts:69-117 | after ordering a pair, a new coin remains exactly when another pair is still pending |
| NewCoins.Candidates | src/services/new-coin/new-coin.service.ts:163-170 | exactly the lines, with their answer's index, that contain `(SYMBOL)` |
| NewCoins.FirstMentioning | src/services/new-coin/new-coin.service.ts:176-182 | the first candidate whose line, lower-cased by `toLowerCase`, contains `title (symbol)` in lower case, or -1 when none does |
| NewCoins.SecondField | src/services/new-coin/new-coin.service.ts:189-200 | the text between the first and second tab, holding no tab; none exactly when the line has fewer than two tabs |
| NewCoins.SecondFieldRoundTrip | src/services/new-coin/new-coin.service.ts:189-200 | `pre \t field \t rest` with tab-free pre and field gives back the field |
| NewCoins.AddressOf | src/services/new-coin/new-coin.service.ts:188-205 | the address and answer index when the line has two tabs, unparsable otherwise |
| NewCoins.GetContractAddress | src/services/new-coin/new-coin.service.ts:161-206 | unknown exactly when no line contains `(SYMBOL)`; ambiguous exactly when two or more do and none mentions `title (symbol)`; a single candidate gives its address; any address found is the second field of a line naming the symbol |
| NewCoins.GetContractAddressFirst | src/services/new-coin/new-coin.service.ts:175-182 | among several candidates the address comes from the first whose lower-cased line names `title (symbol)` |
| News.FirstStamp | src/services/news/news.service.ts:37 | the leftmost `dddd-dd-dd dd:dd (UTC)` stamp, or -1 exactly when there is none |
| News.StampsOccur | src/services/news/news.service.ts:37-42 | every stamp the scan meets occurs in the content |
| News.StampsEmpty | src/services/news/news.service.ts:37-38 | the scan meets nothing exactly when the content has no stamp |
| News.Dedup | src/services/news/news.service.ts:41 | first occurrences only: no repeats, and the same members as the input |
| News.DedupPrefix | src/services/news/news.service.ts:36-43 | the order of first occurrence: the result for a prefix is a prefix of the result |
| News.ScanKeeps | src/services/news/news.service.ts:36-43 | the loop keeps the stamps it meets, in the order it meets them |
| News.KeepDedup | src/services/news/news.service.ts:41 | keeping new elements one by one gives the first occurrences |
| News.DatesOf | src/services/news/news.service.ts:32-45 | the loop ends and returns the distinct stamps of the content in order of first occurrence; empty exactly when the content has no stamp |
| News.DatesOfMembers | src/services/news/news.service.ts:37-41 | every date returned is a stamp that occurs in the content, and every stamp met is returned |

## Left out

- The exchange client (src/services/binance/binance.service.ts), the live execution layer (src/services/bot/bot.service.ts) and the indicator bot (src/services/bibot/bibot.service.ts): these are exchange calls, retries, sleeps and float rounding. The price table and daily statistics they provide are parameters.
- The Telegram login, listener and channel selection: network I/O. The listener's choice of parser by channel id is the `Channel` parameter. Its skipping of replies is not modelled.
- Storage, logging, HTTP, websocket, cron and event wiring. The `telegram.onSignal` emission is the `Accepted` verdict. The `binance.newCoin.added` and `binance.newcoin` emissions are not modelled.
- `filterArticles`, `buyNewCoin` and the explorer requests that feed `getContractAddress`. Their answers are the `response` parameter.
- `parseFloat` and `parseInt` are an abstract `NumberSyntax` parameter. A parsed field is therefore never NaN.
- `moment` date formatting of the trade start and finish. The model keeps the raw instants.
- `cuid()` and `Date.now()` are the `IdSource` and `now` parameters. All `Date.now()` calls within one operation read the same instant.
- The concurrency of the `forEach(async …)` fan-outs: modelled as sequential.
- `null` and `undefined` are one value. The VIP parser's `undefined` result is `Success(None)`. `getContractAddress`'s `null` and `undefined` results are the `Unknown`, `Ambiguous` and `Unparsable` verdicts.
- Vip.ParseCoin: a line with fewer than three tokens is a plain failure. The source throws a TypeError there, from calling `replace` on `undefined`; the message text is not modelled.
- Balance.GetBalances: the source's `coins` object also holds the SPOT and LOAN keys. The model reports them separately and holds only coin holdings.
- Balance.GetBalances: the `amounts` record keeps instants, not formatted dates.
- Registry.GetBalancesRanked: ordering is proved only when no TOTAL is NaN. The source's comparator is not a total order in the presence of NaN.
- Balance.SortByTime: matches the source's sort only for books with no active sell. An active sell has no `closedAt`, so the source's comparator answers -1 in both directions. The comparator is then inconsistent, and the order of the whole sorted array, not only the sell's place, is implementation-defined. Every strategy with an open position holds such a sell. Take a book of a processed buy of A at time 1, its active sell, then a processed buy of B at time 3. A run scan such as V8's sees two -1 answers, takes the book for a descending run and reverses it, so B replays first. The model places an active sell at its `createdAt` and replays A first.
- Balance.GetBalances: SPOT, LOAN, TOTAL and the trades equal the source's only for books with no active sell. With one, the source's replay order is the engine's (see Balance.SortByTime). With `buyAmount` at most 1 the trade sizes depend on that order.
- Vip.ParseSignalId: a `SIGNAL ID:` line that `parseInt` cannot read gives a NaN id in the source, which no route id equals. The `parseInt` parameter always yields an integer, so that id is not modelled.
- Registry.GetData: strategies are registered with a truthy object, so the source's empty-slot check is never taken and is not modelled.
- NewCoins.CheckNewCoins: states the prefix kept and, through its lemmas, what each appended entry is and which pairs are added. It does not state the order in which new pairs are appended.
- Registry.Rank: states a permutation ordered by TOTAL; it does not state that rows with equal totals keep their order.

=== FILE: balance.dfy ===
/**
 * The backtest of one strategy (`getBalances` in
 * src/libs/strategy/base-strategy.ts): its completed orders are replayed in
 * time order against a paper account with free USDT (SPOT), borrowed USDT
 * (LOAN) and coin holdings, and the account is then valued at current prices.
 */
module Balance {
  import opened Wrappers
  import opened JsNumbers
  import opened Orders
  import opened Strategy

  /** One day in milliseconds. */
  const DayMs: int := 24 * 60 * 60 * 1000

  // ---------------------------------------------------------------- replay order

  /** The instant an order is replayed at: a buy when it was placed, a sell when it closed. */
  function ReplayTime(o: Order): int {
    if o.side == Buy then o.createdAt else o.closedAt.GetOr(o.createdAt)
  }

  predicate SortedByTime(s: seq<Order>) {
    forall i, j :: 0 <= i < j < |s| ==> ReplayTime(s[i]) <= ReplayTime(s[j])
  }

  /** Inserts `o` after every order that is not later than it. */
  function InsertByTime(sorted: seq<Order>, o: Order): (r: seq<Order>)
    requires SortedByTime(sorted)
    ensures SortedByTime(r)
    ensures multiset(r) == multiset(sorted) + multiset{o}
    ensures |r| == |sorted| + 1
    decreases |sorted|
  {
    if |sorted| == 0 then [o]
    else
      var last := sorted[|sorted| - 1];
      var front := sorted[..|sorted| - 1];
      assert sorted == front + [last];
      if ReplayTime(last) <= ReplayTime(o) then sorted + [o]
      else
        var r := InsertByTime(front, o);
        AppendLatest(r, front, o, last);
        r + [last]
  }

  /** An order no earlier than everything in `r` can be appended to it. */
  lemma AppendLatest(r: seq<Order>, front: seq<Order>, o: Order, last: Order)
    requires SortedByTime(r) && multiset(r) == multiset(front) + multiset{o}
    requires ReplayTime(o) <= ReplayTime(last)
    requires forall i :: 0 <= i < |front| ==> ReplayTime(front[i]) <= ReplayTime(last)
    ensures SortedByTime(r + [last])
  {
    forall i | 0 <= i < |r|
      ensures ReplayTime(r[i]) <= ReplayTime(last)
    {
      assert r[i] in multiset(r);
      if r[i] != o {
        assert r[i] in multiset(front);
        assert r[i] in front;
      }
    }
  }

  /** The stable ascending sort of the orders by replay time. */
  function SortByTime(orders: seq<Order>): (r: seq<Order>)
    ensures SortedByTime(r)
    ensures multiset(r) == multiset(orders)
    ensures |r| == |orders|
  {
    if |orders| == 0 then []
    else
      var front := orders[..|orders| - 1];
      assert orders == front + [orders[|orders| - 1]];
      InsertByTime(SortByTime(front), orders[|orders| - 1])
  }

  /** Orders already in time order are left where they are. */
  lemma {:induction false} SortKeepsSorted(orders: seq<Order>)
    requires SortedByTime(orders)
    ensures SortByTime(orders) == orders
  {
    if |orders| > 0 {
      var front := orders[..|orders| - 1];
      var x := orders[|orders| - 1];
      assert SortedByTime(front);
      SortKeepsSorted(front);
      assert SortByTime(orders) == InsertByTime(front, x);
      if |front| > 0 {
        assert ReplayTime(front[|front| - 1]) <= ReplayTime(x);
      }
      assert front + [x] == orders;
    }
  }

  /** The orders replayed at instant `t`, in the order `s` holds them. */
  function AtTime(s: seq<Order>, t: int): seq<Order>
    decreases |s|
  {
    if |s| == 0 then []
    else AtTime(s[..|s| - 1], t) + (if ReplayTime(s[|s| - 1]) == t then [s[|s| - 1]] else [])
  }

  lemma {:induction false} AtTimeAppend(a: seq<Order>, b: seq<Order>, t: int)
    ensures AtTime(a + b, t) == AtTime(a, t) + AtTime(b, t)
    decreases |b|
  {
    if |b| == 0 {
      assert a + b == a;
    } else {
      var n := |b| - 1;
      var x := b[n];
      assert (a + b)[..|a + b| - 1] == a + b[..n];
      assert (a + b)[|a + b| - 1] == x;
      var tail := if ReplayTime(x) == t then [x] else [];
      assert AtTime(a + b, t) == AtTime(a + b[..n], t) + tail;
      assert AtTime(b, t) == AtTime(b[..n], t) + tail;
      AtTimeAppend(a, b[..n], t);
    }
  }

  /** Inserting places the new order after every order of the same instant. */
  lemma {:induction false} InsertByTimeStable(sorted: seq<Order>, o: Order, t: int)
    requires SortedByTime(sorted)
    ensures AtTime(InsertByTime(sorted, o), t) == AtTime(sorted, t) + AtTime([o], t)
    decreases |sorted|
  {
    if |sorted| == 0 {
      assert InsertByTime(sorted, o) == [o];
    } else {
      var last := sorted[|sorted| - 1];
      var front := sorted[..|sorted| - 1];
      if ReplayTime(last) <= ReplayTime(o) {
        assert InsertByTime(sorted, o) == sorted + [o];
        AtTimeAppend(sorted, [o], t);
      } else {
        assert SortedByTime(front);
        var r := InsertByTime(front, o);
        assert InsertByTime(sorted, o) == r + [last];
        InsertByTimeStable(front, o, t);
        assert sorted == front + [last];
        StableStep(front, last, o, r, t);
      }
    }
  }

  /** Moving an order ahead of a later one does not change the orders of any one instant. */
  lemma StableStep(front: seq<Order>, last: Order, o: Order, r: seq<Order>, t: int)
    requires ReplayTime(o) < ReplayTime(last)
    requires AtTime(r, t) == AtTime(front, t) + AtTime([o], t)
    ensures AtTime(r + [last], t) == AtTime(front + [last], t) + AtTime([o], t)
  {
    AtTimeAppend(r, [last], t);
    AtTimeAppend(front, [last], t);
    assert [o][..0] == [] && [last][..0] == [];
  }

  /**
   * The sort is stable: orders replayed at the same instant keep the order
   * the book holds them in, so a buy and the sell opened for it in the same
   * tick are replayed buy first.
   */
  lemma {:induction false} SortByTimeStable(orders: seq<Order>, t: int)
    ensures AtTime(SortByTime(orders), t) == AtTime(orders, t)
    decreases |orders|
  {
    if |orders| > 0 {
      var front := orders[..|orders| - 1];
      var x := orders[|orders| - 1];
      assert orders == front + [x];
      SortByTimeStable(front, t);
      InsertByTimeStable(SortByTime(front), x, t);
      AtTimeAppend(front, [x], t);
    }
  }

  // ---------------------------------------------------------------- the paper account

  /** A coin and how much of it the account holds. */
  datatype Holding = Holding(coin: string, amount: JsNum)

  /** The record of one signal's trade: what was spent on the buy and what the sell returned. */
  datatype Trade = Trade(symbol: string, from: JsNum, to: Option<JsNum>, start: int, finish: Option<int>)

  /** The paper account: free USDT, borrowed USDT, coin holdings in insertion order, trades by signal id. */
  datatype Ledger = Ledger(spot: JsNum, loan: JsNum, holdings: seq<Holding>, trades: map<string, Trade>)

  /** `balances[coin]`: the first holding of the coin, or undefined. */
  function HoldingOf(hs: seq<Holding>, coin: string): (r: JsNum)
    ensures r.NaN? || exists i :: 0 <= i < |hs| && hs[i].coin == coin && hs[i].amount == r
    ensures (forall i :: 0 <= i < |hs| ==> hs[i].coin != coin) ==> r.NaN?
  {
    if |hs| == 0 then NaN
    else if hs[0].coin == coin then hs[0].amount
    else
      var r := HoldingOf(hs[1..], coin);
      assert forall i :: 1 <= i < |hs| ==> hs[i] == hs[1..][i - 1];
      r
  }

  /** `balances[coin] = v`: the first holding of the coin is overwritten where it stands, or one is appended. */
  function SetHolding(hs: seq<Holding>, coin: string, v: JsNum): (r: seq<Holding>)
    ensures HoldingOf(r, coin) == v
    ensures forall c :: c != coin ==> HoldingOf(r, c) == HoldingOf(hs, c)
    ensures |r| == |hs| || r == hs + [Holding(coin, v)]
  {
    if |hs| == 0 then [Holding(coin, v)]
    else if hs[0].coin == coin then [Holding(coin, v)] + hs[1..]
    else
      var r := [hs[0]] + SetHolding(hs[1..], coin, v);
      assert r[1..] == SetHolding(hs[1..], coin, v);
      r
  }

  /** `if (!balances[coin]) balances[coin] = 0`. */
  function Touch(l: Ledger, coin: string): Ledger {
    if Truthy(HoldingOf(l.holdings, coin)) then l
    else l.(holdings := SetHolding(l.holdings, coin, Fin(0.0)))
  }

  /**
   * `calculateBuyAmount`: an amount above 1 is a fixed USDT size capped by the
   * free balance, one of at most 1 is a fraction of the free balance.
   */
  function TradeSize(balance: JsNum, amount: real): (r: JsNum)
    ensures balance.Fin? ==> r.Fin?
  {
    if amount > 1.0 then Min2(balance, Fin(amount)) else Mul(balance, Fin(amount))
  }

  /**
   * From a non-negative balance the trade size is never negative and never more
   * than the balance: the fixed size capped by the balance, or the fraction of it.
   */
  lemma TradeSizeBounds(b: real, amount: real)
    requires b >= 0.0 && amount >= 0.0
    ensures TradeSize(Fin(b), amount).Fin?
    ensures var t := TradeSize(Fin(b), amount).v;
      0.0 <= t <= b &&
      (amount > 1.0 ==> t <= amount && (t == amount || t == b)) &&
      (amount <= 1.0 ==> t == b * amount)
  {
    if amount <= 1.0 {
      assert TradeSize(Fin(b), amount) == Fin(b * amount);
      FractionBelow(b, amount);
    }
  }

  lemma FractionBelow(b: real, a: real)
    requires b >= 0.0 && 0.0 <= a <= 1.0
    ensures 0.0 <= b * a <= b
  {
    assert b * a <= b * 1.0;
  }

  /** The replay settings: the trade size, the excluded coins and the earliest creation time replayed. */
  datatype Window = Window(buyAmount: real, excepts: seq<string>, limit: real)

  /** Orders created before the window or for an excluded coin are skipped. */
  predicate InWindow(o: Order, w: Window) {
    !((o.createdAt as real) < w.limit) && o.coin !in w.excepts
  }

  /** Only filled and stopped-out orders move money. */
  predicate Counted(o: Order) {
    o.status == Processed || o.status == StopLess
  }

  /** The price a sell is replayed at: its stop when it was stopped out, else its target. */
  function SellPriceOf(o: Order): JsNum {
    if o.status == StopLess then o.stopLoss.GetOr(NaN) else o.price
  }

  /** A buy: spend the trade size, borrow the leveraged part, and add the coins it buys at the buy price. */
  function ReplayBuy(l: Ledger, o: Order, w: Window): Ledger {
    var a := TradeSize(l.spot, w.buyAmount);
    var held := HoldingOf(l.holdings, o.coin);
    Ledger(Sub(l.spot, a), Add(l.loan, Mul(a, Sub(o.leverage, Fin(1.0)))),
           SetHolding(l.holdings, o.coin, Add(held, Div(Mul(a, o.leverage), o.price))),
           l.trades[o.signalId := Trade(o.coin, a, None, o.createdAt, None)])
  }

  /** A sell: sell the whole holding, repay what its buy borrowed, and close the trade. */
  function ReplaySell(l: Ledger, o: Order): Ledger
    requires o.signalId in l.trades
  {
    var t := l.trades[o.signalId];
    var debt := Mul(t.from, Sub(o.leverage, Fin(1.0)));
    var proceeds := Sub(Mul(HoldingOf(l.holdings, o.coin), SellPriceOf(o)), debt);
    Ledger(Add(l.spot, proceeds), Sub(l.loan, debt), SetHolding(l.holdings, o.coin, Fin(0.0)),
           l.trades[o.signalId := t.(to := Some(proceeds), finish := o.closedAt)])
  }

  /** One order of the replay. */
  function Step(l: Ledger, o: Order, w: Window): (r: Ledger)
    ensures !InWindow(o, w) ==> r == l
    ensures InWindow(o, w) && !Counted(o) ==> r == Touch(l, o.coin)
    ensures InWindow(o, w) && Counted(o) && o.side == Sell && o.signalId !in l.trades ==> r == Touch(l, o.coin)
    ensures InWindow(o, w) ==> Truthy(HoldingOf(l.holdings, o.coin)) || !HoldingOf(r.holdings, o.coin).NaN? ||
                               (Counted(o) && o.side == Buy)
  {
    if !InWindow(o, w) then l
    else
      var l1 := Touch(l, o.coin);
      if !Counted(o) then l1
      else if o.side == Buy then ReplayBuy(l1, o, w)
      else if o.signalId in l1.trades then ReplaySell(l1, o)
      else l1
  }

  /** An order moves only the holding of its own coin. */
  lemma StepOtherCoins(l: Ledger, o: Order, w: Window, c: string)
    requires c != o.coin
    ensures HoldingOf(Step(l, o, w).holdings, c) == HoldingOf(l.holdings, c)
  {
  }

  /** The replay over orders in the given order. */
  function Replay(l: Ledger, orders: seq<Order>, w: Window): Ledger
    decreases |orders|
  {
    if |orders| == 0 then l else Replay(Step(l, orders[0], w), orders[1..], w)
  }

  /** The orders of the window, in order. */
  function WindowOf(orders: seq<Order>, w: Window): (r: seq<Order>)
    ensures forall o :: o in r <==> o in orders && InWindow(o, w)
    decreases |orders|
  {
    if |orders| == 0 then []
    else if InWindow(orders[0], w) then [orders[0]] + WindowOf(orders[1..], w)
    else WindowOf(orders[1..], w)
  }

  /** Orders outside the window and excluded coins have no effect at all on the replay. */
  lemma {:induction false} ReplayWindow(l: Ledger, orders: seq<Order>, w: Window)
    ensures Replay(l, orders, w) == Replay(l, WindowOf(orders, w), w)
    decreases |orders|
  {
    if |orders| > 0 {
      ReplayWindow(Step(l, orders[0], w), orders[1..], w);
      if !InWindow(orders[0], w) {
        ReplayWindow(l, orders[1..], w);
      } else {
        var rest := WindowOf(orders[1..], w);
        assert ([orders[0]] + rest)[1..] == rest;
      }
    }
  }

  /**
   * A counted buy keeps the account's worth at the buy price: with `a` the
   * trade size and `held` the coins it buys (`held·price = a·lev`), SPOT drops
   * by `a`, LOAN grows by the borrowed `a·(lev−1)`, the holding grows by
   * `held`, so SPOT − LOAN plus the holding times the buy price is what it
   * was; and SPOT never goes below zero.
   */
  lemma BuyKeepsWorth(l: Ledger, o: Order, w: Window, s: real, d: real, a: real, h: real, held: real,
                      price: real, lev: real)
    requires InWindow(o, w) && Counted(o) && o.side == Buy
    requires l.spot == Fin(s) && l.loan == Fin(d) && TradeSize(Fin(s), w.buyAmount) == Fin(a)
    requires HoldingOf(Touch(l, o.coin).holdings, o.coin) == Fin(h)
    requires o.price == Fin(price) && price != 0.0 && o.leverage == Fin(lev) && held * price == a * lev
    ensures var r := Step(l, o, w);
      r.spot == Fin(s - a) && r.loan == Fin(d + a * (lev - 1.0)) && HoldingOf(r.holdings, o.coin) == Fin(h + held)
    ensures (s - a) - (d + a * (lev - 1.0)) + (h + held) * price == s - d + h * price
    ensures s >= 0.0 && w.buyAmount >= 0.0 ==> s - a >= 0.0
  {
    var l1 := Touch(l, o.coin);
    assert l1.spot == Fin(s) && l1.loan == Fin(d) && l1.trades == l.trades;
    assert Step(l, o, w) == ReplayBuy(l1, o, w);
    ReplayBuyValues(l1, o, w, s, d, a, h, held, price, lev);
    WorthAtBuy(s, d, a, h, held, price, lev);
    if s >= 0.0 && w.buyAmount >= 0.0 {
      TradeSizeBounds(s, w.buyAmount);
    }
  }

  lemma WorthAtBuy(s: real, d: real, a: real, h: real, held: real, price: real, lev: real)
    requires held * price == a * lev
    ensures (s - a) - (d + a * (lev - 1.0)) + (h + held) * price == s - d + h * price
  {
    assert (h + held) * price == h * price + held * price;
    assert a * (lev - 1.0) == a * lev - a;
  }

  /**
   * A counted sell whose signal has a recorded buy of size `from` keeps the
   * account's worth at the sell price: the holding `h` (as it stands once an
   * unset holding is taken as 0) is turned into USDT at that price, the part
   * the buy borrowed, `from·(lev−1)`, is taken off both SPOT and LOAN, so
   * SPOT − LOAN grows by `h·price`; the holding becomes 0 and the trade is
   * closed with the proceeds and the sell's closing time.
   */
  lemma SellKeepsWorth(l: Ledger, o: Order, w: Window, s: real, d: real, from: real, h: real, price: real, lev: real)
    requires InWindow(o, w) && Counted(o) && o.side == Sell && o.signalId in l.trades
    requires l.spot == Fin(s) && l.loan == Fin(d) && l.trades[o.signalId].from == Fin(from)
    requires HoldingOf(Touch(l, o.coin).holdings, o.coin) == Fin(h)
    requires SellPriceOf(o) == Fin(price) && o.leverage == Fin(lev)
    ensures var t := l.trades[o.signalId];
      var debt := from * (lev - 1.0);
      var r := Step(l, o, w);
      r.spot == Fin(s + h * price - debt) && r.loan == Fin(d - debt) &&
      HoldingOf(r.holdings, o.coin) == Fin(0.0) &&
      r.trades[o.signalId] == Trade(t.symbol, t.from, Some(Fin(h * price - debt)), t.start, o.closedAt)
    ensures (s + h * price - from * (lev - 1.0)) - (d - from * (lev - 1.0)) == s - d + h * price
  {
    var before := Touch(l, o.coin);
    assert before.trades == l.trades && before.spot == l.spot && before.loan == l.loan;
    assert Step(l, o, w) == ReplaySell(before, o);
    ReplaySellValues(before, o, s, d, from, h, price, lev);
  }

  /** The arithmetic of `ReplaySell`. */
  lemma ReplaySellValues(l: Ledger, o: Order, s: real, d: real, from: real, h: real, price: real, lev: real)
    requires o.signalId in l.trades
    requires l.spot == Fin(s) && l.loan == Fin(d) && l.trades[o.signalId].from == Fin(from)
    requires HoldingOf(l.holdings, o.coin) == Fin(h)
    requires SellPriceOf(o) == Fin(price) && o.leverage == Fin(lev)
    ensures var t := l.trades[o.signalId];
      var debt := from * (lev - 1.0);
      var r := ReplaySell(l, o);
      r.spot == Fin(s + h * price - debt) && r.loan == Fin(d - debt) &&
      HoldingOf(r.holdings, o.coin) == Fin(0.0) &&
      r.trades[o.signalId] == Trade(t.symbol, t.from, Some(Fin(h * price - debt)), t.start, o.closedAt)
    ensures (s + h * price - from * (lev - 1.0)) - (d - from * (lev - 1.0)) == s - d + h * price
  {
    var t := l.trades[o.signalId];
    var debt := from * (lev - 1.0);
    assert Mul(t.from, Sub(Fin(lev), Fin(1.0))) == Fin(debt);
    assert Sub(Mul(Fin(h), Fin(price)), Fin(debt)) == Fin(h * price - debt);
  }

  /** Taking an unset holding as 0 leaves a set one alone. */
  lemma TouchKeeps(l: Ledger, coin: string, x: real)
    requires HoldingOf(l.holdings, coin) == Fin(x)
    ensures HoldingOf(Touch(l, coin).holdings, coin) == Fin(x)
  {
  }

  /**
   * A counted buy of a coin the account does not hold, spending `a` USDT at
   * price `p` with leverage `lev`, which buys `held` coins (`held·p = a·lev`).
   */
  lemma FirstBuy(l: Ledger, buy: Order, w: Window, s: real, d: real, a: real, held: real, p: real, lev: real)
    requires InWindow(buy, w) && Counted(buy) && buy.side == Buy
    requires l.spot == Fin(s) && l.loan == Fin(d) && TradeSize(Fin(s), w.buyAmount) == Fin(a)
    requires !Truthy(HoldingOf(l.holdings, buy.coin))
    requires buy.price == Fin(p) && p > 0.0 && buy.leverage == Fin(lev) && held * p == a * lev
    ensures var m := Step(l, buy, w);
      m.spot == Fin(s - a) && m.loan == Fin(d + a * (lev - 1.0)) &&
      HoldingOf(m.holdings, buy.coin) == Fin(held) &&
      buy.signalId in m.trades && m.trades[buy.signalId] == Trade(buy.coin, Fin(a), None, buy.createdAt, None)
  {
    var l1 := Touch(l, buy.coin);
    assert l1.spot == Fin(s) && l1.loan == Fin(d) && l1.trades == l.trades;
    assert HoldingOf(l1.holdings, buy.coin) == Fin(0.0);
    assert Step(l, buy, w) == ReplayBuy(l1, buy, w);
    ReplayBuyValues(l1, buy, w, s, d, a, 0.0, held, p, lev);
  }

  /** The arithmetic of `ReplayBuy` on a ledger holding `h` of the coin. */
  lemma ReplayBuyValues(l: Ledger, buy: Order, w: Window, s: real, d: real, a: real, h: real, held: real,
                        p: real, lev: real)
    requires l.spot == Fin(s) && l.loan == Fin(d) && TradeSize(Fin(s), w.buyAmount) == Fin(a)
    requires HoldingOf(l.holdings, buy.coin) == Fin(h)
    requires buy.price == Fin(p) && p != 0.0 && buy.leverage == Fin(lev) && held * p == a * lev
    ensures var m := ReplayBuy(l, buy, w);
      m.spot == Fin(s - a) && m.loan == Fin(d + a * (lev - 1.0)) &&
      HoldingOf(m.holdings, buy.coin) == Fin(h + held) &&
      buy.signalId in m.trades && m.trades[buy.signalId] == Trade(buy.coin, Fin(a), None, buy.createdAt, None)
  {
    assert Div(Mul(Fin(a), Fin(lev)), Fin(p)) == Fin(held) by {
      Quotient(a * lev, p, held);
    }
    assert Add(Fin(h), Fin(held)) == Fin(h + held);
    assert Add(Fin(d), Mul(Fin(a), Sub(Fin(lev), Fin(1.0)))) == Fin(d + a * (lev - 1.0)) by {
      LeveragedLoan(d, a, lev);
    }
  }

  lemma LeveragedLoan(d: real, a: real, lev: real)
    ensures Add(Fin(d), Mul(Fin(a), Sub(Fin(lev), Fin(1.0)))) == Fin(d + a * (lev - 1.0))
  {
  }

  lemma Quotient(x: real, p: real, y: real)
    requires p != 0.0 && y * p == x
    ensures x / p == y
  {
  }

  /**
   * A buy followed by its sell, for a coin the account does not hold: with
   * `a` the trade size and `held = a·lev/p` the coins bought, the loan returns
   * to what it was, the holding ends at 0, the trade records the size and the
   * proceeds `held·q − a·(lev−1)`, and SPOT moves by `held·q − a·lev`, the
   * leveraged position's gain or loss.
   */
  lemma TradeRoundTrip(l: Ledger, buy: Order, sell: Order, w: Window, s: real, d: real, a: real, held: real,
                       p: real, q: real, lev: real)
    requires InWindow(buy, w) && Counted(buy) && buy.side == Buy
    requires InWindow(sell, w) && Counted(sell) && sell.side == Sell
    requires sell.coin == buy.coin && sell.signalId == buy.signalId
    requires l.spot == Fin(s) && l.loan == Fin(d) && TradeSize(Fin(s), w.buyAmount) == Fin(a)
    requires !Truthy(HoldingOf(l.holdings, buy.coin))
    requires buy.price == Fin(p) && p > 0.0 && buy.leverage == Fin(lev) && held * p == a * lev
    requires SellPriceOf(sell) == Fin(q) && sell.leverage == Fin(lev)
    ensures var r := Step(Step(l, buy, w), sell, w);
      r.spot == Fin(s + held * q - a * lev) && r.loan == Fin(d) &&
      HoldingOf(r.holdings, buy.coin) == Fin(0.0) && buy.signalId in r.trades &&
      r.trades[buy.signalId] == Trade(buy.coin, Fin(a), Some(Fin(held * q - a * (lev - 1.0))), buy.createdAt, sell.closedAt)
  {
    FirstBuy(l, buy, w, s, d, a, held, p, lev);
    var m := Step(l, buy, w);
    TouchKeeps(m, sell.coin, held);
    SellKeepsWorth(m, sell, w, s - a, d + a * (lev - 1.0), a, held, q, lev);
    RoundTripSums(s, d, a, held, q, lev);
  }

  lemma RoundTripSums(s: real, d: real, a: real, held: real, q: real, lev: real)
    ensures (s - a) + held * q - a * (lev - 1.0) == s + held * q - a * lev
    ensures (d + a * (lev - 1.0)) - a * (lev - 1.0) == d
  {
  }

  // ---------------------------------------------------------------- valuation

  /** The valuation of the holdings: running total, USDT worth per coin, and the holdings kept. */
  datatype Valued = Valued(total: JsNum, usdt: seq<Holding>, coins: seq<Holding>)

  /** A holding whose coin has a known price and whose amount is zero is dropped from the report. */
  predicate Dropped(h: Holding, prices: map<string, real>) {
    Truthy(PriceOf(prices, h.coin)) && LooseEq(h.amount, Fin(0.0))
  }

  /** A holding that is priced into the total. */
  predicate Priced(h: Holding, prices: map<string, real>) {
    Truthy(PriceOf(prices, h.coin)) && !LooseEq(h.amount, Fin(0.0))
  }

  function Worth(h: Holding, prices: map<string, real>): Holding {
    Holding(h.coin, Mul(PriceOf(prices, h.coin), h.amount))
  }

  /** The USDT worth of the priced holdings, in holding order. */
  function Worths(hs: seq<Holding>, prices: map<string, real>): seq<Holding>
    decreases |hs|
  {
    if |hs| == 0 then []
    else if Priced(hs[0], prices) then [Worth(hs[0], prices)] + Worths(hs[1..], prices)
    else Worths(hs[1..], prices)
  }

  /** The holdings that are not dropped, in holding order. */
  function Kept(hs: seq<Holding>, prices: map<string, real>): seq<Holding>
    decreases |hs|
  {
    if |hs| == 0 then []
    else if Dropped(hs[0], prices) then Kept(hs[1..], prices)
    else [hs[0]] + Kept(hs[1..], prices)
  }

  /** `total + Σ amount` over a list, added from the front. */
  function AddAll(total: JsNum, hs: seq<Holding>): JsNum
    decreases |hs|
  {
    if |hs| == 0 then total else AddAll(Add(total, hs[0].amount), hs[1..])
  }

  /**
   * The loop over the holdings: unpriced coins are kept as they are, zero
   * holdings of priced coins are dropped, and the others are added to the total
   * at their USDT worth.
   */
  function Value(hs: seq<Holding>, prices: map<string, real>, total: JsNum): (r: Valued)
    ensures forall h :: h in r.coins <==> h in hs && !Dropped(h, prices)
    ensures forall u :: u in r.usdt <==> exists h :: h in hs && Priced(h, prices) && u == Worth(h, prices)
    ensures r.usdt == Worths(hs, prices) && r.coins == Kept(hs, prices)
    ensures r.total == AddAll(total, Worths(hs, prices))
    ensures |r.coins| <= |hs|
    decreases |hs|
  {
    if |hs| == 0 then Valued(total, [], [])
    else
      var h := hs[0];
      assert forall x :: x in hs <==> x == h || x in hs[1..];
      if !Truthy(PriceOf(prices, h.coin)) then
        var rest := Value(hs[1..], prices, total);
        Valued(rest.total, rest.usdt, [h] + rest.coins)
      else if LooseEq(h.amount, Fin(0.0)) then
        Value(hs[1..], prices, total)
      else
        var u := Worth(h, prices);
        var rest := Value(hs[1..], prices, Add(total, u.amount));
        assert ([u] + rest.usdt)[1..] == rest.usdt;
        Valued(rest.total, [u] + rest.usdt, [h] + rest.coins)
  }

  /** What `getBalances` reports. */
  datatype Balances = Balances(total: JsNum, spot: JsNum, loan: JsNum, usdt: seq<Holding>, coins: seq<Holding>,
                               trades: map<string, Trade>)

  /**
   * `getBalances(primaryUsdt, buyAmount, excepts, days)` of a strategy at time
   * `now`: TOTAL is SPOT − LOAN plus the worth of every priced non-zero holding.
   */
  function GetBalances(st: Strategy, prices: map<string, real>, primaryUsdt: real, buyAmount: real,
                       excepts: seq<string>, days: real, now: int): (r: Balances)
    ensures var l := Replay(Ledger(Fin(primaryUsdt), Fin(0.0), [], map[]), SortByTime(st.orders),
                            Window(buyAmount, excepts, now as real - days * DayMs as real));
      r.spot == l.spot && r.loan == l.loan && r.trades == l.trades &&
      r.usdt == Worths(l.holdings, prices) && r.coins == Kept(l.holdings, prices) &&
      r.total == AddAll(Sub(l.spot, l.loan), Worths(l.holdings, prices)) &&
      (forall h :: h in r.coins <==> h in l.holdings && !Dropped(h, prices)) &&
      (forall u :: u in r.usdt <==> exists h :: h in l.holdings && Priced(h, prices) && u == Worth(h, prices))
  {
    var w := Window(buyAmount, excepts, now as real - days * DayMs as real);
    var l := Replay(Ledger(Fin(primaryUsdt), Fin(0.0), [], map[]), SortByTime(st.orders), w);
    var v := Value(l.holdings, prices, Sub(l.spot, l.loan));
    Balances(v.total, l.spot, l.loan, v.usdt, v.coins, l.trades)
  }
}

=== FILE: catalog.dfy ===
/**
 * The strategy catalog (src/services/strategy/strategy.service.ts,
 * `combineProps` and `createStrategy`): the strategy names are the cross
 * product of four tag lists, one list per pricing question, joined by `-`;
 * each name is given the policy rules whose tags occur in it.
 */
module Catalog {
  import opened Wrappers
  import opened Text
  import opened Sequences
  import opened Policies
  import opened Strategy

  const BuyTags: seq<string> := ["urgentbuy", "otebuy", "minentrybuy"]
  const SellTags: seq<string> := ["shortest", "shortmax", "midest", "midmax", "longest"]
  const StopTags: seq<string> := ["orgstop", "minentrystop", "dynamicstop"]
  const LeverageTags: seq<string> := ["highleverage", "normalleverage", "noleverage"]

  /** `strategyProps`: the tag lists, in the order a name lists its tags. */
  const Axes: seq<seq<string>> := [BuyTags, SellTags, StopTags, LeverageTags]

  const AllTags: seq<string> := BuyTags + SellTags + StopTags + LeverageTags

  // ------------------------------------------------------------ building names

  /** The key a tag of list `idx` extends `prev` to: the tag alone on the first list. */
  function KeyFor(prev: string, idx: nat, tag: string): string {
    if idx == 0 then tag else prev + "-" + tag
  }

  /** `combineProps(prev, idx)`: on the last list `prev-tag` for each tag, otherwise the keys of every tag in turn. */
  function CombineProps(axes: seq<seq<string>>, prev: string, idx: nat): seq<string>
    requires idx < |axes|
    decreases |axes| - idx, 1, 0
  {
    if idx == |axes| - 1 then
      seq(|axes[idx]|, j requires 0 <= j < |axes[idx]| => prev + "-" + axes[idx][j])
    else CombineEach(axes, prev, idx, axes[idx])
  }

  /** The `forEach` of `combineProps` over the tags `props` of list `idx`. */
  function CombineEach(axes: seq<seq<string>>, prev: string, idx: nat, props: seq<string>): seq<string>
    requires idx < |axes| - 1
    decreases |axes| - idx, 0, |props|
  {
    if |props| == 0 then []
    else CombineProps(axes, KeyFor(prev, idx, props[0]), idx + 1) + CombineEach(axes, prev, idx, props[1..])
  }

  /** `strategyKeys`: every strategy name, in creation order. */
  function Names(): seq<string> {
    CombineProps(Axes, "", 0)
  }

  // ---------------------------------------------------------------- counting

  /** The number of ways to pick one tag from each list from `idx` on. */
  function Count(axes: seq<seq<string>>, idx: nat): nat
    requires idx < |axes|
    decreases |axes| - idx
  {
    if idx == |axes| - 1 then |axes[idx]| else |axes[idx]| * Count(axes, idx + 1)
  }

  /** `combineProps` yields one key per pick of one tag from each list. */
  lemma {:induction false} CombineCount(axes: seq<seq<string>>, prev: string, idx: nat)
    requires idx < |axes|
    ensures |CombineProps(axes, prev, idx)| == Count(axes, idx)
    decreases |axes| - idx, 1, 0
  {
    if idx < |axes| - 1 {
      EachCount(axes, prev, idx, axes[idx]);
    }
  }

  lemma {:induction false} EachCount(axes: seq<seq<string>>, prev: string, idx: nat, props: seq<string>)
    requires idx < |axes| - 1
    ensures |CombineEach(axes, prev, idx, props)| == |props| * Count(axes, idx + 1)
    decreases |axes| - idx, 0, |props|
  {
    if |props| > 0 {
      CombineCount(axes, KeyFor(prev, idx, props[0]), idx + 1);
      EachCount(axes, prev, idx, props[1..]);
      var c := Count(axes, idx + 1);
      assert |props| * c == c + (|props| - 1) * c;
    }
  }

  /** There are 3 · 5 · 3 · 3 = 135 strategies. */
  lemma NamesCount()
    ensures |Names()| == 135
  {
    CombineCount(Axes, "", 0);
    assert Count(Axes, 3) == 3;
    assert Count(Axes, 2) == 9;
    assert Count(Axes, 1) == 45;
  }

  // --------------------------------------------------------------- membership

  /** `parts` picks one tag from each list from `idx` on. */
  ghost predicate ChoiceFrom(axes: seq<seq<string>>, idx: nat, parts: seq<string>) {
    idx <= |axes| && |parts| == |axes| - idx && forall j :: 0 <= j < |parts| ==> parts[j] in axes[idx + j]
  }

  /** What every key built from `prev` at list `idx` starts with. */
  function Lead(axes: seq<seq<string>>, prev: string, idx: nat): string {
    if idx == 0 && idx < |axes| - 1 then "" else prev + "-"
  }

  lemma {:induction false} EachMembers(axes: seq<seq<string>>, prev: string, idx: nat, props: seq<string>, k: string)
    requires idx < |axes| - 1
    ensures k in CombineEach(axes, prev, idx, props) <==>
      exists j :: 0 <= j < |props| && k in CombineProps(axes, KeyFor(prev, idx, props[j]), idx + 1)
    decreases |props|
  {
    if |props| > 0 {
      var rest := props[1..];
      EachMembers(axes, prev, idx, rest, k);
      if k in CombineEach(axes, prev, idx, rest) {
        var j :| 0 <= j < |rest| && k in CombineProps(axes, KeyFor(prev, idx, rest[j]), idx + 1);
        assert rest[j] == props[j + 1];
      }
      if exists j :: 0 <= j < |props| && k in CombineProps(axes, KeyFor(prev, idx, props[j]), idx + 1) {
        var j :| 0 <= j < |props| && k in CombineProps(axes, KeyFor(prev, idx, props[j]), idx + 1);
        if j > 0 {
          assert props[j] == rest[j - 1];
        }
      }
    }
  }

  /** A key is built exactly when it is the lead followed by one tag from each remaining list, joined by `-`. */
  lemma {:induction false} CombineMembers(axes: seq<seq<string>>, prev: string, idx: nat, k: string)
    requires idx < |axes|
    ensures k in CombineProps(axes, prev, idx) <==>
      exists parts :: ChoiceFrom(axes, idx, parts) && k == Lead(axes, prev, idx) + Join(parts, '-')
    decreases |axes| - idx, 1
  {
    if idx == |axes| - 1 {
      LastMembers(axes, prev, idx, k);
    } else {
      if k in CombineProps(axes, prev, idx) {
        InnerMembersIn(axes, prev, idx, k);
      }
      if exists parts :: ChoiceFrom(axes, idx, parts) && k == Lead(axes, prev, idx) + Join(parts, '-') {
        var parts :| ChoiceFrom(axes, idx, parts) && k == Lead(axes, prev, idx) + Join(parts, '-');
        InnerMembersOut(axes, prev, idx, parts, k);
      }
    }
  }

  lemma LastMembers(axes: seq<seq<string>>, prev: string, idx: nat, k: string)
    requires idx == |axes| - 1
    ensures k in CombineProps(axes, prev, idx) <==>
      exists parts :: ChoiceFrom(axes, idx, parts) && k == Lead(axes, prev, idx) + Join(parts, '-')
  {
    var keys := CombineProps(axes, prev, idx);
    var lead := Lead(axes, prev, idx);
    assert lead == prev + "-";
    if k in keys {
      var j :| 0 <= j < |keys| && keys[j] == k;
      var parts := [axes[idx][j]];
      assert ChoiceFrom(axes, idx, parts);
      assert k == lead + Join(parts, '-');
    }
    if exists parts :: ChoiceFrom(axes, idx, parts) && k == lead + Join(parts, '-') {
      var parts :| ChoiceFrom(axes, idx, parts) && k == lead + Join(parts, '-');
      assert parts[0] in axes[idx];
      var j :| 0 <= j < |axes[idx]| && axes[idx][j] == parts[0];
      assert keys[j] == k;
    }
  }

  lemma ChoiceCons(axes: seq<seq<string>>, idx: nat, p: string, rest: seq<string>)
    requires idx < |axes| && p in axes[idx] && ChoiceFrom(axes, idx + 1, rest)
    ensures ChoiceFrom(axes, idx, [p] + rest)
  {
    var parts := [p] + rest;
    forall i | 0 <= i < |parts|
      ensures parts[i] in axes[idx + i]
    {
      if i > 0 {
        assert parts[i] == rest[i - 1];
        assert rest[i - 1] in axes[idx + 1 + (i - 1)];
      }
    }
  }

  lemma ChoiceTail(axes: seq<seq<string>>, idx: nat, parts: seq<string>)
    requires idx < |axes| && ChoiceFrom(axes, idx, parts)
    ensures ChoiceFrom(axes, idx + 1, parts[1..])
  {
    var rest := parts[1..];
    forall i | 0 <= i < |rest|
      ensures rest[i] in axes[idx + 1 + i]
    {
      assert rest[i] == parts[i + 1];
      assert parts[i + 1] in axes[idx + (i + 1)];
    }
  }

  lemma JoinCons(p: string, rest: seq<string>)
    requires |rest| > 0
    ensures Join([p] + rest, '-') == p + "-" + Join(rest, '-')
  {
    assert ([p] + rest)[1..] == rest;
  }

  /** The lead of the next list after `p`, followed by the remaining tags, is the lead of this list followed by `p` and them. */
  lemma LeadStep(axes: seq<seq<string>>, prev: string, idx: nat, p: string, rest: seq<string>)
    requires idx < |axes| - 1 && |rest| > 0
    ensures Lead(axes, KeyFor(prev, idx, p), idx + 1) + Join(rest, '-') == Lead(axes, prev, idx) + Join([p] + rest, '-')
  {
    JoinCons(p, rest);
  }

  lemma {:induction false} InnerMembersIn(axes: seq<seq<string>>, prev: string, idx: nat, k: string)
    requires idx < |axes| - 1 && k in CombineProps(axes, prev, idx)
    ensures exists parts :: ChoiceFrom(axes, idx, parts) && k == Lead(axes, prev, idx) + Join(parts, '-')
    decreases |axes| - idx, 0
  {
    EachMembers(axes, prev, idx, axes[idx], k);
    var j :| 0 <= j < |axes[idx]| && k in CombineProps(axes, KeyFor(prev, idx, axes[idx][j]), idx + 1);
    var p := axes[idx][j];
    CombineMembers(axes, KeyFor(prev, idx, p), idx + 1, k);
    var rest :| ChoiceFrom(axes, idx + 1, rest) && k == Lead(axes, KeyFor(prev, idx, p), idx + 1) + Join(rest, '-');
    ConsWitness(axes, prev, idx, p, rest, k);
  }

  lemma ConsWitness(axes: seq<seq<string>>, prev: string, idx: nat, p: string, rest: seq<string>, k: string)
    requires idx < |axes| - 1 && p in axes[idx] && ChoiceFrom(axes, idx + 1, rest)
    requires k == Lead(axes, KeyFor(prev, idx, p), idx + 1) + Join(rest, '-')
    ensures exists parts :: ChoiceFrom(axes, idx, parts) && k == Lead(axes, prev, idx) + Join(parts, '-')
  {
    LeadStep(axes, prev, idx, p, rest);
    ChoiceCons(axes, idx, p, rest);
    assert ChoiceFrom(axes, idx, [p] + rest);
  }

  lemma {:induction false} InnerMembersOut(axes: seq<seq<string>>, prev: string, idx: nat, parts: seq<string>, k: string)
    requires idx < |axes| - 1 && ChoiceFrom(axes, idx, parts) && k == Lead(axes, prev, idx) + Join(parts, '-')
    ensures k in CombineProps(axes, prev, idx)
    decreases |axes| - idx, 0
  {
    var p := parts[0];
    var rest := parts[1..];
    assert parts == [p] + rest;
    LeadStep(axes, prev, idx, p, rest);
    assert p in axes[idx];
    var j :| 0 <= j < |axes[idx]| && axes[idx][j] == p;
    ChoiceTail(axes, idx, parts);
    var key := KeyFor(prev, idx, p);
    assert k in CombineProps(axes, key, idx + 1) by {
      assert k == Lead(axes, key, idx + 1) + Join(rest, '-');
      CombineMembers(axes, key, idx + 1, k);
    }
    assert k in CombineEach(axes, prev, idx, axes[idx]) by {
      EachMembers(axes, prev, idx, axes[idx], k);
    }
  }

  /** The strategy names are exactly the `buy-sell-stop-leverage` tag combinations. */
  lemma NamesAreTagChoices(k: string)
    ensures k in Names() <==>
      exists b, s, t, l :: b in BuyTags && s in SellTags && t in StopTags && l in LeverageTags &&
        k == b + "-" + s + "-" + t + "-" + l
  {
    if k in Names() {
      NameToTags(k);
    }
    if exists b, s, t, l :: b in BuyTags && s in SellTags && t in StopTags && l in LeverageTags &&
        k == b + "-" + s + "-" + t + "-" + l {
      var b, s, t, l :| b in BuyTags && s in SellTags && t in StopTags && l in LeverageTags &&
        k == b + "-" + s + "-" + t + "-" + l;
      TagsToName(b, s, t, l);
    }
  }

  lemma NameToTags(k: string)
    requires k in Names()
    ensures exists b, s, t, l :: (b in BuyTags && s in SellTags && t in StopTags && l in LeverageTags &&
      k == b + "-" + s + "-" + t + "-" + l)
  {
    CombineMembers(Axes, "", 0, k);
    var parts :| ChoiceFrom(Axes, 0, parts) && k == Lead(Axes, "", 0) + Join(parts, '-');
    JoinFour(parts);
    assert parts[0] in Axes[0] && parts[1] in Axes[1] && parts[2] in Axes[2] && parts[3] in Axes[3];
  }

  lemma TagsToName(b: string, s: string, t: string, l: string)
    requires b in BuyTags && s in SellTags && t in StopTags && l in LeverageTags
    ensures b + "-" + s + "-" + t + "-" + l in Names()
  {
    var parts := [b, s, t, l];
    JoinFour(parts);
    assert ChoiceFrom(Axes, 0, parts);
    CombineMembers(Axes, "", 0, b + "-" + s + "-" + t + "-" + l);
  }

  lemma JoinFour(parts: seq<string>)
    requires |parts| == 4
    ensures Join(parts, '-') == parts[0] + "-" + parts[1] + "-" + parts[2] + "-" + parts[3]
  {
    var c := parts[2..];
    assert c[1..] == [parts[3]];
    assert Join(c, '-') == parts[2] + "-" + parts[3];
    var b := parts[1..];
    assert b[1..] == c;
    assert Join(b, '-') == parts[1] + "-" + Join(c, '-');
  }

  // --------------------------------------------------------------- uniqueness

  /** No list repeats a tag and no tag contains the separator. */
  predicate WellFormed(axes: seq<seq<string>>) {
    forall i :: 0 <= i < |axes| ==> Distinct(axes[i]) && forall j :: 0 <= j < |axes[i]| ==> '-' !in axes[i][j]
  }

  /** `m` is the position of the first separator in `y`. */
  predicate FirstDash(y: string, m: nat) {
    m < |y| && y[m] == '-' && forall i :: 0 <= i < m ==> y[i] != '-'
  }

  lemma FirstDashUnique(y: string, m1: nat, m2: nat)
    requires FirstDash(y, m1) && FirstDash(y, m2)
    ensures m1 == m2
  {
  }

  /** Two separator-free tags after a common start, each followed by `-`, are the same tag. */
  lemma SeparatorCut(x: string, base: string, p: string, q: string)
    requires '-' !in p && '-' !in q
    requires |base| + |p| < |x| && x[..|base| + |p| + 1] == base + p + "-"
    requires |base| + |q| < |x| && x[..|base| + |q| + 1] == base + q + "-"
    ensures p == q
  {
    var n := |base|;
    var y := x[n..];
    assert FirstDash(y, |p|) by {
      assert y[..|p| + 1] == p + "-" by {
        assert (base + p + "-")[n..] == p + "-";
      }
      assert y[|p|] == (p + "-")[|p|];
    }
    assert FirstDash(y, |q|) by {
      assert y[..|q| + 1] == q + "-" by {
        assert (base + q + "-")[n..] == q + "-";
      }
      assert y[|q|] == (q + "-")[|q|];
    }
    FirstDashUnique(y, |p|, |q|);
    assert p == y[..|p|] by {
      assert (base + p + "-")[n..n + |p|] == p;
    }
    assert q == y[..|q|] by {
      assert (base + q + "-")[n..n + |q|] == q;
    }
  }

  /** Every key built below list `idx` (with `idx` past the first list) starts with `prev-`. */
  lemma KeyPrefix(axes: seq<seq<string>>, prev: string, idx: nat, k: string)
    requires 0 < idx < |axes| && k in CombineProps(axes, prev, idx)
    ensures |prev| < |k| && k[..|prev| + 1] == prev + "-"
  {
    CombineMembers(axes, prev, idx, k);
    var parts :| ChoiceFrom(axes, idx, parts) && k == prev + "-" + Join(parts, '-');
    assert k[..|prev| + 1] == prev + "-";
  }

  lemma {:induction false} CombineDistinct(axes: seq<seq<string>>, prev: string, idx: nat)
    requires idx < |axes| && WellFormed(axes)
    ensures Distinct(CombineProps(axes, prev, idx))
    decreases |axes| - idx, 1, 0
  {
    var props := axes[idx];
    if idx == |axes| - 1 {
      var keys := CombineProps(axes, prev, idx);
      forall i, j | 0 <= i < j < |keys|
        ensures keys[i] != keys[j]
      {
        assert keys[i][|prev| + 1..] == props[i];
        assert keys[j][|prev| + 1..] == props[j];
      }
    } else {
      EachDistinct(axes, prev, idx, props);
    }
  }

  lemma {:induction false} EachDistinct(axes: seq<seq<string>>, prev: string, idx: nat, props: seq<string>)
    requires idx < |axes| - 1 && WellFormed(axes)
    requires Distinct(props) && forall j :: 0 <= j < |props| ==> '-' !in props[j]
    ensures Distinct(CombineEach(axes, prev, idx, props))
    decreases |axes| - idx, 0, |props|
  {
    if |props| > 0 {
      var rest := props[1..];
      var first := CombineProps(axes, KeyFor(prev, idx, props[0]), idx + 1);
      var others := CombineEach(axes, prev, idx, rest);
      CombineDistinct(axes, KeyFor(prev, idx, props[0]), idx + 1);
      EachDistinct(axes, prev, idx, rest);
      forall k | k in first
        ensures k !in others
      {
        HeadApart(axes, prev, idx, props, k);
      }
      DistinctAppend(first, others);
    }
  }

  /** Keys built under two different separator-free tags after the same start are different. */
  lemma BranchesApart(axes: seq<seq<string>>, base: string, idx: nat, p: string, q: string, k: string)
    requires 0 < idx < |axes| && '-' !in p && '-' !in q && p != q
    requires k in CombineProps(axes, base + p, idx)
    ensures k !in CombineProps(axes, base + q, idx)
  {
    KeyPrefix(axes, base + p, idx, k);
    if k in CombineProps(axes, base + q, idx) {
      KeyPrefix(axes, base + q, idx, k);
      SeparatorCut(k, base, p, q);
    }
  }

  /** A key built from the first tag of `props` is built from no later tag. */
  lemma HeadApart(axes: seq<seq<string>>, prev: string, idx: nat, props: seq<string>, k: string)
    requires idx < |axes| - 1 && |props| > 0
    requires Distinct(props) && forall j :: 0 <= j < |props| ==> '-' !in props[j]
    requires k in CombineProps(axes, KeyFor(prev, idx, props[0]), idx + 1)
    ensures k !in CombineEach(axes, prev, idx, props[1..])
  {
    var rest := props[1..];
    EachMembers(axes, prev, idx, rest, k);
    forall j | 0 <= j < |rest|
      ensures k !in CombineProps(axes, KeyFor(prev, idx, rest[j]), idx + 1)
    {
      assert rest[j] == props[j + 1];
      KeysApart(axes, prev, idx, props[0], rest[j], k);
    }
  }

  lemma KeysApart(axes: seq<seq<string>>, prev: string, idx: nat, p: string, q: string, k: string)
    requires idx < |axes| - 1 && '-' !in p && '-' !in q && p != q
    requires k in CombineProps(axes, KeyFor(prev, idx, p), idx + 1)
    ensures k !in CombineProps(axes, KeyFor(prev, idx, q), idx + 1)
  {
    var base := if idx == 0 then "" else prev + "-";
    assert KeyFor(prev, idx, p) == base + p;
    assert KeyFor(prev, idx, q) == base + q;
    BranchesApart(axes, base, idx + 1, p, q, k);
  }

  lemma CatalogWellFormed()
    ensures WellFormed(Axes)
  {
  }

  /** No two strategies share a name. */
  lemma NamesDistinct()
    ensures Distinct(Names())
  {
    CatalogWellFormed();
    CombineDistinct(Axes, "", 0);
  }

  // ------------------------------------------------------------ tag lookups

  lemma SelfContains(t: string)
    ensures Contains(t, t)
  {
    assert OccursAt(t, t, 0);
  }

  /** A string lacking one of `t`'s characters does not contain `t`. */
  lemma CharMissing(s: string, t: string, c: char)
    requires c in t && c !in s
    ensures !Contains(s, t)
  {
  }

  /** `noleverage` shares every letter with `normalleverage`; it still does not occur in it. */
  lemma NoLeverageNotInNormal()
    ensures !Contains("normalleverage", "noleverage")
  {
    forall i | 0 <= i <= |"normalleverage"|
      ensures !OccursAt("normalleverage", "noleverage", i)
    {
      if i + |"noleverage"| <= |"normalleverage"| {
        if i == 0 {
          assert "normalleverage"[..10][2] != "noleverage"[2];
        } else {
          assert "normalleverage"[1..] == "ormalleverage";
          assert "normalleverage"[i] == "ormalleverage"[i - 1];
          assert "normalleverage"[i..i + 10][0] != "noleverage"[0];
        }
      }
    }
  }

  lemma UrgentBuyApart(p: string)
    requires p in AllTags
    ensures Contains(p, "urgentbuy") <==> p == "urgentbuy"
  {
    if p == "urgentbuy" {
      SelfContains("urgentbuy");
    } else if p == "otebuy" {
      assert |p| < |"urgentbuy"|;
    } else if p == "minentrybuy" {
      CharMissing("minentrybuy", "urgentbuy", 'g');
    } else if p == "shortest" {
      assert |p| < |"urgentbuy"|;
    } else if p == "shortmax" {
      assert |p| < |"urgentbuy"|;
    } else if p == "midest" {
      assert |p| < |"urgentbuy"|;
    } else if p == "midmax" {
      assert |p| < |"urgentbuy"|;
    } else if p == "longest" {
      assert |p| < |"urgentbuy"|;
    } else if p == "orgstop" {
      assert |p| < |"urgentbuy"|;
    } else if p == "minentrystop" {
      CharMissing("minentrystop", "urgentbuy", 'u');
    } else if p == "dynamicstop" {
      CharMissing("dynamicstop", "urgentbuy", 'u');
    } else if p == "highleverage" {
      CharMissing("highleverage", "urgentbuy", 'u');
    } else if p == "normalleverage" {
      CharMissing("normalleverage", "urgentbuy", 'u');
    } else if p == "noleverage" {
      CharMissing("noleverage", "urgentbuy", 'u');
    }
  }

  lemma OteBuyApart(p: string)
    requires p in AllTags
    ensures Contains(p, "otebuy") <==> p == "otebuy"
  {
    if p == "urgentbuy" {
      CharMissing("urgentbuy", "otebuy", 'o');
    } else if p == "otebuy" {
      SelfContains("otebuy");
    } else if p == "minentrybuy" {
      CharMissing("minentrybuy", "otebuy", 'o');
    } else if p == "shortest" {
      CharMissing("shortest", "otebuy", 'b');
    } else if p == "shortmax" {
      CharMissing("shortmax", "otebuy", 'e');
    } else if p == "midest" {
      CharMissing("midest", "otebuy", 'o');
    } else if p == "midmax" {
      CharMissing("midmax", "otebuy", 'o');
    } else if p == "longest" {
      CharMissing("longest", "otebuy", 'b');
    } else if p == "orgstop" {
      CharMissing("orgstop", "otebuy", 'e');
    } else if p == "minentrystop" {
      CharMissing("minentrystop", "otebuy", 'b');
    } else if p == "dynamicstop" {
      CharMissing("dynamicstop", "otebuy", 'e');
    } else if p == "highleverage" {
      CharMissing("highleverage", "otebuy", 'o');
    } else if p == "normalleverage" {
      CharMissing("normalleverage", "otebuy", 't');
    } else if p == "noleverage" {
      CharMissing("noleverage", "otebuy", 't');
    }
  }

  lemma MinEntryBuyApart(p: string)
    requires p in AllTags
    ensures Contains(p, "minentrybuy") <==> p == "minentrybuy"
  {
    if p == "urgentbuy" {
      assert |p| < |"minentrybuy"|;
    } else if p == "otebuy" {
      assert |p| < |"minentrybuy"|;
    } else if p == "minentrybuy" {
      SelfContains("minentrybuy");
    } else if p == "shortest" {
      assert |p| < |"minentrybuy"|;
    } else if p == "shortmax" {
      assert |p| < |"minentrybuy"|;
    } else if p == "midest" {
      assert |p| < |"minentrybuy"|;
    } else if p == "midmax" {
      assert |p| < |"minentrybuy"|;
    } else if p == "longest" {
      assert |p| < |"minentrybuy"|;
    } else if p == "orgstop" {
      assert |p| < |"minentrybuy"|;
    } else if p == "minentrystop" {
      CharMissing("minentrystop", "minentrybuy", 'b');
    } else if p == "dynamicstop" {
      CharMissing("dynamicstop", "minentrybuy", 'e');
    } else if p == "highleverage" {
      CharMissing("highleverage", "minentrybuy", 'm');
    } else if p == "normalleverage" {
      CharMissing("normalleverage", "minentrybuy", 'i');
    } else if p == "noleverage" {
      assert |p| < |"minentrybuy"|;
    }
  }

  lemma ShortestApart(p: string)
    requires p in AllTags
    ensures Contains(p, "shortest") <==> p == "shortest"
  {
    if p == "urgentbuy" {
      CharMissing("urgentbuy", "shortest", 's');
    } else if p == "otebuy" {
      assert |p| < |"shortest"|;
    } else if p == "minentrybuy" {
      CharMissing("minentrybuy", "shortest", 's');
    } else if p == "shortest" {
      SelfContains("shortest");
    } else if p == "shortmax" {
      CharMissing("shortmax", "shortest", 'e');
    } else if p == "midest" {
      assert |p| < |"shortest"|;
    } else if p == "midmax" {
      assert |p| < |"shortest"|;
    } else if p == "longest" {
      assert |p| < |"shortest"|;
    } else if p == "orgstop" {
      assert |p| < |"shortest"|;
    } else if p == "minentrystop" {
      CharMissing("minentrystop", "shortest", 'h');
    } else if p == "dynamicstop" {
      CharMissing("dynamicstop", "shortest", 'h');
    } else if p == "highleverage" {
      CharMissing("highleverage", "shortest", 's');
    } else if p == "normalleverage" {
      CharMissing("normalleverage", "shortest", 's');
    } else if p == "noleverage" {
      CharMissing("noleverage", "shortest", 's');
    }
  }

  lemma ShortMaxApart(p: string)
    requires p in AllTags
    ensures Contains(p, "shortmax") <==> p == "shortmax"
  {
    if p == "urgentbuy" {
      CharMissing("urgentbuy", "shortmax", 's');
    } else if p == "otebuy" {
      assert |p| < |"shortmax"|;
    } else if p == "minentrybuy" {
      CharMissing("minentrybuy", "shortmax", 's');
    } else if p == "shortest" {
      CharMissing("shortest", "shortmax", 'm');
    } else if p == "shortmax" {
      SelfContains("shortmax");
    } else if p == "midest" {
      assert |p| < |"shortmax"|;
    } else if p == "midmax" {
      assert |p| < |"shortmax"|;
    } else if p == "longest" {
      assert |p| < |"shortmax"|;
    } else if p == "orgstop" {
      assert |p| < |"shortmax"|;
    } else if p == "minentrystop" {
      CharMissing("minentrystop", "shortmax", 'h');
    } else if p == "dynamicstop" {
      CharMissing("dynamicstop", "shortmax", 'h');
    } else if p == "highleverage" {
      CharMissing("highleverage", "shortmax", 's');
    } else if p == "normalleverage" {
      CharMissing("normalleverage", "shortmax", 's');
    } else if p == "noleverage" {
      CharMissing("noleverage", "shortmax", 's');
    }
  }

  lemma MidestApart(p: string)
    requires p in AllTags
    ensures Contains(p, "midest") <==> p == "midest"
  {
    if p == "urgentbuy" {
      CharMissing("urgentbuy", "midest", 'm');
    } else if p == "otebuy" {
      CharMissing("otebuy", "midest", 'm');
    } else if p == "minentrybuy" {
      CharMissing("minentrybuy", "midest", 'd');
    } else if p == "shortest" {
      CharMissing("shortest", "midest", 'm');
    } else if p == "shortmax" {
      CharMissing("shortmax", "midest", 'i');
    } else if p == "midest" {
      SelfContains("midest");
    } else if p == "midmax" {
      CharMissing("midmax", "midest", 'e');
    } else if p == "longest" {
      CharMissing("longest", "midest", 'm');
    } else if p == "orgstop" {
      CharMissing("orgstop", "midest", 'm');
    } else if p == "minentrystop" {
      CharMissing("minentrystop", "midest", 'd');
    } else if p == "dynamicstop" {
      CharMissing("dynamicstop", "midest", 'e');
    } else if p == "highleverage" {
      CharMissing("highleverage", "midest", 'm');
    } else if p == "normalleverage" {
      CharMissing("normalleverage", "midest", 'i');
    } else if p == "noleverage" {
      CharMissing("noleverage", "midest", 'm');
    }
  }

  lemma MidMaxApart(p: string)
    requires p in AllTags
    ensures Contains(p, "midmax") <==> p == "midmax"
  {
    if p == "urgentbuy" {
      CharMissing("urgentbuy", "midmax", 'm');
    } else if p == "otebuy" {
      CharMissing("otebuy", "midmax", 'm');
    } else if p == "minentrybuy" {
      CharMissing("minentrybuy", "midmax", 'd');
    } else if p == "shortest" {
      CharMissing("shortest", "midmax", 'm');
    } else if p == "shortmax" {
      CharMissing("shortmax", "midmax", 'i');
    } else if p == "midest" {
      CharMissing("midest", "midmax", 'a');
    } else if p == "midmax" {
      SelfContains("midmax");
    } else if p == "longest" {
      CharMissing("longest", "midmax", 'm');
    } else if p == "orgstop" {
      CharMissing("orgstop", "midmax", 'm');
    } else if p == "minentrystop" {
      CharMissing("minentrystop", "midmax", 'd');
    } else if p == "dynamicstop" {
      CharMissing("dynamicstop", "midmax", 'x');
    } else if p == "highleverage" {
      CharMissing("highleverage", "midmax", 'm');
    } else if p == "normalleverage" {
      CharMissing("normalleverage", "midmax", 'i');
    } else if p == "noleverage" {
      CharMissing("noleverage", "midmax", 'm');
    }
  }

  lemma LongestApart(p: string)
    requires p in AllTags
    ensures Contains(p, "longest") <==> p == "longest"
  {
    if p == "urgentbuy" {
      CharMissing("urgentbuy", "longest", 'l');
    } else if p == "otebuy" {
      assert |p| < |"longest"|;
    } else if p == "minentrybuy" {
      CharMissing("minentrybuy", "longest", 'l');
    } else if p == "shortest" {
      CharMissing("shortest", "longest", 'l');
    } else if p == "shortmax" {
      CharMissing("shortmax", "longest", 'l');
    } else if p == "midest" {
      assert |p| < |"longest"|;
    } else if p == "midmax" {
      assert |p| < |"longest"|;
    } else if p == "longest" {
      SelfContains("longest");
    } else if p == "orgstop" {
      CharMissing("orgstop", "longest", 'l');
    } else if p == "minentrystop" {
      CharMissing("minentrystop", "longest", 'l');
    } else if p == "dynamicstop" {
      CharMissing("dynamicstop", "longest", 'l');
    } else if p == "highleverage" {
      CharMissing("highleverage", "longest", 'o');
    } else if p == "normalleverage" {
      CharMissing("normalleverage", "longest", 's');
    } else if p == "noleverage" {
      CharMissing("noleverage", "longest", 's');
    }
  }

  lemma OrgStopApart(p: string)
    requires p in AllTags
    ensures Contains(p, "orgstop") <==> p == "orgstop"
  {
    if p == "urgentbuy" {
      CharMissing("urgentbuy", "orgstop", 'o');
    } else if p == "otebuy" {
      assert |p| < |"orgstop"|;
    } else if p == "minentrybuy" {
      CharMissing("minentrybuy", "orgstop", 'o');
    } else if p == "shortest" {
      CharMissing("shortest", "orgstop", 'g');
    } else if p == "shortmax" {
      CharMissing("shortmax", "orgstop", 'g');
    } else if p == "midest" {
      assert |p| < |"orgstop"|;
    } else if p == "midmax" {
      assert |p| < |"orgstop"|;
    } else if p == "longest" {
      CharMissing("longest", "orgstop", 'r');
    } else if p == "orgstop" {
      SelfContains("orgstop");
    } else if p == "minentrystop" {
      CharMissing("minentrystop", "orgstop", 'g');
    } else if p == "dynamicstop" {
      CharMissing("dynamicstop", "orgstop", 'r');
    } else if p == "highleverage" {
      CharMissing("highleverage", "orgstop", 'o');
    } else if p == "normalleverage" {
      CharMissing("normalleverage", "orgstop", 's');
    } else if p == "noleverage" {
      CharMissing("noleverage", "orgstop", 's');
    }
  }

  lemma MinEntryStopApart(p: string)
    requires p in AllTags
    ensures Contains(p, "minentrystop") <==> p == "minentrystop"
  {
    if p == "urgentbuy" {
      assert |p| < |"minentrystop"|;
    } else if p == "otebuy" {
      assert |p| < |"minentrystop"|;
    } else if p == "minentrybuy" {
      assert |p| < |"minentrystop"|;
    } else if p == "shortest" {
      assert |p| < |"minentrystop"|;
    } else if p == "shortmax" {
      assert |p| < |"minentrystop"|;
    } else if p == "midest" {
      assert |p| < |"minentrystop"|;
    } else if p == "midmax" {
      assert |p| < |"minentrystop"|;
    } else if p == "longest" {
      assert |p| < |"minentrystop"|;
    } else if p == "orgstop" {
      assert |p| < |"minentrystop"|;
    } else if p == "minentrystop" {
      SelfContains("minentrystop");
    } else if p == "dynamicstop" {
      assert |p| < |"minentrystop"|;
    } else if p == "highleverage" {
      CharMissing("highleverage", "minentrystop", 'm');
    } else if p == "normalleverage" {
      CharMissing("normalleverage", "minentrystop", 'i');
    } else if p == "noleverage" {
      assert |p| < |"minentrystop"|;
    }
  }

  lemma DynamicStopApart(p: string)
    requires p in AllTags
    ensures Contains(p, "dynamicstop") <==> p == "dynamicstop"
  {
    if p == "urgentbuy" {
      assert |p| < |"dynamicstop"|;
    } else if p == "otebuy" {
      assert |p| < |"dynamicstop"|;
    } else if p == "minentrybuy" {
      CharMissing("minentrybuy", "dynamicstop", 'd');
    } else if p == "shortest" {
      assert |p| < |"dynamicstop"|;
    } else if p == "shortmax" {
      assert |p| < |"dynamicstop"|;
    } else if p == "midest" {
      assert |p| < |"dynamicstop"|;
    } else if p == "midmax" {
      assert |p| < |"dynamicstop"|;
    } else if p == "longest" {
      assert |p| < |"dynamicstop"|;
    } else if p == "orgstop" {
      assert |p| < |"dynamicstop"|;
    } else if p == "minentrystop" {
      CharMissing("minentrystop", "dynamicstop", 'd');
    } else if p == "dynamicstop" {
      SelfContains("dynamicstop");
    } else if p == "highleverage" {
      CharMissing("highleverage", "dynamicstop", 'd');
    } else if p == "normalleverage" {
      CharMissing("normalleverage", "dynamicstop", 'd');
    } else if p == "noleverage" {
      assert |p| < |"dynamicstop"|;
    }
  }

  lemma HighLeverageApart(p: string)
    requires p in AllTags
    ensures Contains(p, "highleverage") <==> p == "highleverage"
  {
    if p == "urgentbuy" {
      assert |p| < |"highleverage"|;
    } else if p == "otebuy" {
      assert |p| < |"highleverage"|;
    } else if p == "minentrybuy" {
      assert |p| < |"highleverage"|;
    } else if p == "shortest" {
      assert |p| < |"highleverage"|;
    } else if p == "shortmax" {
      assert |p| < |"highleverage"|;
    } else if p == "midest" {
      assert |p| < |"highleverage"|;
    } else if p == "midmax" {
      assert |p| < |"highleverage"|;
    } else if p == "longest" {
      assert |p| < |"highleverage"|;
    } else if p == "orgstop" {
      assert |p| < |"highleverage"|;
    } else if p == "minentrystop" {
      CharMissing("minentrystop", "highleverage", 'h');
    } else if p == "dynamicstop" {
      assert |p| < |"highleverage"|;
    } else if p == "highleverage" {
      SelfContains("highleverage");
    } else if p == "normalleverage" {
      CharMissing("normalleverage", "highleverage", 'h');
    } else if p == "noleverage" {
      assert |p| < |"highleverage"|;
    }
  }

  lemma NormalLeverageApart(p: string)
    requires p in AllTags
    ensures Contains(p, "normalleverage") <==> p == "normalleverage"
  {
    if p == "urgentbuy" {
      assert |p| < |"normalleverage"|;
    } else if p == "otebuy" {
      assert |p| < |"normalleverage"|;
    } else if p == "minentrybuy" {
      assert |p| < |"normalleverage"|;
    } else if p == "shortest" {
      assert |p| < |"normalleverage"|;
    } else if p == "shortmax" {
      assert |p| < |"normalleverage"|;
    } else if p == "midest" {
      assert |p| < |"normalleverage"|;
    } else if p == "midmax" {
      assert |p| < |"normalleverage"|;
    } else if p == "longest" {
      assert |p| < |"normalleverage"|;
    } else if p == "orgstop" {
      assert |p| < |"normalleverage"|;
    } else if p == "minentrystop" {
      assert |p| < |"normalleverage"|;
    } else if p == "dynamicstop" {
      assert |p| < |"normalleverage"|;
    } else if p == "highleverage" {
      assert |p| < |"normalleverage"|;
    } else if p == "normalleverage" {
      SelfContains("normalleverage");
    } else if p == "noleverage" {
      assert |p| < |"normalleverage"|;
    }
  }

  lemma NoLeverageApart(p: string)
    requires p in AllTags
    ensures Contains(p, "noleverage") <==> p == "noleverage"
  {
    if p == "urgentbuy" {
      assert |p| < |"noleverage"|;
    } else if p == "otebuy" {
      assert |p| < |"noleverage"|;
    } else if p == "minentrybuy" {
      CharMissing("minentrybuy", "noleverage", 'o');
    } else if p == "shortest" {
      assert |p| < |"noleverage"|;
    } else if p == "shortmax" {
      assert |p| < |"noleverage"|;
    } else if p == "midest" {
      assert |p| < |"noleverage"|;
    } else if p == "midmax" {
      assert |p| < |"noleverage"|;
    } else if p == "longest" {
      assert |p| < |"noleverage"|;
    } else if p == "orgstop" {
      assert |p| < |"noleverage"|;
    } else if p == "minentrystop" {
      CharMissing("minentrystop", "noleverage", 'l');
    } else if p == "dynamicstop" {
      CharMissing("dynamicstop", "noleverage", 'l');
    } else if p == "highleverage" {
      CharMissing("highleverage", "noleverage", 'n');
    } else if p == "normalleverage" {
      NoLeverageNotInNormal();
    } else if p == "noleverage" {
      SelfContains("noleverage");
    }
  }

  /** Among the catalog's tags, a tag occurs in another only when they are equal. */
  lemma TagInTag(p: string, x: string)
    requires p in AllTags && x in AllTags
    ensures Contains(p, x) <==> p == x
  {
    if x == "urgentbuy" {
      UrgentBuyApart(p);
    } else if x == "otebuy" {
      OteBuyApart(p);
    } else if x == "minentrybuy" {
      MinEntryBuyApart(p);
    } else if x == "shortest" {
      ShortestApart(p);
    } else if x == "shortmax" {
      ShortMaxApart(p);
    } else if x == "midest" {
      MidestApart(p);
    } else if x == "midmax" {
      MidMaxApart(p);
    } else if x == "longest" {
      LongestApart(p);
    } else if x == "orgstop" {
      OrgStopApart(p);
    } else if x == "minentrystop" {
      MinEntryStopApart(p);
    } else if x == "dynamicstop" {
      DynamicStopApart(p);
    } else if x == "highleverage" {
      HighLeverageApart(p);
    } else if x == "normalleverage" {
      NormalLeverageApart(p);
    } else if x == "noleverage" {
      NoLeverageApart(p);
    }
  }

  // ----------------------------------------------------------------- dispatch

  /** `name.indexOf(tag) >= 0`. */
  predicate Mentions(name: string, tag: string) {
    IndexOf(name, tag, 0) >= 0
  }

  lemma MentionsContains(name: string, tag: string)
    ensures Mentions(name, tag) <==> Contains(name, tag)
  {
  }

  /** The buy-price rule of a strategy name: the tags are tested in list order and a later match overrides an earlier one. */
  function BuyRuleFor(name: string): Option<BuyRule> {
    if Mentions(name, "minentrybuy") then Some(MinEntryBuy)
    else if Mentions(name, "otebuy") then Some(OteBuy)
    else if Mentions(name, "urgentbuy") then Some(UrgentBuy)
    else None
  }

  function SellRuleFor(name: string): Option<SellRule> {
    if Mentions(name, "longest") then Some(Longest)
    else if Mentions(name, "midmax") then Some(MidMax)
    else if Mentions(name, "midest") then Some(Midest)
    else if Mentions(name, "shortmax") then Some(ShortMax)
    else if Mentions(name, "shortest") then Some(Shortest)
    else None
  }

  function StopRuleFor(name: string): Option<StopRule> {
    if Mentions(name, "dynamicstop") then Some(DynamicStop)
    else if Mentions(name, "minentrystop") then Some(MinEntryStop)
    else if Mentions(name, "orgstop") then Some(OrgStop)
    else None
  }

  function LeverageRuleFor(name: string): Option<LeverageRule> {
    if Mentions(name, "noleverage") then Some(NoLeverage)
    else if Mentions(name, "normalleverage") then Some(NormalLeverage)
    else if Mentions(name, "highleverage") then Some(HighLeverage)
    else None
  }

  /** The `OrderProperty` built for a strategy name. */
  function PolicyFor(name: string): Policy {
    Policy(BuyRuleFor(name), SellRuleFor(name), StopRuleFor(name), LeverageRuleFor(name))
  }

  /** The rule each tag stands for. */
  function BuyRuleOf(tag: string): BuyRule
    requires tag in BuyTags
  {
    if tag == "urgentbuy" then UrgentBuy else if tag == "otebuy" then OteBuy else MinEntryBuy
  }

  function SellRuleOf(tag: string): SellRule
    requires tag in SellTags
  {
    if tag == "shortest" then Shortest
    else if tag == "shortmax" then ShortMax
    else if tag == "midest" then Midest
    else if tag == "midmax" then MidMax
    else Longest
  }

  function StopRuleOf(tag: string): StopRule
    requires tag in StopTags
  {
    if tag == "orgstop" then OrgStop else if tag == "minentrystop" then MinEntryStop else DynamicStop
  }

  function LeverageRuleOf(tag: string): LeverageRule
    requires tag in LeverageTags
  {
    if tag == "highleverage" then HighLeverage else if tag == "normalleverage" then NormalLeverage else NoLeverage
  }

  /** An occurrence in `a-b` lies within `a`, within `b`, or covers the separator. */
  lemma OccurrenceSide(a: string, b: string, t: string, i: int)
    requires OccursAt(a + "-" + b, t, i)
    ensures i + |t| <= |a| || i > |a| || '-' in t
  {
    if i <= |a| < i + |t| {
      assert t[|a| - i] == (a + "-" + b)[i..i + |t|][|a| - i];
    }
  }

  /** A separator-free string occurs in `a-b` exactly when it occurs in `a` or in `b`. */
  lemma ContainsAcross(a: string, b: string, t: string)
    requires '-' !in t
    ensures Contains(a + "-" + b, t) <==> Contains(a, t) || Contains(b, t)
  {
    var s := a + "-" + b;
    if Contains(a, t) {
      var i :| 0 <= i <= |a| && OccursAt(a, t, i);
      assert s[i..i + |t|] == a[i..i + |t|];
      assert OccursAt(s, t, i);
    }
    if Contains(b, t) {
      var i :| 0 <= i <= |b| && OccursAt(b, t, i);
      var j := |a| + 1 + i;
      assert s[j..j + |t|] == b[i..i + |t|];
      assert OccursAt(s, t, j);
    }
    if Contains(s, t) {
      var i :| 0 <= i <= |s| && OccursAt(s, t, i);
      OccurrenceSide(a, b, t, i);
      if i + |t| <= |a| {
        assert a[i..i + |t|] == s[i..i + |t|];
        assert OccursAt(a, t, i);
      } else {
        var j := i - |a| - 1;
        assert b[j..j + |t|] == s[i..i + |t|];
        assert OccursAt(b, t, j);
      }
    }
  }

  /** A tag is mentioned by a catalog name exactly when it is one of the name's four tags. */
  lemma NameMentions(b: string, s: string, t: string, l: string, x: string)
    requires b in BuyTags && s in SellTags && t in StopTags && l in LeverageTags && x in AllTags
    ensures Mentions(b + "-" + s + "-" + t + "-" + l, x) <==> x == b || x == s || x == t || x == l
  {
    CatalogWellFormed();
    assert '-' !in x;
    MentionsContains(b + "-" + s + "-" + t + "-" + l, x);
    ContainsAcross(b + "-" + s + "-" + t, l, x);
    ContainsAcross(b + "-" + s, t, x);
    ContainsAcross(b, s, x);
    TagInTag(b, x);
    TagInTag(s, x);
    TagInTag(t, x);
    TagInTag(l, x);
  }

  /** Among the buy tags, a catalog name mentions only its own. */
  lemma BuyMentions(b: string, s: string, t: string, l: string, x: string)
    requires b in BuyTags && s in SellTags && t in StopTags && l in LeverageTags && x in BuyTags
    ensures Mentions(b + "-" + s + "-" + t + "-" + l, x) <==> x == b
  {
    NameMentions(b, s, t, l, x);
  }

  lemma BuyOfName(b: string, s: string, t: string, l: string)
    requires b in BuyTags && s in SellTags && t in StopTags && l in LeverageTags
    ensures BuyRuleFor(b + "-" + s + "-" + t + "-" + l) == Some(BuyRuleOf(b))
  {
    BuyMentions(b, s, t, l, "urgentbuy");
    BuyMentions(b, s, t, l, "otebuy");
    BuyMentions(b, s, t, l, "minentrybuy");
  }

  /** Among the sell tags, a catalog name mentions only its own. */
  lemma SellMentions(b: string, s: string, t: string, l: string, x: string)
    requires b in BuyTags && s in SellTags && t in StopTags && l in LeverageTags && x in SellTags
    ensures Mentions(b + "-" + s + "-" + t + "-" + l, x) <==> x == s
  {
    NameMentions(b, s, t, l, x);
  }

  lemma SellOfName(b: string, s: string, t: string, l: string)
    requires b in BuyTags && s in SellTags && t in StopTags && l in LeverageTags
    ensures SellRuleFor(b + "-" + s + "-" + t + "-" + l) == Some(SellRuleOf(s))
  {
    SellMentions(b, s, t, l, "shortest");
    SellMentions(b, s, t, l, "shortmax");
    SellMentions(b, s, t, l, "midest");
    SellMentions(b, s, t, l, "midmax");
    SellMentions(b, s, t, l, "longest");
  }

  /** Among the stop tags, a catalog name mentions only its own. */
  lemma StopMentions(b: string, s: string, t: string, l: string, x: string)
    requires b in BuyTags && s in SellTags && t in StopTags && l in LeverageTags && x in StopTags
    ensures Mentions(b + "-" + s + "-" + t + "-" + l, x) <==> x == t
  {
    NameMentions(b, s, t, l, x);
  }

  lemma StopOfName(b: string, s: string, t: string, l: string)
    requires b in BuyTags && s in SellTags && t in StopTags && l in LeverageTags
    ensures StopRuleFor(b + "-" + s + "-" + t + "-" + l) == Some(StopRuleOf(t))
  {
    StopMentions(b, s, t, l, "orgstop");
    StopMentions(b, s, t, l, "minentrystop");
    StopMentions(b, s, t, l, "dynamicstop");
  }

  /** Among the leverage tags, a catalog name mentions only its own. */
  lemma LeverageMentions(b: string, s: string, t: string, l: string, x: string)
    requires b in BuyTags && s in SellTags && t in StopTags && l in LeverageTags && x in LeverageTags
    ensures Mentions(b + "-" + s + "-" + t + "-" + l, x) <==> x == l
  {
    NameMentions(b, s, t, l, x);
  }

  lemma LeverageOfName(b: string, s: string, t: string, l: string)
    requires b in BuyTags && s in SellTags && t in StopTags && l in LeverageTags
    ensures LeverageRuleFor(b + "-" + s + "-" + t + "-" + l) == Some(LeverageRuleOf(l))
  {
    LeverageMentions(b, s, t, l, "highleverage");
    LeverageMentions(b, s, t, l, "normalleverage");
    LeverageMentions(b, s, t, l, "noleverage");
  }

  /**
   * Every catalog strategy gets exactly the rules its four tags name, one per
   * pricing question: no tag of one list occurs inside another tag, so no
   * later test overrides the rule of the name's own tag.
   */
  lemma PolicyOfName(b: string, s: string, t: string, l: string)
    requires b in BuyTags && s in SellTags && t in StopTags && l in LeverageTags
    ensures PolicyFor(b + "-" + s + "-" + t + "-" + l) ==
      Policy(Some(BuyRuleOf(b)), Some(SellRuleOf(s)), Some(StopRuleOf(t)), Some(LeverageRuleOf(l)))
  {
    BuyOfName(b, s, t, l);
    SellOfName(b, s, t, l);
    StopOfName(b, s, t, l);
    LeverageOfName(b, s, t, l);
  }

  /** `policy` is the policy a name of four catalog tags stands for: exactly one rule per tag. */
  predicate TaggedBy(name: string, policy: Policy) {
    exists b, s, t, l :: (b in BuyTags && s in SellTags && t in StopTags && l in LeverageTags &&
      name == b + "-" + s + "-" + t + "-" + l &&
      policy == Policy(Some(BuyRuleOf(b)), Some(SellRuleOf(s)), Some(StopRuleOf(t)), Some(LeverageRuleOf(l))))
  }

  /** The policy each catalog name selects is the one its four tags stand for. */
  lemma NamePolicy(i: nat)
    requires i < |Names()|
    ensures TaggedBy(Names()[i], PolicyFor(Names()[i]))
  {
    var k := Names()[i];
    NameToTags(k);
    var b, s, t, l :| b in BuyTags && s in SellTags && t in StopTags && l in LeverageTags &&
      k == b + "-" + s + "-" + t + "-" + l;
    PolicyOfName(b, s, t, l);
  }

  /**
   * `createStrategy`: one strategy per catalog name, in catalog order, with no
   * orders and with the rules its name's four tags stand for.
   */
  function Strategies(): (r: seq<Strategy>)
    ensures |r| == |Names()|
    ensures forall i :: 0 <= i < |r| ==> r[i].name == Names()[i] && r[i].orders == []
    ensures forall i :: 0 <= i < |r| ==> TaggedBy(r[i].name, r[i].policy)
  {
    var r := seq(|Names()|, i requires 0 <= i < |Names()| => Strategy(Names()[i], PolicyFor(Names()[i]), []));
    assert forall i :: 0 <= i < |r| ==> TaggedBy(r[i].name, r[i].policy) by {
      forall i | 0 <= i < |r|
        ensures TaggedBy(r[i].name, r[i].policy)
      {
        NamePolicy(i);
      }
    }
    r
  }
}

=== FILE: cornix.dfy ===
/** The Cornix alert format (src/libs/message/cornix.msg.ts). */
module Cornix {
  import opened Wrappers
  import opened Text
  import opened Signals
  import opened LabeledLines

  /** `parseCoin`: the COIN value with its first `$` and its first `/` removed. */
  function ParseCoin(lines: seq<string>): (r: Result<string>)
    ensures r.Success? <==> Present(lines, "COIN:")
    ensures r.Success? ==> r.value == ReplaceFirst(ReplaceFirst(FindLine(lines, "COIN:").value, "$", ""), "/", "")
  {
    var line :- Required(lines, "COIN:", "COIN NOT FOUND");
    Success(StrReplace(line, ["$", "/"], ""))
  }

  /** `parseLeverage`: the integer left once the first `x` is removed. */
  function ParseLeverage(lines: seq<string>, num: NumberSyntax): (r: Result<int>)
    ensures r.Success? <==> Present(lines, "Leverage:")
    ensures r.Success? ==> r.value == num.integer(ReplaceFirst(FindLine(lines, "Leverage:").value, "x", ""))
  {
    var value :- Required(lines, "Leverage:", "Leverage NOT FOUND");
    Success(num.integer(ReplaceFirst(value, "x", "")))
  }

  /** The leverage list of a signal: `[L]`, with 5 appended exactly when L is 3. */
  function LeverageList(leverage: int): (r: seq<real>)
    ensures |r| == 1 || |r| == 2
    ensures r[0] == leverage as real
    ensures |r| == 2 <==> leverage == 3
    ensures |r| == 2 ==> r[1] == 5.0
  {
    if leverage == 3 then [leverage as real, 5.0] else [leverage as real]
  }

  /**
   * `parseTargets`: a non-empty flat `TARGETS:` list puts its first five values
   * in the short tier and the rest in mid; otherwise the tiers come from the
   * `Short Term:` and `Mid Term:` lines. The long tier is always empty.
   */
  function ParseTargets(lines: seq<string>, num: NumberSyntax): (r: Terms)
    ensures r.long == []
    ensures |FlatTargets(lines, num)| > 0 ==>
      && |r.short| == (if |FlatTargets(lines, num)| < 5 then |FlatTargets(lines, num)| else 5)
      && r.short + r.mid == FlatTargets(lines, num)
    ensures |FlatTargets(lines, num)| == 0 ==>
      && r.short == SplitValues(FindLine(lines, "Short Term:"), num)
      && r.mid == SplitValues(FindLine(lines, "Mid Term:"), num)
  {
    var terms := FlatTargets(lines, num);
    if |terms| > 0 then
      var n := if |terms| < 5 then |terms| else 5;
      assert terms[..n] + terms[n..] == terms;
      Terms(terms[..n], terms[n..], [])
    else
      Terms(SplitValues(FindLine(lines, "Short Term:"), num), SplitValues(FindLine(lines, "Mid Term:"), num), [])
  }

  /** The values of the flat `TARGETS:` line (`[]` when there is none). */
  function FlatTargets(lines: seq<string>, num: NumberSyntax): seq<real> {
    SplitValues(FindLine(lines, "TARGETS:"), num)
  }

  /**
   * How `parse` settles the entry band and the optimal entry: three values
   * give the middle one as `ote` and keep the outer two; any other count keeps
   * the list and takes the mean of its first and last value.
   */
  function EntryAndOte(entry: seq<real>): (r: (seq<real>, real))
    requires |entry| > 0
    ensures |entry| == 3 ==> r.0 == [entry[0], entry[2]] && r.1 == entry[1]
    ensures |entry| != 3 ==> r.0 == entry && r.1 == (entry[0] + entry[|entry| - 1]) / 2.0
    ensures |r.0| > 0 && r.0[0] == entry[0] && r.0[|r.0| - 1] == entry[|entry| - 1]
  {
    var average := (entry[0] + entry[|entry| - 1]) / 2.0;
    if |entry| == 3 then ([entry[0], entry[2]], entry[1]) else (entry, average)
  }

  /** The message cut into lines, as `message.split('\n')`. */
  function Lines(message: string): seq<string> {
    Split(message, '\n')
  }

  /**
   * `parse`: fields are read in the order COIN, Direction, Leverage, ENTRY,
   * targets, STOP LOSS, and the first mandatory one that is missing or empty
   * makes the parse throw. `id` is the freshly generated signal id and `now`
   * the creation time.
   */
  function Parse(message: string, id: string, now: int, num: NumberSyntax): (r: Result<Signal>)
    ensures r.Success? <==>
      && Present(Lines(message), "COIN:") && Present(Lines(message), "Direction:")
      && Present(Lines(message), "Leverage:") && Present(Lines(message), "ENTRY:")
      && Present(Lines(message), "STOP LOSS:")
    ensures r.Success? ==> r.value.rawId == Cuid(id) && r.value.createdAt == now && r.value.dailyStats == None
    ensures r.Success? ==> Success(r.value.coin) == ParseCoin(Lines(message))
    ensures r.Success? ==> Some(r.value.direction) == FindLine(Lines(message), "Direction:")
    ensures r.Success? ==> r.value.leverage == LeverageList(ParseLeverage(Lines(message), num).value)
    ensures r.Success? ==> r.value.terms == ParseTargets(Lines(message), num)
    ensures r.Success? ==> r.value.stopLoss == num.float(FindLine(Lines(message), "STOP LOSS:").value)
    ensures r.Success? ==>
      (r.value.entry, r.value.ote) == EntryAndOte(ParseRange(FindLine(Lines(message), "ENTRY:").value, num))
  {
    var lines := Lines(message);
    var coin :- ParseCoin(lines);
    var direction :- Required(lines, "Direction:", "Direction NOT FOUND");
    var leverage :- ParseLeverage(lines, num);
    var entryValue :- Required(lines, "ENTRY:", "ENTRY NOT FOUND");
    var terms := ParseTargets(lines, num);
    var stopLoss :- Required(lines, "STOP LOSS:", "STOP LOSS NOT FOUND");
    var (entry, ote) := EntryAndOte(ParseRange(entryValue, num));
    Success(Signal(Cuid(id), coin, direction, LeverageList(leverage), entry, ote, terms, num.float(stopLoss), now, None))
  }

  /** The documented example: `COIN: $BTC/USDT` yields the pair `BTCUSDT`. */
  lemma CoinExample()
    ensures ParseCoin(["COIN: $BTC/USDT"]) == Success("BTCUSDT")
  {
    CoinLineFound();
    CoinTextStripped();
  }

  lemma CoinTextStripped()
    ensures ReplaceFirst(ReplaceFirst("$BTC/USDT", "$", ""), "/", "") == "BTCUSDT"
  {
    PairStripped("$BTC/USDT", "BTC", "USDT", "BTCUSDT");
  }

  /** A `$base/quote` pair loses its `$` and its `/`. */
  lemma PairStripped(pair: string, base: string, quote: string, r: string)
    requires pair == "" + ['$'] + (base + ['/'] + quote) && '/' !in base && r == base + quote
    ensures ReplaceFirst(ReplaceFirst(pair, "$", ""), "/", "") == r
  {
    RemoveFirstChar("", '$', base + ['/'] + quote);
    assert "" + (base + ['/'] + quote) == base + ['/'] + quote;
    RemoveFirstChar(base, '/', quote);
  }

  lemma CoinLineFound()
    ensures FindLine(["COIN: $BTC/USDT"], "COIN:") == Some("$BTC/USDT")
  {
    var empty: seq<string> := [];
    assert "COIN:" + " " + "$BTC/USDT" == "COIN: $BTC/USDT";
    assert empty + ["COIN: $BTC/USDT"] + empty == ["COIN: $BTC/USDT"];
    FindLineRoundTrip([], "COIN:", " ", "$BTC/USDT", []);
  }
}

=== FILE: jsnum.dfy ===
/**
 * JavaScript numbers as the strategy code uses them: finite values, the two
 * infinities that `Math.max()` / `Math.min()` of an empty list produce, and NaN,
 * which also stands for `undefined` (a missing price or an index past the end of
 * a list), since both behave the same way under arithmetic and comparison.
 * Signed zero is not distinguished.
 */
module JsNumbers {

  datatype JsNum = Fin(v: real) | PosInf | NegInf | NaN

  /** `!!x`: false for NaN/undefined and for zero. */
  predicate Truthy(x: JsNum) {
    !x.NaN? && x != Fin(0.0)
  }

  /** JavaScript `a < b`: every comparison with NaN is false. */
  predicate Lt(a: JsNum, b: JsNum) {
    match (a, b)
    case (NaN, _) => false
    case (_, NaN) => false
    case (Fin(x), Fin(y)) => x < y
    case (NegInf, _) => !b.NegInf?
    case (_, PosInf) => !a.PosInf?
    case _ => false
  }

  /** JavaScript `a > b`. */
  predicate Gt(a: JsNum, b: JsNum) {
    Lt(b, a)
  }

  /** JavaScript `a <= b`. */
  predicate Le(a: JsNum, b: JsNum) {
    !a.NaN? && !b.NaN? && !Lt(b, a)
  }

  /** JavaScript `a == b` on numbers: NaN equals nothing. */
  predicate LooseEq(a: JsNum, b: JsNum) {
    !a.NaN? && a == b
  }

  /** Two-argument `Math.max`: NaN if either argument is NaN. */
  function Max2(a: JsNum, b: JsNum): JsNum {
    if a.NaN? || b.NaN? then NaN else if Lt(a, b) then b else a
  }

  /** Two-argument `Math.min`: NaN if either argument is NaN. */
  function Min2(a: JsNum, b: JsNum): JsNum {
    if a.NaN? || b.NaN? then NaN else if Lt(b, a) then b else a
  }

  /** `Math.max(...xs)`: -Infinity on an empty list, NaN as soon as one element is NaN. */
  function MaxOf(xs: seq<JsNum>): (r: JsNum)
    ensures r.NaN? <==> exists i :: 0 <= i < |xs| && xs[i].NaN?
    ensures !r.NaN? ==> forall i :: 0 <= i < |xs| ==> Le(xs[i], r)
    ensures |xs| == 0 ==> r == NegInf
    ensures |xs| > 0 && !r.NaN? ==> r in xs
  {
    if |xs| == 0 then NegInf
    else
      var rest := MaxOf(xs[1..]);
      assert forall i :: 1 <= i < |xs| ==> xs[i] == xs[1..][i - 1];
      Max2(xs[0], rest)
  }

  /** `Math.min(...xs)`: +Infinity on an empty list, NaN as soon as one element is NaN. */
  function MinOf(xs: seq<JsNum>): (r: JsNum)
    ensures r.NaN? <==> exists i :: 0 <= i < |xs| && xs[i].NaN?
    ensures !r.NaN? ==> forall i :: 0 <= i < |xs| ==> Le(r, xs[i])
    ensures |xs| == 0 ==> r == PosInf
    ensures |xs| > 0 && !r.NaN? ==> r in xs
  {
    if |xs| == 0 then PosInf
    else
      var rest := MinOf(xs[1..]);
      assert forall i :: 1 <= i < |xs| ==> xs[i] == xs[1..][i - 1];
      Min2(xs[0], rest)
  }

  /** A list of finite numbers as JavaScript numbers. */
  function Lift(xs: seq<real>): (r: seq<JsNum>)
    ensures |r| == |xs|
    ensures forall i :: 0 <= i < |xs| ==> r[i] == Fin(xs[i])
  {
    seq(|xs|, i requires 0 <= i < |xs| => Fin(xs[i]))
  }

  /** `r` is the largest element of `xs`, or -Infinity when `xs` is empty. */
  predicate IsMaxOf(r: JsNum, xs: seq<real>) {
    if |xs| == 0 then r == NegInf
    else r.Fin? && r.v in xs && forall x :: x in xs ==> x <= r.v
  }

  /** `r` is the smallest element of `xs`, or +Infinity when `xs` is empty. */
  predicate IsMinOf(r: JsNum, xs: seq<real>) {
    if |xs| == 0 then r == PosInf
    else r.Fin? && r.v in xs && forall x :: x in xs ==> r.v <= x
  }

  /** `Math.max(...xs)` over a list of finite numbers. */
  function MaxReal(xs: seq<real>): (r: JsNum)
    ensures IsMaxOf(r, xs)
  {
    var r := MaxOf(Lift(xs));
    assert forall x :: x in xs ==> Fin(x) in Lift(xs) by {
      forall x | x in xs ensures Fin(x) in Lift(xs) {
        var i :| 0 <= i < |xs| && xs[i] == x;
        assert Lift(xs)[i] == Fin(x);
      }
    }
    r
  }

  /** `Math.min(...xs)` over a list of finite numbers. */
  function MinReal(xs: seq<real>): (r: JsNum)
    ensures IsMinOf(r, xs)
  {
    var r := MinOf(Lift(xs));
    assert forall x :: x in xs ==> Fin(x) in Lift(xs) by {
      forall x | x in xs ensures Fin(x) in Lift(xs) {
        var i :| 0 <= i < |xs| && xs[i] == x;
        assert Lift(xs)[i] == Fin(x);
      }
    }
    r
  }

  /** `xs[i]`, which is `undefined` past the end of the list. */
  function At(xs: seq<real>, i: int): (r: JsNum)
    ensures 0 <= i < |xs| ==> r == Fin(xs[i])
    ensures !(0 <= i < |xs|) ==> r.NaN?
  {
    if 0 <= i < |xs| then Fin(xs[i]) else NaN
  }

  /** The sign of a non-NaN number: 1, 0 or -1. */
  function Sign(a: JsNum): int
    requires !a.NaN?
  {
    match a
    case PosInf => 1
    case NegInf => -1
    case Fin(x) => if x > 0.0 then 1 else if x < 0.0 then -1 else 0
  }

  function Neg(a: JsNum): JsNum {
    match a
    case Fin(x) => Fin(-x)
    case PosInf => NegInf
    case NegInf => PosInf
    case NaN => NaN
  }

  /** IEEE-754 addition: opposite infinities give NaN. */
  function Add(a: JsNum, b: JsNum): JsNum {
    if a.NaN? || b.NaN? then NaN
    else if (a.PosInf? && b.NegInf?) || (a.NegInf? && b.PosInf?) then NaN
    else if a.PosInf? || b.PosInf? then PosInf
    else if a.NegInf? || b.NegInf? then NegInf
    else Fin(a.v + b.v)
  }

  function Sub(a: JsNum, b: JsNum): JsNum {
    Add(a, Neg(b))
  }

  /** IEEE-754 multiplication: zero times an infinity gives NaN. */
  function Mul(a: JsNum, b: JsNum): JsNum {
    if a.NaN? || b.NaN? then NaN
    else if a.Fin? && b.Fin? then Fin(a.v * b.v)
    else if Sign(a) == 0 || Sign(b) == 0 then NaN
    else if Sign(a) == Sign(b) then PosInf
    else NegInf
  }

  /** IEEE-754 division: a non-zero number over zero is an infinity, 0/0 and ∞/∞ are NaN. */
  function Div(a: JsNum, b: JsNum): JsNum {
    if a.NaN? || b.NaN? then NaN
    else if a.Fin? && b.Fin? then
      if b.v != 0.0 then Fin(a.v / b.v)
      else if a.v == 0.0 then NaN
      else if a.v > 0.0 then PosInf
      else NegInf
    else if !a.Fin? && !b.Fin? then NaN
    else if a.Fin? then Fin(0.0)
    else if Sign(b) >= 0 then a
    else Neg(a)
  }
}

=== FILE: lines.dfy ===
/**
 * The labelled-line grammar both alert formats share: a field is the first
 * line that starts with its key, and numeric ranges are `-`-separated.
 * src/libs/message/cornix.msg.ts and src/libs/message/vip.msg.ts each carry
 * an identical copy of these helpers.
 */
module LabeledLines {
  import opened Wrappers
  import opened Text
  import opened Signals

  /** `strReplace`: the first occurrence of each source string, in turn, is replaced by `target`. */
  function StrReplace(str: string, sources: seq<string>, target: string): string
    decreases |sources|
  {
    if |sources| == 0 then str
    else StrReplace(ReplaceFirst(str, sources[0], target), sources[1..], target)
  }

  /** Index of the first line that starts with `key`, or -1. */
  function FirstWithPrefix(lines: seq<string>, key: string): (i: int)
    ensures -1 <= i < |lines|
    ensures i >= 0 ==> StartsWith(lines[i], key)
    ensures i >= 0 ==> forall j :: 0 <= j < i ==> !StartsWith(lines[j], key)
    ensures i == -1 <==> forall j :: 0 <= j < |lines| ==> !StartsWith(lines[j], key)
  {
    if |lines| == 0 then -1
    else if StartsWith(lines[0], key) then 0
    else
      var i := FirstWithPrefix(lines[1..], key);
      assert forall j :: 1 <= j < |lines| ==> lines[j] == lines[1..][j - 1];
      if i == -1 then -1 else i + 1
  }

  /** Replacing a string that a line starts with drops that prefix. */
  lemma ReplacePrefix(line: string, key: string)
    requires StartsWith(line, key)
    ensures ReplaceFirst(line, key, "") == line[|key|..]
  {
    assert OccursAt(line, key, 0);
    assert IndexOf(line, key, 0) == 0;
  }

  /**
   * `findLine`: the first line starting with `key`, with the key removed, every
   * comma removed and white space trimmed; `None` (null) when no line starts with it.
   */
  function FindLine(lines: seq<string>, key: string): (r: Option<string>)
    ensures r.None? <==> forall j :: 0 <= j < |lines| ==> !StartsWith(lines[j], key)
    ensures r.Some? ==> r.value == Trim(RemoveAll(lines[FirstWithPrefix(lines, key)][|key|..], ','))
    ensures r.Some? ==> ',' !in r.value
  {
    var i := FirstWithPrefix(lines, key);
    if i < 0 then None
    else
      ReplacePrefix(lines[i], key);
      var t := RemoveAll(ReplaceFirst(lines[i], key, ""), ',');
      assert forall k :: 0 <= k < |Trim(t)| ==> Trim(t)[k] == t[LeadingSpaces(t) + k];
      Some(Trim(t))
  }

  /** The field is on some line and its value is not empty. */
  predicate Present(lines: seq<string>, key: string) {
    FindLine(lines, key) != None && FindLine(lines, key) != Some("")
  }

  /** A mandatory field: `if (!value) throw` rejects both a missing line and an empty value. */
  function Required(lines: seq<string>, key: string, error: string): (r: Result<string>)
    ensures r.Success? <==> Present(lines, key)
    ensures r.Success? ==> Some(r.value) == FindLine(lines, key) && r.value != ""
    ensures r.Failure? ==> r.error == error
  {
    match FindLine(lines, key)
    case None => Failure(error)
    case Some(v) => if v == "" then Failure(error) else Success(v)
  }

  /** `parseEntry`'s conversion: the `-`-separated pieces, each given to `parseFloat` as it stands. */
  function ParseRange(value: string, num: NumberSyntax): (r: seq<real>)
    ensures |r| == |Split(value, '-')| && |r| >= 1
    ensures forall i :: 0 <= i < |r| ==> r[i] == num.float(Split(value, '-')[i])
  {
    var pieces := Split(value, '-');
    seq(|pieces|, i requires 0 <= i < |pieces| => num.float(pieces[i]))
  }

  /** `splitValues`: no value (or an empty one) gives `[]`, otherwise each trimmed piece is parsed. */
  function SplitValues(values: Option<string>, num: NumberSyntax): (r: seq<real>)
    ensures values.None? || values == Some("") ==> r == []
    ensures values.Some? && values.value != "" ==>
      |r| == |Split(values.value, '-')|
      && forall i :: 0 <= i < |r| ==> r[i] == num.float(Trim(Split(values.value, '-')[i]))
  {
    match values
    case None => []
    case Some(v) =>
      if v == "" then []
      else
        var pieces := Split(v, '-');
        seq(|pieces|, i requires 0 <= i < |pieces| => num.float(Trim(pieces[i])))
  }

  /**
   * A line built from a key, some white space and a clean value is found again
   * with that value, provided no earlier line starts with the key.
   */
  lemma FindLineRoundTrip(before: seq<string>, key: string, pad: string, value: string, after: seq<string>)
    requires forall j :: 0 <= j < |before| ==> !StartsWith(before[j], key)
    requires forall j :: 0 <= j < |pad| ==> IsSpace(pad[j]) && pad[j] != ','
    requires ',' !in value
    requires |value| == 0 || (!IsSpace(value[0]) && !IsSpace(value[|value| - 1]))
    ensures FindLine(before + [key + pad + value] + after, key) == Some(value)
  {
    var lines := before + [key + pad + value] + after;
    assert StartsWith(lines[|before|], key);
    assert forall j :: 0 <= j < |before| ==> lines[j] == before[j];
    var i := FirstWithPrefix(lines, key);
    assert i == |before|;
    assert lines[i][|key|..] == pad + value;
    NoCommaUnchanged(pad + value);
    TrimPadded(pad, value);
  }

  lemma {:induction false} TrimPadded(pad: string, value: string)
    requires forall j :: 0 <= j < |pad| ==> IsSpace(pad[j])
    requires |value| == 0 || (!IsSpace(value[0]) && !IsSpace(value[|value| - 1]))
    ensures Trim(pad + value) == value
    decreases |pad|
  {
    if |pad| == 0 {
      assert pad + value == value;
      if |value| > 0 {
        assert LeadingSpaces(value) == 0;
        assert TrailingStart(value[0..]) == |value|;
      }
    } else {
      var s := pad + value;
      assert s[1..] == pad[1..] + value;
      assert LeadingSpaces(s) == 1 + LeadingSpaces(s[1..]);
      TrimPadded(pad[1..], value);
      assert s[LeadingSpaces(s)..] == s[1..][LeadingSpaces(s[1..])..];
    }
  }

  /** A value without surrounding spaces is its own trim. */
  lemma TrimClean(value: string)
    requires |value| == 0 || (!IsSpace(value[0]) && !IsSpace(value[|value| - 1]))
    ensures Trim(value) == value
  {
    TrimPadded("", value);
    assert "" + value == value;
  }

  lemma {:induction false} NoCommaUnchanged(s: string)
    requires ',' !in s
    ensures RemoveAll(s, ',') == s
    decreases |s|
  {
    if |s| > 0 {
      NoCommaUnchanged(s[1..]);
      assert s == [s[0]] + s[1..];
    }
  }
}

=== FILE: newcoin.dfy ===
/**
 * The new-listing watcher (src/services/new-coin/new-coin.service.ts): it
 * reads "... Will List <name> (<TOKEN>)" announcement titles, keeps one
 * entry per listed pair, tracks which of them still await their first order,
 * and picks a contract address out of block-explorer search results.
 *
 * The announcement feed, the explorer queries and the cron triggers are not
 * modelled: the titles, the explorer answers, the known prices and the clock
 * are parameters.
 */
module NewCoins {
  import opened Wrappers
  import opened Text

  // ------------------------------------------------------------ title parsing

  /** A character the token pattern `[A-Z0-9]` accepts. */
  predicate IsTokenChar(c: char) {
    'A' <= c <= 'Z' || '0' <= c <= '9'
  }

  /** The pattern `\([A-Z0-9]{3,10}\)` matches at `i` with a token of `k` characters. */
  predicate TokenAt(s: string, i: int, k: int) {
    && 0 <= i && 3 <= k <= 10 && i + k + 2 <= |s|
    && s[i] == '(' && s[i + k + 1] == ')'
    && forall j :: i + 1 <= j <= i + k ==> IsTokenChar(s[j])
  }

  /** The length of the longest run of token characters starting at `from`. */
  function RunLength(s: string, from: nat): (n: nat)
    requires from <= |s|
    ensures from + n <= |s|
    ensures forall j :: from <= j < from + n ==> IsTokenChar(s[j])
    ensures from + n == |s| || !IsTokenChar(s[from + n])
    decreases |s| - from
  {
    if from == |s| || !IsTokenChar(s[from]) then 0 else 1 + RunLength(s, from + 1)
  }

  /** A match at `i` spans exactly the run of token characters after the parenthesis. */
  lemma TokenLength(s: string, i: int, k: int)
    requires TokenAt(s, i, k)
    ensures k == RunLength(s, i + 1)
  {
  }

  /** The leftmost match at or after `from`, as its position and token length. */
  function FindToken(s: string, from: nat): (r: Option<(nat, nat)>)
    ensures r.Some? ==> from <= r.value.0 && TokenAt(s, r.value.0, r.value.1)
    ensures r.Some? ==> forall i, k :: from <= i < r.value.0 ==> !TokenAt(s, i, k)
    ensures r.None? ==> forall i, k :: from <= i ==> !TokenAt(s, i, k)
    decreases |s| - from
  {
    if from >= |s| then None
    else
      var n := RunLength(s, from + 1);
      if s[from] == '(' && 3 <= n <= 10 && from + n + 1 < |s| && s[from + n + 1] == ')'
      then Some((from, n))
      else
        assert forall k :: !TokenAt(s, from, k) by {
          forall k | TokenAt(s, from, k) ensures false {
            TokenLength(s, from, k);
          }
        }
        FindToken(s, from + 1)
  }

  /** A listed pair: the token followed by `USDT`, and the coin's name as the title spells it. */
  datatype Listing = Listing(symbol: string, coinName: string)

  /** A pair name the title parser can produce: three to ten token characters, then `USDT`. */
  predicate ListingSymbol(symbol: string) {
    && 7 <= |symbol| <= 14 && symbol[|symbol| - 4..] == "USDT"
    && forall j :: 0 <= j < |symbol| - 4 ==> IsTokenChar(symbol[j])
  }

  /** The pair and name announced by a title whose first token match is at `i`, spanning `k` characters. */
  function ListingAt(title: string, i: nat, k: nat): (r: Option<Listing>)
    requires TokenAt(title, i, k)
    ensures r.None? <==> LastIndexOf(title, "Will List", i) == -1
    ensures r.Some? ==> ListingSymbol(r.value.symbol)
  {
    var willListPos := LastIndexOf(title, "Will List", i);
    if willListPos == -1 then None
    else
      var strFrom := IndexOf(title, " ", willListPos + 9);
      var symbol := title[i + 1..i + 1 + k] + "USDT";
      assert symbol[|symbol| - 4..] == "USDT";
      Some(Listing(symbol, Substring(title, strFrom + 1, i - 1)))
  }

  /**
   * The title step of `checkNewCoins`: the first parenthesised token gives the
   * pair; the last `Will List` at or before it must exist, and the name runs
   * from after the first space following `Will List` to one character before
   * the parenthesis. Any other title is ignored.
   */
  function ParseTitle(title: string): (r: Option<Listing>)
    ensures r.None? <==>
      FindToken(title, 0).None? || LastIndexOf(title, "Will List", FindToken(title, 0).value.0) == -1
    ensures r.Some? ==> ListingSymbol(r.value.symbol)
  {
    match FindToken(title, 0)
    case None => None
    case Some(m) => ListingAt(title, m.0, m.1)
  }

  /** An announcement title: `Will List`, the coin's name, and its token in parentheses. */
  function Announcement(pre: string, name: string, token: string, post: string): string {
    pre + "Will List " + name + " (" + token + ")" + post
  }

  /**
   * `title` reads `Will List <name> (<token>)` from position `p` on, with no
   * parenthesis before `p` and neither a parenthesis nor a `W` in the name.
   */
  predicate Announces(title: string, p: nat, name: string, token: string) {
    var i := p + 11 + |name|;
    && i + |token| + 2 <= |title|
    && '(' !in title[..p] && '(' !in name && 'W' !in name
    && title[p..p + 10] == "Will List "
    && title[p + 10..i - 1] == name
    && title[i - 1] == ' ' && title[i] == '('
    && title[i + 1..i + 1 + |token|] == token
    && title[i + 1 + |token|] == ')'
  }

  /** An announcement has the announced layout. */
  lemma AnnouncementLayout(pre: string, name: string, token: string, post: string)
    requires '(' !in pre && '(' !in name && 'W' !in name
    ensures Announces(Announcement(pre, name, token, post), |pre|, name, token)
  {
    var title := Announcement(pre, name, token, post);
    assert title[..|pre|] == pre;
  }

  /** The leftmost match is the first parenthesis when that one opens a token. */
  lemma FirstToken(s: string, i: nat, k: nat)
    requires TokenAt(s, i, k)
    requires forall j :: 0 <= j < i ==> s[j] != '('
    ensures FindToken(s, 0) == Some((i, k))
  {
    var r := FindToken(s, 0);
    TokenLength(s, i, k);
    TokenLength(s, i, r.value.1);
  }

  /** The last `Will List` at or before `i` is the one at `p` when no `W` lies after `p` up to `i`. */
  lemma LastWillList(s: string, p: nat, i: nat)
    requires OccursAt(s, "Will List", p) && p <= i < |s|
    requires forall q :: p < q <= i ==> s[q] != 'W'
    ensures LastIndexOf(s, "Will List", i) == p
  {
    forall q | p < q <= i ensures !OccursAt(s, "Will List", q) {
      OccursStartsW(s, q);
    }
  }

  lemma OccursStartsW(s: string, q: int)
    ensures OccursAt(s, "Will List", q) ==> s[q] == 'W'
  {
    if OccursAt(s, "Will List", q) {
      assert s[q..q + 9][0] == s[q];
    }
  }

  /** In an announced title nothing before the token's parenthesis opens one, and no `W` follows `Will List`. */
  lemma AnnouncesChars(title: string, p: nat, name: string, token: string)
    requires Announces(title, p, name, token)
    ensures var i := p + 11 + |name|;
      && (forall j :: 0 <= j < i ==> title[j] != '(')
      && (forall q :: p < q <= i ==> title[q] != 'W')
  {
    var i := p + 11 + |name|;
    forall j | 0 <= j < i ensures title[j] != '(' && (p < j ==> title[j] != 'W') {
      if j < p {
        assert title[j] == title[..p][j] && title[..p][j] in title[..p];
      } else if j < p + 10 {
        assert title[j] == "Will List "[j - p];
      } else if j < i - 1 {
        assert title[j] == title[p + 10..i - 1][j - p - 10] && name[j - p - 10] in name;
      }
    }
  }

  /** The title parser's result on a title whose positions are known. */
  lemma ParseTitleAt(title: string, i: nat, k: nat, p: nat, token: string, name: string)
    requires FindToken(title, 0) == Some((i, k))
    requires LastIndexOf(title, "Will List", i) == p
    requires IndexOf(title, " ", p + 9) == p + 9
    requires i + 1 + k <= |title| && title[i + 1..i + 1 + k] == token
    requires Substring(title, p + 10, i - 1) == name
    ensures ParseTitle(title) == Some(Listing(token + "USDT", name))
  {
    assert ParseTitle(title) == ListingAt(title, i, k);
    ListingAtValue(title, i, k, p);
  }

  /** The pair and name read at known positions. */
  lemma ListingAtValue(title: string, i: nat, k: nat, p: nat)
    requires TokenAt(title, i, k)
    requires LastIndexOf(title, "Will List", i) == p
    requires IndexOf(title, " ", p + 9) == p + 9
    ensures ListingAt(title, i, k) == Some(Listing(title[i + 1..i + 1 + k] + "USDT", Substring(title, p + 10, i - 1)))
  {
    var strFrom := IndexOf(title, " ", p + 9);
    assert ListingAt(title, i, k) == Some(Listing(title[i + 1..i + 1 + k] + "USDT", Substring(title, strFrom + 1, i - 1)));
  }

  /** A search that starts on an occurrence finds it. */
  lemma IndexOfHere(s: string, t: string, k: nat)
    requires OccursAt(s, t, k)
    ensures IndexOf(s, t, k) == k
  {
  }

  /** `Will List ` at `p`: the pattern occurs there and the space search from its end stops at once. */
  lemma WillListAt(s: string, p: nat)
    requires p + 10 <= |s| && s[p..p + 10] == "Will List "
    ensures OccursAt(s, "Will List", p) && IndexOf(s, " ", p + 9) == p + 9
  {
    assert s[p..p + 9] == s[p..p + 10][..9];
    assert s[p + 9..p + 10] == s[p..p + 10][9..];
    IndexOfHere(s, " ", p + 9);
  }

  /** The title parser finds an announced token. */
  lemma AnnouncesToken(title: string, p: nat, name: string, token: string)
    requires Announces(title, p, name, token)
    requires 3 <= |token| <= 10 && forall j :: 0 <= j < |token| ==> IsTokenChar(token[j])
    ensures FindToken(title, 0) == Some((p + 11 + |name|, |token|))
  {
    var i := p + 11 + |name|;
    var k := |token|;
    assert TokenAt(title, i, k) by {
      forall j | i + 1 <= j <= i + k ensures IsTokenChar(title[j]) {
        assert title[j] == title[i + 1..i + 1 + k][j - i - 1];
      }
    }
    AnnouncesChars(title, p, name, token);
    FirstToken(title, i, k);
  }

  /** The title parser finds the announcing `Will List` and the space after it. */
  lemma AnnouncesWill(title: string, p: nat, name: string, token: string)
    requires Announces(title, p, name, token)
    ensures LastIndexOf(title, "Will List", p + 11 + |name|) == p
    ensures IndexOf(title, " ", p + 9) == p + 9
  {
    AnnouncesChars(title, p, name, token);
    WillListAt(title, p);
    LastWillList(title, p, p + 11 + |name|);
  }

  /** An announced title yields the token's pair and the name. */
  lemma AnnouncesListing(title: string, p: nat, name: string, token: string)
    requires Announces(title, p, name, token)
    requires 3 <= |token| <= 10 && forall j :: 0 <= j < |token| ==> IsTokenChar(token[j])
    ensures ParseTitle(title) == Some(Listing(token + "USDT", name))
  {
    var i := p + 11 + |name|;
    AnnouncesToken(title, p, name, token);
    AnnouncesWill(title, p, name, token);
    AnnouncesSlices(title, p, name, token);
    ParseTitleAt(title, i, |token|, p, token, name);
  }

  /** The token and the name read back from an announced title. */
  lemma AnnouncesSlices(title: string, p: nat, name: string, token: string)
    requires Announces(title, p, name, token)
    ensures var i := p + 11 + |name|;
      title[i + 1..i + 1 + |token|] == token && Substring(title, p + 10, i - 1) == name
  {
  }

  /**
   * A title of the announced shape yields the token's pair and the name
   * written between `Will List ` and the parenthesis, provided nothing before
   * the token opens a parenthesis and the name does not itself contain a `W`
   * (so that no later `Will List` starts inside it).
   */
  lemma ListingRoundTrip(pre: string, name: string, token: string, post: string)
    requires '(' !in pre && '(' !in name && 'W' !in name
    requires 3 <= |token| <= 10 && forall j :: 0 <= j < |token| ==> IsTokenChar(token[j])
    ensures ParseTitle(Announcement(pre, name, token, post)) == Some(Listing(token + "USDT", name))
  {
    AnnouncementLayout(pre, name, token, post);
    AnnouncesListing(Announcement(pre, name, token, post), |pre|, name, token);
  }

  // ---------------------------------------------------------- listed coins

  /** A listed coin: its name from the title, its pair, whether it trades already, and when it was seen. */
  datatype NewCoin = NewCoin(title: string, symbol: string, isExist: bool, createdAt: int)

  /** Some entry is for `symbol`. */
  predicate Listed(data: seq<NewCoin>, symbol: string) {
    exists i :: 0 <= i < |data| && data[i].symbol == symbol
  }

  /** No pair is listed twice. */
  predicate UniqueSymbols(data: seq<NewCoin>) {
    forall i, j :: 0 <= i < j < |data| ==> data[i].symbol != data[j].symbol
  }

  /** `!!prices[symbol]`: the exchange quotes the pair at a price other than 0. */
  predicate Quoted(prices: map<string, real>, symbol: string) {
    symbol in prices && prices[symbol] != 0.0
  }

  /** `findIndex` by pair: the first entry for `symbol`, or -1. */
  function IndexOfSymbol(data: seq<NewCoin>, symbol: string): (r: int)
    ensures -1 <= r < |data|
    ensures r == -1 <==> !Listed(data, symbol)
    ensures r != -1 ==> data[r].symbol == symbol && forall j :: 0 <= j < r ==> data[j].symbol != symbol
  {
    if |data| == 0 then -1
    else if data[|data| - 1].symbol == symbol && IndexOfSymbol(data[..|data| - 1], symbol) == -1 then |data| - 1
    else
      var r := IndexOfSymbol(data[..|data| - 1], symbol);
      assert r != -1 ==> data[r] == data[..|data| - 1][r];
      r
  }

  /**
   * `addNewCoin`: a pair already listed is left alone; otherwise an entry is
   * appended that trades iff the pair is quoted, stamped with `now`.
   */
  function AddNewCoin(data: seq<NewCoin>, symbol: string, coinName: string, prices: map<string, real>, now: int)
    : (r: seq<NewCoin>)
    ensures Listed(data, symbol) ==> r == data
    ensures !Listed(data, symbol) ==> r == data + [NewCoin(coinName, symbol, Quoted(prices, symbol), now)]
  {
    if IndexOfSymbol(data, symbol) != -1 then data
    else data + [NewCoin(coinName, symbol, Quoted(prices, symbol), now)]
  }

  /** After adding, the pair is listed. */
  lemma AddNewCoinListed(data: seq<NewCoin>, symbol: string, coinName: string, prices: map<string, real>, now: int)
    ensures Listed(AddNewCoin(data, symbol, coinName, prices, now), symbol)
  {
    var r := AddNewCoin(data, symbol, coinName, prices, now);
    if !Listed(data, symbol) {
      assert r[|data|].symbol == symbol;
    }
  }

  /** Adding never lists a pair twice. */
  lemma AddNewCoinUnique(data: seq<NewCoin>, symbol: string, coinName: string, prices: map<string, real>, now: int)
    requires UniqueSymbols(data)
    ensures UniqueSymbols(AddNewCoin(data, symbol, coinName, prices, now))
  {
    var r := AddNewCoin(data, symbol, coinName, prices, now);
    if !Listed(data, symbol) {
      assert r[|data|].symbol == symbol;
    }
  }

  /** Adding the same pair again, under any name, price or time, changes nothing. */
  lemma AddNewCoinTwice(data: seq<NewCoin>, symbol: string, a: string, b: string, prices: map<string, real>,
                        prices': map<string, real>, now: int, later: int)
    ensures var r := AddNewCoin(data, symbol, a, prices, now);
      AddNewCoin(r, symbol, b, prices', later) == r
  {
    var r := AddNewCoin(data, symbol, a, prices, now);
    if !Listed(data, symbol) {
      assert r[|data|].symbol == symbol;
    }
  }

  /** One title of `checkNewCoins`: the pair it announces is added, and a title that does not parse is skipped. */
  function CheckTitle(data: seq<NewCoin>, title: string, prices: map<string, real>, now: int): seq<NewCoin> {
    match ParseTitle(title)
    case None => data
    case Some(l) => AddNewCoin(data, l.symbol, l.coinName, prices, now)
  }

  /** `checkNewCoins`: every announcement title in turn. Entries already there stay as they were. */
  function CheckNewCoins(data: seq<NewCoin>, titles: seq<string>, prices: map<string, real>, now: int)
    : (r: seq<NewCoin>)
    ensures |data| <= |r| && r[..|data|] == data
    decreases |titles|
  {
    if |titles| == 0 then data
    else
      var next := CheckTitle(data, titles[0], prices, now);
      var r := CheckNewCoins(next, titles[1..], prices, now);
      assert r[..|data|] == r[..|next|][..|data|];
      r
  }

  /** A pair listed before a scan is still listed after it. */
  lemma ListedKept(data: seq<NewCoin>, r: seq<NewCoin>, symbol: string)
    requires |data| <= |r| && r[..|data|] == data
    requires Listed(data, symbol)
    ensures Listed(r, symbol)
  {
    var i :| 0 <= i < |data| && data[i].symbol == symbol;
    assert r[i] == r[..|data|][i];
  }

  /** A scan never lists a pair twice. */
  lemma {:induction false} CheckNewCoinsUnique(data: seq<NewCoin>, titles: seq<string>, prices: map<string, real>, now: int)
    requires UniqueSymbols(data)
    ensures UniqueSymbols(CheckNewCoins(data, titles, prices, now))
    decreases |titles|
  {
    if |titles| > 0 {
      var l := ParseTitle(titles[0]);
      if l.Some? {
        AddNewCoinUnique(data, l.value.symbol, l.value.coinName, prices, now);
      }
      CheckNewCoinsUnique(CheckTitle(data, titles[0], prices, now), titles[1..], prices, now);
    }
  }

  /** After a scan, the pair of its `k`-th title is listed when that title parses. */
  lemma {:induction false} CheckNewCoinsLists(data: seq<NewCoin>, titles: seq<string>, prices: map<string, real>,
                                              now: int, k: nat, symbol: string)
    requires k < |titles| && ParseTitle(titles[k]).Some? && ParseTitle(titles[k]).value.symbol == symbol
    ensures Listed(CheckNewCoins(data, titles, prices, now), symbol)
    decreases |titles|
  {
    var next := CheckTitle(data, titles[0], prices, now);
    if k == 0 {
      var l := ParseTitle(titles[0]).value;
      AddNewCoinListed(data, l.symbol, l.coinName, prices, now);
      ListedKept(next, CheckNewCoins(data, titles, prices, now), symbol);
    } else {
      assert titles[1..][k - 1] == titles[k];
      CheckNewCoinsLists(next, titles[1..], prices, now, k - 1, symbol);
    }
  }

  /** After a scan, the pair of every title that parses is listed. */
  lemma CheckNewCoinsListed(data: seq<NewCoin>, titles: seq<string>, prices: map<string, real>, now: int)
    ensures forall k :: 0 <= k < |titles| && ParseTitle(titles[k]).Some? ==>
      Listed(CheckNewCoins(data, titles, prices, now), ParseTitle(titles[k]).value.symbol)
  {
    forall k | 0 <= k < |titles| && ParseTitle(titles[k]).Some?
      ensures Listed(CheckNewCoins(data, titles, prices, now), ParseTitle(titles[k]).value.symbol)
    {
      CheckNewCoinsLists(data, titles, prices, now, k, ParseTitle(titles[k]).value.symbol);
    }
  }

  /**
   * An entry a scan appends: named and keyed by the listing one of the titles
   * announces, trading iff the pair is quoted, stamped with `now`.
   */
  predicate AppendedBy(c: NewCoin, titles: seq<string>, prices: map<string, real>, now: int) {
    c == NewCoin(c.title, c.symbol, Quoted(prices, c.symbol), now) &&
    exists i :: 0 <= i < |titles| && ParseTitle(titles[i]) == Some(Listing(c.symbol, c.title))
  }

  /** One title appends at most one entry: for the pair it announces, when that pair was not listed. */
  lemma CheckTitleAppended(data: seq<NewCoin>, title: string, prices: map<string, real>, now: int)
    ensures var next := CheckTitle(data, title, prices, now);
      |data| <= |next| <= |data| + 1 && next[..|data|] == data &&
      (|next| > |data| ==>
        var c := next[|data|];
        ParseTitle(title) == Some(Listing(c.symbol, c.title)) &&
        c == NewCoin(c.title, c.symbol, Quoted(prices, c.symbol), now) && !Listed(data, c.symbol))
  {
    var p := ParseTitle(title);
    if p.Some? {
      var next := AddNewCoin(data, p.value.symbol, p.value.coinName, prices, now);
      assert next[..|data|] == data;
    }
  }

  /** An entry for the listing the `i`-th title announces, stamped and flagged as a scan does, is appended by the titles. */
  lemma AppendedByAt(c: NewCoin, titles: seq<string>, prices: map<string, real>, now: int, i: nat)
    requires i < |titles| && ParseTitle(titles[i]) == Some(Listing(c.symbol, c.title))
    requires c == NewCoin(c.title, c.symbol, Quoted(prices, c.symbol), now)
    ensures AppendedBy(c, titles, prices, now)
  {
  }

  /**
   * Every entry a scan appends comes from one of its titles and is for a pair
   * that was not listed before the scan.
   */
  lemma {:induction false} CheckNewCoinsAppended(data: seq<NewCoin>, titles: seq<string>, prices: map<string, real>,
                                                 now: int)
    ensures var r := CheckNewCoins(data, titles, prices, now);
      forall k :: |data| <= k < |r| ==> AppendedBy(r[k], titles, prices, now) && !Listed(data, r[k].symbol)
    decreases |titles|
  {
    if |titles| > 0 {
      var next := CheckTitle(data, titles[0], prices, now);
      var r := CheckNewCoins(next, titles[1..], prices, now);
      assert r == CheckNewCoins(data, titles, prices, now);
      CheckTitleAppended(data, titles[0], prices, now);
      CheckNewCoinsAppended(next, titles[1..], prices, now);
      forall k | |data| <= k < |r|
        ensures AppendedBy(r[k], titles, prices, now) && !Listed(data, r[k].symbol)
      {
        if k < |next| {
          assert r[k] == r[..|next|][k] == next[|data|];
          AppendedByAt(r[k], titles, prices, now, 0);
        } else {
          assert |next| <= k < |CheckNewCoins(next, titles[1..], prices, now)|;
          assert AppendedBy(r[k], titles[1..], prices, now);
          var i :| 0 <= i < |titles[1..]| && ParseTitle(titles[1..][i]) == Some(Listing(r[k].symbol, r[k].title));
          assert titles[1..][i] == titles[i + 1];
          AppendedByAt(r[k], titles, prices, now, i + 1);
          if Listed(data, r[k].symbol) {
            ListedKept(data, next, r[k].symbol);
          }
        }
      }
    }
  }

  /** The entries still waiting for their first order, in listing order (`filter(({ isExist }) => !isExist)`). */
  function Pending(data: seq<NewCoin>): (r: seq<NewCoin>)
    ensures forall c :: c in r <==> c in data && !c.isExist
  {
    if |data| == 0 then []
    else
      var rest := Pending(data[..|data| - 1]);
      var last := data[|data| - 1];
      assert data == data[..|data| - 1] + [last];
      if last.isExist then rest else rest + [last]
  }

  /** `hasNewCoin`: some listed coin does not trade yet. */
  function HasNewCoin(data: seq<NewCoin>): (b: bool)
    ensures b <==> exists i :: 0 <= i < |data| && !data[i].isExist
  {
    var p := Pending(data);
    assert forall i :: 0 <= i < |data| && !data[i].isExist ==> data[i] in p;
    assert |p| > 0 ==> p[0] in data && !p[0].isExist;
    |p| > 0
  }

  /**
   * `onNewCoinOrdered`: the first entry for the ordered pair is marked as
   * trading; every other entry, and every field but that flag, stays as it was.
   */
  function OnNewCoinOrdered(data: seq<NewCoin>, symbol: string): (r: seq<NewCoin>)
    ensures |r| == |data|
    ensures forall j :: 0 <= j < |data| ==>
      r[j].title == data[j].title && r[j].symbol == data[j].symbol && r[j].createdAt == data[j].createdAt
    ensures forall j :: 0 <= j < |data| && data[j].symbol != symbol ==> r[j] == data[j]
    ensures forall j :: 0 <= j < |data| && (exists k :: 0 <= k < j && data[k].symbol == symbol) ==> r[j] == data[j]
    ensures forall j :: 0 <= j < |data| && data[j].symbol == symbol && (forall k :: 0 <= k < j ==> data[k].symbol != symbol) ==>
      r[j] == data[j].(isExist := true)
    ensures Listed(data, symbol) ==> exists j :: 0 <= j < |r| && r[j].symbol == symbol && r[j].isExist
    ensures !Listed(data, symbol) ==> r == data
  {
    var i := IndexOfSymbol(data, symbol);
    if i == -1 then data else data[i := data[i].(isExist := true)]
  }

  /**
   * With one entry per pair, ordering a pair leaves a coin waiting exactly
   * when some other pair was waiting already.
   */
  lemma OrderedPending(data: seq<NewCoin>, symbol: string)
    requires UniqueSymbols(data)
    ensures HasNewCoin(OnNewCoinOrdered(data, symbol)) <==>
      exists j :: 0 <= j < |data| && !data[j].isExist && data[j].symbol != symbol
  {
    var r := OnNewCoinOrdered(data, symbol);
    var i := IndexOfSymbol(data, symbol);
    forall j | 0 <= j < |data| && data[j].symbol == symbol
      ensures r[j].isExist
    {
      assert j == i;
    }
  }

  // -------------------------------------------------------- contract address

  /** A search hit: the result line and which explorer answered it (0 for BscScan, 1 for Etherscan). */
  datatype Candidate = Candidate(item: string, index: nat)

  /** What the address lookup concludes. */
  datatype Lookup =
    | Unknown                             // no line names the token
    | Ambiguous                           // several do, and none names the coin as well
    | Unparsable                          // the chosen line has fewer than two tabs
    | Found(address: string, index: nat)

  /** `(SYMBOL)`: how a result line names the token. */
  function Marker(symbol: string): string {
    "(" + symbol + ")"
  }

  /**
   * `title (symbol)` in lower case: how a result line names both the coin and
   * the token. `lower` is JavaScript's `toLowerCase`, which folds every
   * Unicode letter and which the model takes as given.
   */
  function Phrase(title: string, symbol: string, lower: string -> string): string {
    lower(title) + " (" + lower(symbol) + ")"
  }

  /** The lines of one explorer's answer that name the key, in order. */
  function Matching(items: seq<string>, key: string, index: nat): (r: seq<Candidate>)
    ensures forall c :: c in r <==> c.index == index && c.item in items && Contains(c.item, key)
  {
    if |items| == 0 then []
    else
      var rest := Matching(items[..|items| - 1], key, index);
      var last := items[|items| - 1];
      assert items == items[..|items| - 1] + [last];
      if IndexOf(last, key, 0) == -1 then rest else rest + [Candidate(last, index)]
  }

  /** `foundData`: the lines of every answer that name the key, answer by answer. */
  function Candidates(response: seq<seq<string>>, key: string): (r: seq<Candidate>)
    ensures forall c :: c in r <==> c.index < |response| && c.item in response[c.index] && Contains(c.item, key)
  {
    if |response| == 0 then []
    else
      var n := |response| - 1;
      assert forall i :: 0 <= i < n ==> response[..n][i] == response[i];
      Candidates(response[..n], key) + Matching(response[n], key, n)
  }

  /** The first candidate whose lower-cased line contains `phrase`, or -1. */
  function FirstMentioning(cands: seq<Candidate>, phrase: string, lower: string -> string, from: nat): (r: int)
    ensures r == -1 || (from <= r < |cands| && Contains(lower(cands[r].item), phrase))
    ensures r == -1 <==> forall j :: from <= j < |cands| ==> !Contains(lower(cands[j].item), phrase)
    ensures r != -1 ==> forall j :: from <= j < r ==> !Contains(lower(cands[j].item), phrase)
    decreases |cands| - from
  {
    if from >= |cands| then -1
    else if IndexOf(lower(cands[from].item), phrase, 0) != -1 then from
    else FirstMentioning(cands, phrase, lower, from + 1)
  }

  /** The text between the first and the second tab of a line, if it has two. */
  function SecondField(item: string): (r: Option<string>)
    ensures r.Some? ==> '\t' !in r.value
    ensures r.None? <==> forall i, j :: 0 <= i < j < |item| ==> !(item[i] == '\t' && item[j] == '\t')
  {
    var start := IndexOfChar(item, '\t', 0);
    if start == -1 then None
    else
      var end := IndexOfChar(item, '\t', start + 1);
      if end == -1 then None
      else Some(item[start + 1..end])
  }

  /** A field written between the first two tabs is read back. */
  lemma SecondFieldRoundTrip(pre: string, field: string, rest: string)
    requires '\t' !in pre && '\t' !in field
    ensures SecondField(pre + ['\t'] + field + ['\t'] + rest) == Some(field)
  {
    var item := pre + ['\t'] + field + ['\t'] + rest;
    var a := |pre|;
    var b := a + 1 + |field|;
    assert forall k :: 0 <= k < a ==> item[k] == pre[k] && pre[k] in pre;
    assert forall k :: a < k < b ==> item[k] == field[k - a - 1] && field[k - a - 1] in field;
    assert item[a] == '\t' && item[b] == '\t';
    assert IndexOfChar(item, '\t', 0) == a;
    assert IndexOfChar(item, '\t', a + 1) == b;
    assert item[a + 1..b] == field;
  }

  /** The address of the chosen line, or `Unparsable`. */
  function AddressOf(c: Candidate): (r: Lookup)
    ensures r.Found? || r.Unparsable?
    ensures r.Found? <==> SecondField(c.item).Some?
    ensures r.Found? ==> r == Found(SecondField(c.item).value, c.index)
  {
    match SecondField(c.item)
    case None => Unparsable
    case Some(a) => Found(a, c.index)
  }

  /**
   * `getContractAddress`: the explorer lines naming `(SYMBOL)`; none means the
   * token is unknown; among several, the first that also names the coin is
   * kept, and none such means the answer is ambiguous; the address is the
   * second tab-separated field of the line kept.
   */
  function GetContractAddress(symbol: string, title: string, response: seq<seq<string>>,
                              lower: string -> string): (r: Lookup)
    ensures r.Unknown? <==>
      forall i :: 0 <= i < |response| ==> forall x :: x in response[i] ==> !Contains(x, Marker(symbol))
    ensures var found := Candidates(response, Marker(symbol));
      r.Ambiguous? <==>
        |found| >= 2 && forall j :: 0 <= j < |found| ==> !Contains(lower(found[j].item), Phrase(title, symbol, lower))
    ensures var found := Candidates(response, Marker(symbol));
      |found| == 1 ==> r == AddressOf(found[0])
    ensures r.Found? ==>
      && r.index < |response| && '\t' !in r.address
      && exists x :: x in response[r.index] && Contains(x, Marker(symbol)) && SecondField(x) == Some(r.address)
  {
    var found := Candidates(response, Marker(symbol));
    if |found| == 0 then
      assert forall i, x :: 0 <= i < |response| && x in response[i] && Contains(x, Marker(symbol)) ==>
        Candidate(x, i) in found;
      Unknown
    else
      assert found[0] in found;
      if |found| >= 2 then
        var j := FirstMentioning(found, Phrase(title, symbol, lower), lower, 0);
        if j == -1 then Ambiguous
        else
          assert found[j] in found;
          AddressOf(found[j])
      else AddressOf(found[0])
  }

  /**
   * Among several candidates, the line kept is the first whose lower-cased
   * text names `title (symbol)`: the address comes from that line and no
   * other.
   */
  lemma GetContractAddressFirst(symbol: string, title: string, response: seq<seq<string>>,
                                lower: string -> string, j: nat)
    requires var found := Candidates(response, Marker(symbol));
      && 2 <= |found| && j < |found|
      && Contains(lower(found[j].item), Phrase(title, symbol, lower))
      && forall k :: 0 <= k < j ==> !Contains(lower(found[k].item), Phrase(title, symbol, lower))
    ensures GetContractAddress(symbol, title, response, lower) == AddressOf(Candidates(response, Marker(symbol))[j])
  {
    var found := Candidates(response, Marker(symbol));
    var phrase := Phrase(title, symbol, lower);
    var m := FirstMentioning(found, phrase, lower, 0);
    assert m != -1;
    assert m == j;
  }
}

=== FILE: news.dfy ===
/**
 * The announcement date scanner (`getDataFromBinanceArticle` in
 * src/services/news/news.service.ts): it repeatedly finds the leftmost
 * `dddd-dd-dd dd:dd (UTC)` stamp, keeps it unless it was kept already, and
 * continues after it.
 */
module News {
  import opened Sequences

  /** The length of a stamp such as `2021-08-19 10:00 (UTC)`. */
  const StampLength: nat := 22

  predicate IsDigit(c: char) {
    '0' <= c <= '9'
  }

  /** The character the pattern `[0-9]{4}-[0-9]{2}-[0-9]{2} [0-9]{2}:[0-9]{2} \(UTC\)` asks for at offset `k`. */
  predicate StampChar(k: nat, c: char) {
    if k == 4 || k == 7 then c == '-'
    else if k == 10 || k == 16 then c == ' '
    else if k == 13 then c == ':'
    else if k == 17 then c == '('
    else if k == 18 then c == 'U'
    else if k == 19 then c == 'T'
    else if k == 20 then c == 'C'
    else if k == 21 then c == ')'
    else IsDigit(c)
  }

  /** `x` is a stamp. */
  predicate IsStamp(x: string) {
    |x| == StampLength && forall k :: 0 <= k < StampLength ==> StampChar(k, x[k])
  }

  /** A stamp starts at `i` in `s`. */
  predicate StampAt(s: string, i: int) {
    0 <= i && i + StampLength <= |s| && IsStamp(s[i..i + StampLength])
  }

  /** `content.match(...)`: the leftmost stamp at or after `from`, or -1. */
  function FirstStamp(s: string, from: nat): (r: int)
    ensures r == -1 || (from <= r && StampAt(s, r))
    ensures r == -1 <==> forall i :: from <= i ==> !StampAt(s, i)
    ensures r != -1 ==> forall i :: from <= i < r ==> !StampAt(s, i)
    decreases |s| - from
  {
    if from + StampLength > |s| then -1
    else if IsStamp(s[from..from + StampLength]) then from
    else FirstStamp(s, from + 1)
  }

  /** The stamps the scan meets, repeats included: the leftmost one, then those after its end. */
  function Stamps(s: string): (r: seq<string>)
    decreases |s|
  {
    var i := FirstStamp(s, 0);
    if i == -1 then [] else [s[i..i + StampLength]] + Stamps(s[i + StampLength..])
  }

  /** Every stamp the scan meets occurs in the text. */
  lemma {:induction false} StampsOccur(s: string)
    ensures forall x :: x in Stamps(s) ==> exists i :: StampAt(s, i) && s[i..i + StampLength] == x
    decreases |s|
  {
    var i := FirstStamp(s, 0);
    if i != -1 {
      var rest := s[i + StampLength..];
      StampsOccur(rest);
      forall x | x in Stamps(s) ensures exists j :: StampAt(s, j) && s[j..j + StampLength] == x {
        if x == s[i..i + StampLength] {
          assert StampAt(s, i);
        } else {
          assert x in Stamps(rest);
          var j :| StampAt(rest, j) && rest[j..j + StampLength] == x;
          ShiftStamp(s, i + StampLength, j);
        }
      }
    }
  }

  /** A stamp in a suffix of `s` is a stamp of `s`. */
  lemma ShiftStamp(s: string, d: nat, j: nat)
    requires d <= |s| && StampAt(s[d..], j)
    ensures StampAt(s, d + j) && s[d + j..d + j + StampLength] == s[d..][j..j + StampLength]
  {
    assert s[d + j..d + j + StampLength] == s[d..][j..j + StampLength];
  }

  /** Text with no stamp yields nothing; text with one yields at least that. */
  lemma StampsEmpty(s: string)
    ensures Stamps(s) == [] <==> forall i :: !StampAt(s, i)
  {
    var i := FirstStamp(s, 0);
    if i == -1 {
      assert forall j :: !StampAt(s, j) by {
        forall j ensures !StampAt(s, j) {
          if j >= 0 {
            assert !StampAt(s, j);
          }
        }
      }
    }
  }

  /** The first occurrences of `xs`, in order: an element is kept unless it came before. */
  function Dedup(xs: seq<string>): (r: seq<string>)
    ensures Distinct(r)
    ensures forall x :: x in r <==> x in xs
  {
    if |xs| == 0 then []
    else
      var d := Dedup(xs[..|xs| - 1]);
      var x := xs[|xs| - 1];
      assert xs == xs[..|xs| - 1] + [x];
      if x in d then d else
        DistinctAppend(d, [x]);
        d + [x]
  }

  /**
   * The result keeps the order of first occurrence: the first occurrences
   * within any prefix of `xs` come first, in the same order.
   */
  lemma {:induction false} DedupPrefix(xs: seq<string>, j: nat)
    requires j <= |xs|
    ensures Dedup(xs[..j]) <= Dedup(xs)
    decreases |xs|
  {
    if j < |xs| {
      var n := |xs| - 1;
      assert xs[..n][..j] == xs[..j];
      DedupPrefix(xs[..n], j);
    } else {
      assert xs[..j] == xs;
    }
  }

  /** The scan takes the leftmost stamp, then carries on after it. */
  lemma StampsStep(s: string)
    requires FirstStamp(s, 0) != -1
    ensures var i := FirstStamp(s, 0);
      Stamps(s) == [s[i..i + StampLength]] + Stamps(s[i + StampLength..])
  {
  }

  /** Keeping first occurrences of one more element. */
  lemma DedupSnoc(xs: seq<string>, x: string)
    ensures Dedup(xs + [x]) == if x in Dedup(xs) then Dedup(xs) else Dedup(xs) + [x]
  {
    assert (xs + [x])[..|xs|] == xs;
  }

  /** The loop of `getDataFromBinanceArticle` from the dates kept so far and the text still to scan. */
  function Scan(data: seq<string>, rest: string): seq<string>
    decreases |rest|
  {
    var i := FirstStamp(rest, 0);
    if i == -1 then data
    else
      var date := rest[i..i + StampLength];
      Scan(if date in data then data else data + [date], rest[i + StampLength..])
  }

  /** Keeping, from `ys` in turn, each element not kept yet. */
  function Keep(data: seq<string>, ys: seq<string>): seq<string>
    decreases |ys|
  {
    if |ys| == 0 then data
    else Keep(if ys[0] in data then data else data + [ys[0]], ys[1..])
  }

  /** The scan keeps the stamps it meets, in the order it meets them. */
  lemma {:induction false} ScanKeeps(data: seq<string>, s: string)
    ensures Scan(data, s) == Keep(data, Stamps(s))
    decreases |s|
  {
    var i := FirstStamp(s, 0);
    if i != -1 {
      var date := s[i..i + StampLength];
      var rest := s[i + StampLength..];
      var next := if date in data then data else data + [date];
      ScanKeeps(next, rest);
      StampsStep(s);
      KeepCons(data, date, Stamps(rest));
    }
  }

  lemma KeepCons(data: seq<string>, y: string, ys: seq<string>)
    ensures Keep(data, [y] + ys) == Keep(if y in data then data else data + [y], ys)
  {
    assert ([y] + ys)[1..] == ys;
  }

  /** Keeping on from the first occurrences of `xs` gives the first occurrences of `xs` followed by `ys`. */
  lemma {:induction false} KeepDedup(xs: seq<string>, ys: seq<string>)
    ensures Keep(Dedup(xs), ys) == Dedup(xs + ys)
    decreases |ys|
  {
    if |ys| == 0 {
      assert xs + ys == xs;
    } else {
      KeepStep(xs, ys);
      KeepDedup(xs + [ys[0]], ys[1..]);
      assert xs + ys == (xs + [ys[0]]) + ys[1..];
    }
  }

  lemma KeepStep(xs: seq<string>, ys: seq<string>)
    requires |ys| > 0
    ensures Keep(Dedup(xs), ys) == Keep(Dedup(xs + [ys[0]]), ys[1..])
  {
    DedupSnoc(xs, ys[0]);
  }

  /** `getDataFromBinanceArticle`: the distinct stamps of the content, in order of first occurrence. */
  method DatesOf(content: string) returns (data: seq<string>)
    ensures data == Dedup(Stamps(content))
    ensures Distinct(data)
    ensures data == [] <==> forall i :: !StampAt(content, i)
  {
    var rest := content;
    data := [];
    while true
      invariant Scan(data, rest) == Scan([], content)
      decreases |rest|
    {
      var i := FirstStamp(rest, 0);
      if i == -1 {
        break;
      }
      var date := rest[i..i + StampLength];
      if date !in data {
        data := data + [date];
      }
      rest := rest[i + StampLength..];
    }
    ScanKeeps([], content);
    KeepDedup([], Stamps(content));
    assert [] + Stamps(content) == Stamps(content);
    StampsEmpty(content);
    if Stamps(content) != [] {
      assert Stamps(content)[0] in data;
    }
  }

  /** The dates found are exactly the stamps the scan meets, each occurring in the content. */
  lemma DatesOfMembers(content: string)
    ensures forall x :: x in Dedup(Stamps(content)) <==> x in Stamps(content)
    ensures forall x :: x in Dedup(Stamps(content)) ==>
      IsStamp(x) && exists i :: StampAt(content, i) && content[i..i + StampLength] == x
  {
    StampsOccur(content);
  }
}

=== FILE: orders.dfy ===
/**
 * Paper orders (src/models/bnc-order.ts) and the per-strategy order book.
 *
 * A strategy keeps its orders in an object keyed by id. Ids are generated
 * strings that are never array indices, so the object enumerates them in
 * insertion order; the book is therefore a sequence, and storing an order
 * under an id replaces the entry with that id in place or appends a new one.
 */
module Orders {
  import opened Wrappers
  import opened JsNumbers
  import opened Signals

  datatype Side = Buy | Sell

  datatype Status = Active | Processed | StopLess | Timeout | Cancelled

  /**
   * One paper order. A buy has no stop-loss and a `lifeTime` deadline; a sell
   * is created with `lifeTime` -1 and points back at its buy in `refOrderId`.
   * `price`, `stopLoss` and `leverage` come from policy functions, so they may
   * be infinite or NaN.
   */
  datatype Order = Order(
    id: string,
    refOrderId: Option<string>,
    rawId: SignalId,
    coin: string,
    side: Side,
    price: JsNum,
    stopLoss: Option<JsNum>,
    lifeTime: int,
    leverage: JsNum,
    status: Status,
    createdAt: int,
    closedAt: Option<int>)
  {
    /** The key of the order's signal, as the signal store is indexed. */
    const signalId: string := Key(rawId)
  }

  predicate IsActiveBuy(o: Order) {
    o.status == Active && o.side == Buy
  }

  predicate IsActiveSell(o: Order) {
    o.status == Active && o.side == Sell
  }

  /** Some order in the book has id `id`. */
  predicate HasId(book: seq<Order>, id: string) {
    exists i :: 0 <= i < |book| && book[i].id == id
  }

  /** No two orders of the book share an id, as in an object keyed by id. */
  predicate UniqueIds(book: seq<Order>) {
    forall i, j :: 0 <= i < j < |book| ==> book[i].id != book[j].id
  }

  /** The position of the first order with id `id`, or `|book|` when there is none. */
  function Position(book: seq<Order>, id: string): (k: nat)
    ensures k <= |book|
    ensures k < |book| ==> book[k].id == id
    ensures forall i :: 0 <= i < k ==> book[i].id != id
  {
    if |book| == 0 then 0
    else if book[0].id == id then 0
    else 1 + Position(book[1..], id)
  }

  /** `orders[o.id] = o`: overwrite the order with the same id where it stands, or append. */
  function Put(book: seq<Order>, o: Order): (r: seq<Order>)
    ensures HasId(book, o.id) ==> |r| == |book|
    ensures !HasId(book, o.id) ==> r == book + [o]
    ensures HasId(r, o.id)
    ensures forall i :: 0 <= i < |book| && book[i].id != o.id ==> r[i] == book[i]
    ensures forall i :: 0 <= i < |r| ==> r[i] == o || (i < |book| && r[i] == book[i])
    ensures UniqueIds(book) ==> UniqueIds(r)
  {
    var k := Position(book, o.id);
    if k < |book| then
      var r := book[k := o];
      assert r[k].id == o.id;
      r
    else
      var r := book + [o];
      assert r[|book|] == o;
      r
  }
}

=== FILE: policies.dfy ===
/**
 * How a strategy prices its orders. Each of the four pricing questions (buy
 * price, sell target, stop-loss, leverage) is answered by an optional policy
 * rule chosen by the strategy's name (src/services/strategy/strategy.service.ts)
 * or, when the strategy has no rule for it, by the default of the base strategy
 * (src/libs/strategy/base-strategy.ts).
 *
 * The rules are given a signal that exists; the catalog rules never fail on one.
 */
module Policies {
  import opened Wrappers
  import opened JsNumbers
  import opened Signals

  datatype BuyRule = UrgentBuy | OteBuy | MinEntryBuy

  datatype SellRule = Shortest | ShortMax | Midest | MidMax | Longest

  datatype StopRule = OrgStop | MinEntryStop | DynamicStop

  datatype LeverageRule = HighLeverage | NormalLeverage | NoLeverage

  /** The policy functions a strategy carries; `None` means the base default applies. */
  datatype Policy = Policy(
    buy: Option<BuyRule>,
    sell: Option<SellRule>,
    stop: Option<StopRule>,
    leverage: Option<LeverageRule>)

  /** All take-profit targets, short tier first. */
  function Targets(t: Terms): seq<real> {
    t.short + t.mid + t.long
  }

  /** `Math.min(...entry) * 0.99`: one percent under the lowest entry. */
  function EntryStop(s: Signal): JsNum {
    Mul(MinReal(s.entry), Fin(0.99))
  }

  /** The first index at or after `from` whose point lies strictly above `price`, or -1. */
  function FirstAbove(points: seq<real>, from: nat, price: JsNum): (k: int)
    ensures k == -1 || (from <= k < |points| && Gt(Fin(points[k]), price))
    ensures k == -1 ==> forall j :: from <= j < |points| ==> !Gt(Fin(points[j]), price)
    ensures k != -1 ==> forall j :: from <= j < k ==> !Gt(Fin(points[j]), price)
    decreases |points| - from
  {
    if from >= |points| then -1
    else if Gt(Fin(points[from]), price) then from
    else FirstAbove(points, from + 1, price)
  }

  /**
   * The dynamic stop: with `points = [sl, sl] ++ targets`, the point two places
   * before the first one above the price, or the entry stop when no target is
   * above the price.
   */
  function DynamicStopLoss(s: Signal, price: JsNum): JsNum {
    var points := [s.stopLoss, s.stopLoss] + Targets(s.terms);
    var k := FirstAbove(points, 2, price);
    if k == -1 then EntryStop(s) else Fin(points[k - 2])
  }

  /** `k` is the first target above `price`. */
  predicate FirstTargetAbove(t: seq<real>, k: int, price: JsNum) {
    0 <= k < |t| && Gt(Fin(t[k]), price) && forall j :: 0 <= j < k ==> !Gt(Fin(t[j]), price)
  }

  /**
   * The dynamic stop trails the targets by two: the entry stop while no target
   * is above the price, the signal's stop while the first or second target is
   * the first one above it, and otherwise the target two places before the
   * first one above the price, which is then at or under the price.
   */
  lemma DynamicStopLossCases(s: Signal, price: JsNum)
    ensures var t := Targets(s.terms);
      (forall j :: 0 <= j < |t| ==> !Gt(Fin(t[j]), price)) ==> DynamicStopLoss(s, price) == EntryStop(s)
    ensures var t := Targets(s.terms);
      forall k :: FirstTargetAbove(t, k, price) ==>
        DynamicStopLoss(s, price) == Fin(if k < 2 then s.stopLoss else t[k - 2])
    ensures var t := Targets(s.terms);
      forall k :: FirstTargetAbove(t, k, price) && k >= 2 ==> Le(DynamicStopLoss(s, price), price)
  {
    var t := Targets(s.terms);
    var points := [s.stopLoss, s.stopLoss] + t;
    assert forall j :: 0 <= j < |t| ==> points[j + 2] == t[j];
    var k := FirstAbove(points, 2, price);
    forall k0 | FirstTargetAbove(t, k0, price)
      ensures k == k0 + 2
    {
      assert points[k0 + 2] == t[k0];
    }
    if k != -1 {
      assert points[k] == t[k - 2];
      assert FirstTargetAbove(t, k - 2, price);
    }
  }

  /** The buy price: the rule's, or the optimal entry by default. */
  function BuyPrice(p: Policy, s: Signal, price: JsNum): (r: JsNum)
    ensures p.buy.None? || p.buy == Some(OteBuy) ==> r == Fin(s.ote)
    ensures p.buy == Some(UrgentBuy) ==> r == price
    ensures p.buy == Some(MinEntryBuy) ==> IsMinOf(r, s.entry)
  {
    match p.buy
    case None => Fin(s.ote)
    case Some(UrgentBuy) => price
    case Some(OteBuy) => Fin(s.ote)
    case Some(MinEntryBuy) => MinReal(s.entry)
  }

  /**
   * The sell target: the rule's, or by default the last short target, or the
   * first mid target when there is no short target.
   */
  function SellPrice(p: Policy, s: Signal): (r: JsNum)
    ensures var t := s.terms;
      p.sell.None? ==>
        r == (if |t.short| > 0 then Fin(t.short[|t.short| - 1]) else At(t.mid, 0))
    ensures p.sell == Some(Shortest) ==> r == At(s.terms.short, 0)
    ensures p.sell == Some(ShortMax) ==> IsMaxOf(r, s.terms.short)
    ensures p.sell == Some(Midest) && |s.terms.mid| == 0 ==> r == PosInf
    ensures p.sell == Some(Midest) && |s.terms.mid| > 0 ==>
      exists m :: IsMinOf(Fin(m), s.terms.mid) && IsMaxOf(r, s.terms.short + [m])
    ensures p.sell == Some(MidMax) ==> IsMaxOf(r, s.terms.mid)
    ensures p.sell == Some(Longest) ==> IsMaxOf(r, s.terms.mid + s.terms.long)
  {
    var t := s.terms;
    match p.sell
    case None => if |t.short| == 0 then At(t.mid, 0) else Fin(t.short[|t.short| - 1])
    case Some(Shortest) => At(t.short, 0)
    case Some(ShortMax) => MaxReal(t.short)
    case Some(Midest) =>
      var xs := Lift(t.short) + [MinReal(t.mid)];
      if |t.mid| == 0 then
        assert xs[|t.short|] == PosInf;
        MaxOf(xs)
      else
        assert xs == Lift(t.short + [MinReal(t.mid).v]);
        assert MaxOf(xs) == MaxReal(t.short + [MinReal(t.mid).v]);
        MaxOf(xs)
    case Some(MidMax) => MaxReal(t.mid)
    case Some(Longest) => MaxReal(t.mid + t.long)
  }

  /** The leverage: the rule's, or 1 by default. */
  function Leverage(p: Policy, s: Signal): (r: JsNum)
    ensures p.leverage.None? || p.leverage == Some(NoLeverage) ==> r == Fin(1.0)
    ensures p.leverage == Some(HighLeverage) ==> IsMaxOf(r, s.leverage)
    ensures p.leverage == Some(NormalLeverage) ==> IsMinOf(r, s.leverage)
  {
    match p.leverage
    case None => Fin(1.0)
    case Some(HighLeverage) => MaxReal(s.leverage)
    case Some(NormalLeverage) => MinReal(s.leverage)
    case Some(NoLeverage) => Fin(1.0)
  }

  /** The stop the rule proposes, or 0 when the strategy has no stop rule. */
  function RuleStop(p: Policy, s: Signal, price: JsNum): JsNum {
    match p.stop
    case None => Fin(0.0)
    case Some(OrgStop) => Fin(s.stopLoss)
    case Some(MinEntryStop) => EntryStop(s)
    case Some(DynamicStop) => DynamicStopLoss(s, price)
  }

  /** `price * (1 - 1 / leverage / 2)`: the floor used when no stop is set yet. */
  function Floor(price: JsNum, leverage: JsNum): JsNum {
    Mul(price, Sub(Fin(1.0), Div(Div(Fin(1.0), leverage), Fin(2.0))))
  }

  /**
   * The new stop-loss: the largest of the rule's stop, the signal's stop, the
   * current stop and, only while the current stop is 0, the floor under
   * `price`. It is never below the current stop, and never below 0.
   */
  function StopLoss(p: Policy, s: Signal, price: JsNum, leverage: JsNum, current: JsNum): (r: JsNum)
    ensures r.NaN? <==>
      RuleStop(p, s, price).NaN? || current.NaN? || (LooseEq(current, Fin(0.0)) && Floor(price, leverage).NaN?)
    ensures !r.NaN? ==> Le(current, r) && Le(Fin(s.stopLoss), r) && Le(RuleStop(p, s, price), r)
    ensures !r.NaN? ==> Le(Fin(0.0), r)
    ensures !r.NaN? && LooseEq(current, Fin(0.0)) ==> Le(Floor(price, leverage), r)
    ensures !r.NaN? ==>
      r == RuleStop(p, s, price) || r == Fin(s.stopLoss) || r == current ||
      (LooseEq(current, Fin(0.0)) && r == Floor(price, leverage)) || r == Fin(0.0)
  {
    var limit := if LooseEq(current, Fin(0.0)) then Floor(price, leverage) else Fin(0.0);
    var xs := [RuleStop(p, s, price), Fin(s.stopLoss), limit, current];
    assert xs[0] == RuleStop(p, s, price) && xs[1] == Fin(s.stopLoss) && xs[2] == limit && xs[3] == current;
    MaxOf(xs)
  }

  /** With a positive price and a leverage of at least 1, the floor lies in `[price/2, price)`. */
  lemma FloorBelowPrice(price: real, leverage: real)
    requires price > 0.0 && leverage >= 1.0
    ensures Floor(Fin(price), Fin(leverage)).Fin?
    ensures price / 2.0 <= Floor(Fin(price), Fin(leverage)).v < price
  {
    var q := 1.0 / leverage;
    assert 0.0 < q <= 1.0 by {
      assert q * leverage == 1.0;
    }
    var h := q / 2.0;
    assert Div(Div(Fin(1.0), Fin(leverage)), Fin(2.0)) == Fin(h);
    var k := 1.0 - h;
    assert Sub(Fin(1.0), Fin(h)) == Fin(k);
    assert Floor(Fin(price), Fin(leverage)) == Fin(price * k);
    HalfToWhole(price, q);
  }

  lemma HalfToWhole(x: real, f: real)
    requires x > 0.0 && 0.0 < f <= 1.0
    ensures x / 2.0 <= x * (1.0 - f / 2.0) < x
  {
    ScaleDown(x, f);
    assert x * (1.0 - f / 2.0) == x - (x * f) / 2.0;
  }

  /** Scaling a positive amount by a factor in `(0, 1]` keeps it positive and no larger. */
  lemma ScaleDown(x: real, f: real)
    requires x > 0.0 && 0.0 < f <= 1.0
    ensures 0.0 < x * f <= x
  {
    assert x * (1.0 - f) >= 0.0;
  }
}

=== FILE: registry.dfy ===
/**
 * The strategy service (src/services/strategy/strategy.service.ts): the
 * registry of catalog strategies, the fan-out of signals and price ticks to
 * every strategy, the ranking of their balances, the persistence snapshot and
 * the removal of a signal's orders.
 *
 * The registry is the sequence of strategies in insertion order, the order in
 * which `Object.values` and `for … in` visit them. A strategy that throws
 * during a price tick ends the `forEach`, so the strategies after it are not
 * updated in that round.
 */
module Registry {
  import opened Wrappers
  import opened JsNumbers
  import opened Signals
  import opened Orders
  import Policies
  import St = Strategy
  import B = Balance
  import Catalog

  /** No two strategies share a name, as the keys of an object. */
  predicate UniqueNames(reg: seq<St.Strategy>) {
    forall i, j :: 0 <= i < j < |reg| ==> reg[i].name != reg[j].name
  }

  /** Every id still to be handed out is fresh for every strategy's book. */
  ghost predicate AllFresh(ids: St.IdSource, reg: seq<St.Strategy>) {
    forall i :: 0 <= i < |reg| ==> St.FreshFor(ids, reg[i].orders)
  }

  /** The registry `createStrategy` builds: one strategy per catalog name, each with an empty book. */
  function Initial(): (r: seq<St.Strategy>)
    ensures |r| == 135
    ensures UniqueNames(r)
    ensures forall i :: 0 <= i < |r| ==> r[i].orders == [] && Catalog.TaggedBy(r[i].name, r[i].policy)
  {
    Catalog.NamesCount();
    Catalog.NamesDistinct();
    Catalog.Strategies()
  }

  /** Ids handed out later than `ids` are still fresh for a book `ids` is fresh for. */
  lemma FreshLater(ids: St.IdSource, k: nat, book: seq<Order>)
    requires St.FreshFor(ids, book) && ids.next <= k
    ensures St.FreshFor(ids.(next := k), book)
  {
  }

  /** What holds for every book holds for the books after the first, with a later id source. */
  lemma FreshTail(ids: St.IdSource, later: St.IdSource, reg: seq<St.Strategy>)
    requires AllFresh(ids, reg) && |reg| > 0
    requires later.gen == ids.gen && ids.next <= later.next
    ensures AllFresh(later, reg[1..])
  {
    forall j | 0 <= j < |reg[1..]|
      ensures St.FreshFor(later, reg[1..][j].orders)
    {
      assert reg[1..][j] == reg[j + 1];
      FreshLater(ids, later.next, reg[j + 1].orders);
      assert later == ids.(next := later.next);
    }
  }

  // ---------------------------------------------------------------- new signal

  /** `short[0] != Math.min(...short)`: the service drops a signal whose first target is not its lowest. */
  predicate Falling(s: Signal) {
    !LooseEq(At(s.terms.short, 0), MinReal(s.terms.short))
  }

  /** A signal is dropped exactly when it has no short target or a short target below the first. */
  lemma FallingCases(s: Signal)
    ensures Falling(s) <==>
      |s.terms.short| == 0 || exists j :: 0 <= j < |s.terms.short| && s.terms.short[j] < s.terms.short[0]
  {
    var t := s.terms.short;
    if |t| > 0 {
      var m := MinReal(t);
      if exists j :: 0 <= j < |t| && t[j] < t[0] {
        var j :| 0 <= j < |t| && t[j] < t[0];
        assert t[j] in t;
      } else {
        assert t[0] in t;
        assert m.v in t;
      }
    }
  }

  /** The first `forEach` of `onNewSignal`: each strategy in turn takes the signal. */
  function SignalAll(reg: seq<St.Strategy>, s: Signal, prices: map<string, real>, now: int, ids: St.IdSource)
    : (r: (seq<St.Strategy>, St.IdSource))
    ensures |r.0| == |reg|
    ensures forall i :: 0 <= i < |reg| ==> r.0[i].name == reg[i].name && r.0[i].policy == reg[i].policy
    ensures r.1.gen == ids.gen && ids.next <= r.1.next
    decreases |reg|
  {
    if |reg| == 0 then ([], ids)
    else
      var h := St.OnNewSignal(reg[0], s, prices, now, ids);
      var t := SignalAll(reg[1..], s, prices, now, h.1);
      ([h.0] + t.0, t.1)
  }

  /** The id source the `i`-th strategy receives the signal with. */
  function SignalIdsAt(reg: seq<St.Strategy>, s: Signal, prices: map<string, real>, now: int, ids: St.IdSource,
                       i: nat): (r: St.IdSource)
    requires i <= |reg|
    ensures r.gen == ids.gen && ids.next <= r.next
    decreases i
  {
    if i == 0 then ids
    else SignalIdsAt(reg[1..], s, prices, now, St.OnNewSignal(reg[0], s, prices, now, ids).1, i - 1)
  }

  /** Each strategy takes the signal exactly as on its own, with the ids the strategies before it left. */
  lemma {:induction false} SignalAllEach(reg: seq<St.Strategy>, s: Signal, prices: map<string, real>, now: int,
                                         ids: St.IdSource, i: nat)
    requires i < |reg|
    ensures SignalAll(reg, s, prices, now, ids).0[i] ==
      St.OnNewSignal(reg[i], s, prices, now, SignalIdsAt(reg, s, prices, now, ids, i)).0
    decreases |reg|
  {
    if i > 0 {
      var h := St.OnNewSignal(reg[0], s, prices, now, ids);
      var t := SignalAll(reg[1..], s, prices, now, h.1);
      assert SignalAll(reg, s, prices, now, ids).0[i] == t.0[i - 1];
      assert SignalIdsAt(reg, s, prices, now, ids, i) == SignalIdsAt(reg[1..], s, prices, now, h.1, i - 1);
      SignalAllEach(reg[1..], s, prices, now, h.1, i - 1);
      assert reg[1..][i - 1] == reg[i];
    }
  }

  /** A strategy taking a signal keeps the ids still to come fresh for its book. */
  lemma SignalKeepsFresh(st: St.Strategy, s: Signal, prices: map<string, real>, now: int, ids: St.IdSource)
    requires St.FreshFor(ids, st.orders)
    ensures var r := St.OnNewSignal(st, s, prices, now, ids); St.FreshFor(r.1, r.0.orders)
  {
    var r := St.OnNewSignal(st, s, prices, now, ids);
    assert !HasId(st.orders, ids.gen(ids.next));
    forall k: nat | r.1.next <= k
      ensures !HasId(r.0.orders, ids.gen(k))
    {
      forall j | 0 <= j < |r.0.orders|
        ensures r.0.orders[j].id != ids.gen(k)
      {
        if j < |st.orders| {
          assert r.0.orders[j].id == st.orders[j].id;
          assert !HasId(st.orders, ids.gen(k));
        } else {
          assert r.0.orders[j].id == ids.gen(ids.next);
        }
      }
    }
  }

  /** Taking a signal in every strategy keeps the ids still to come fresh for every book. */
  lemma {:induction false} SignalAllFresh(reg: seq<St.Strategy>, s: Signal, prices: map<string, real>, now: int,
                                          ids: St.IdSource)
    requires AllFresh(ids, reg)
    ensures var r := SignalAll(reg, s, prices, now, ids); AllFresh(r.1, r.0)
    decreases |reg|
  {
    if |reg| > 0 {
      var h := St.OnNewSignal(reg[0], s, prices, now, ids);
      SignalKeepsFresh(reg[0], s, prices, now, ids);
      FreshTail(ids, h.1, reg);
      SignalAllFresh(reg[1..], s, prices, now, h.1);
      var t := SignalAll(reg[1..], s, prices, now, h.1);
      FreshLater(h.1, t.1.next, h.0.orders);
      assert t.1 == h.1.(next := t.1.next);
    }
  }

  // ---------------------------------------------------------------- price tick

  /** `updateBuyOrders` only ever moves the id source forward. */
  lemma {:induction false} FillBuysIds(p: Policies.Policy, orders: seq<Order>, i: nat, n: nat, prices: map<string, real>,
                                       signals: map<string, Signal>, now: int, ids: St.IdSource)
    requires i <= n <= |orders|
    ensures var r := St.FillBuys(p, orders, i, n, prices, signals, now, ids);
      r.ids.gen == ids.gen && ids.next <= r.ids.next
    decreases n - i
  {
    if i < n {
      var o := orders[i];
      if !St.Fills(o, prices) {
        FillBuysIds(p, orders, i + 1, n, prices, signals, now, ids);
      } else if o.signalId in signals {
        var filled := orders[i := o.(status := Processed)];
        var sell := St.SellFor(p, o, signals[o.signalId], now, ids.gen(ids.next));
        FillBuysIds(p, Put(filled, sell), i + 1, n, prices, signals, now, St.Advance(ids));
      }
    }
  }

  /** A price tick of one strategy only ever moves the id source forward. */
  lemma TickIds(st: St.Strategy, prices: map<string, real>, signals: map<string, Signal>, now: int, ids: St.IdSource)
    ensures var t := St.OnUpdatePrices(st, prices, signals, now, ids);
      t.ids.gen == ids.gen && ids.next <= t.ids.next
  {
    FillBuysIds(st.policy, st.orders, 0, |st.orders|, prices, signals, now, ids);
  }

  /** The strategies after one round of a `forEach`, the id source after it, and whether a strategy threw. */
  datatype Round = Round(strategies: seq<St.Strategy>, ids: St.IdSource, crashed: bool)

  /** `onUpdatePrices`: every strategy in turn ticks; a strategy that throws ends the round. */
  function UpdateAll(reg: seq<St.Strategy>, prices: map<string, real>, signals: map<string, Signal>, now: int,
                     ids: St.IdSource): (r: Round)
    ensures |r.strategies| == |reg|
    ensures forall i :: 0 <= i < |reg| ==>
      r.strategies[i].name == reg[i].name && r.strategies[i].policy == reg[i].policy
    ensures r.ids.gen == ids.gen && ids.next <= r.ids.next
    decreases |reg|
  {
    if |reg| == 0 then Round([], ids, false)
    else
      TickIds(reg[0], prices, signals, now, ids);
      var t := St.OnUpdatePrices(reg[0], prices, signals, now, ids);
      var h := reg[0].(orders := t.orders);
      if t.crashed then Round([h] + reg[1..], t.ids, true)
      else
        var rest := UpdateAll(reg[1..], prices, signals, now, t.ids);
        Round([h] + rest.strategies, rest.ids, rest.crashed)
  }

  /** A strategy's tick throws: a buy that fills has no signal to read its sell price from. */
  predicate Throws(st: St.Strategy, prices: map<string, real>, signals: map<string, Signal>) {
    exists j :: 0 <= j < |st.orders| && St.Fills(st.orders[j], prices) && st.orders[j].signalId !in signals
  }

  /** A round throws exactly when some strategy's tick throws. */
  lemma {:induction false} UpdateAllCrash(reg: seq<St.Strategy>, prices: map<string, real>, signals: map<string, Signal>,
                                          now: int, ids: St.IdSource)
    requires AllFresh(ids, reg)
    ensures UpdateAll(reg, prices, signals, now, ids).crashed <==>
      exists i :: 0 <= i < |reg| && Throws(reg[i], prices, signals)
    decreases |reg|
  {
    if |reg| > 0 {
      St.TickCrash(reg[0], prices, signals, now, ids);
      var t := St.OnUpdatePrices(reg[0], prices, signals, now, ids);
      if !t.crashed {
        TickIds(reg[0], prices, signals, now, ids);
        FreshTail(ids, t.ids, reg);
        UpdateAllCrash(reg[1..], prices, signals, now, t.ids);
        if exists i :: 0 <= i < |reg| && Throws(reg[i], prices, signals) {
          var i :| 0 <= i < |reg| && Throws(reg[i], prices, signals);
          assert reg[1..][i - 1] == reg[i];
        }
      }
    }
  }

  /** Once a strategy throws, the strategies after it are left as they were. */
  lemma {:induction false} UpdateAllStops(reg: seq<St.Strategy>, prices: map<string, real>, signals: map<string, Signal>,
                                          now: int, ids: St.IdSource, c: nat, i: nat)
    requires AllFresh(ids, reg)
    requires c < i < |reg| && Throws(reg[c], prices, signals)
    ensures UpdateAll(reg, prices, signals, now, ids).strategies[i] == reg[i]
    decreases |reg|
  {
    St.TickCrash(reg[0], prices, signals, now, ids);
    var t := St.OnUpdatePrices(reg[0], prices, signals, now, ids);
    var h := reg[0].(orders := t.orders);
    if t.crashed {
      assert UpdateAll(reg, prices, signals, now, ids).strategies == [h] + reg[1..];
      assert ([h] + reg[1..])[i] == reg[i];
    } else {
      TickIds(reg[0], prices, signals, now, ids);
      FreshTail(ids, t.ids, reg);
      assert c > 0;
      assert reg[1..][c - 1] == reg[c] && reg[1..][i - 1] == reg[i];
      UpdateAllStops(reg[1..], prices, signals, now, t.ids, c - 1, i - 1);
      var rest := UpdateAll(reg[1..], prices, signals, now, t.ids);
      assert UpdateAll(reg, prices, signals, now, ids).strategies == [h] + rest.strategies;
    }
  }

  /** The id source the `i`-th strategy ticks with. */
  function TickIdsAt(reg: seq<St.Strategy>, prices: map<string, real>, signals: map<string, Signal>, now: int,
                     ids: St.IdSource, i: nat): (r: St.IdSource)
    requires i <= |reg|
    ensures r.gen == ids.gen && ids.next <= r.next
    decreases i
  {
    if i == 0 then ids
    else
      TickIds(reg[0], prices, signals, now, ids);
      TickIdsAt(reg[1..], prices, signals, now, St.OnUpdatePrices(reg[0], prices, signals, now, ids).ids, i - 1)
  }

  /**
   * A strategy that no earlier strategy's throw cut off ticks exactly as on its
   * own, with the ids the strategies before it left.
   */
  lemma {:induction false} UpdateAllEach(reg: seq<St.Strategy>, prices: map<string, real>, signals: map<string, Signal>,
                                         now: int, ids: St.IdSource, i: nat)
    requires AllFresh(ids, reg)
    requires i < |reg| && forall c :: 0 <= c < i ==> !Throws(reg[c], prices, signals)
    ensures UpdateAll(reg, prices, signals, now, ids).strategies[i] ==
      reg[i].(orders := St.OnUpdatePrices(reg[i], prices, signals, now, TickIdsAt(reg, prices, signals, now, ids, i)).orders)
    decreases |reg|
  {
    if i > 0 {
      var t := St.OnUpdatePrices(reg[0], prices, signals, now, ids);
      St.TickCrash(reg[0], prices, signals, now, ids);
      assert !Throws(reg[0], prices, signals);
      TickIds(reg[0], prices, signals, now, ids);
      FreshTail(ids, t.ids, reg);
      forall c | 0 <= c < i - 1
        ensures !Throws(reg[1..][c], prices, signals)
      {
        assert reg[1..][c] == reg[c + 1];
      }
      assert UpdateAll(reg, prices, signals, now, ids).strategies[i] ==
        UpdateAll(reg[1..], prices, signals, now, t.ids).strategies[i - 1];
      assert TickIdsAt(reg, prices, signals, now, ids, i) == TickIdsAt(reg[1..], prices, signals, now, t.ids, i - 1);
      UpdateAllEach(reg[1..], prices, signals, now, t.ids, i - 1);
      assert reg[1..][i - 1] == reg[i];
    }
  }

  /** A round that does not throw keeps the ids still to come fresh for every book. */
  lemma {:induction false} UpdateAllFresh(reg: seq<St.Strategy>, prices: map<string, real>, signals: map<string, Signal>,
                                          now: int, ids: St.IdSource)
    requires AllFresh(ids, reg)
    ensures var r := UpdateAll(reg, prices, signals, now, ids); !r.crashed ==> AllFresh(r.ids, r.strategies)
    decreases |reg|
  {
    if |reg| > 0 {
      var st := reg[0];
      var t := St.OnUpdatePrices(st, prices, signals, now, ids);
      if !t.crashed {
        TickKeepsFresh(st, prices, signals, now, ids);
        TickIds(st, prices, signals, now, ids);
        FreshTail(ids, t.ids, reg);
        UpdateAllFresh(reg[1..], prices, signals, now, t.ids);
        var rest := UpdateAll(reg[1..], prices, signals, now, t.ids);
        if !rest.crashed {
          FreshLater(t.ids, rest.ids.next, t.orders);
          assert rest.ids == t.ids.(next := rest.ids.next);
          FreshCons(rest.ids, st.(orders := t.orders), rest.strategies);
        }
      }
    }
  }

  /** A tick that does not throw keeps the ids still to come fresh for the book. */
  lemma TickKeepsFresh(st: St.Strategy, prices: map<string, real>, signals: map<string, Signal>, now: int,
                       ids: St.IdSource)
    requires St.FreshFor(ids, st.orders)
    ensures var t := St.OnUpdatePrices(st, prices, signals, now, ids); !t.crashed ==> St.FreshFor(t.ids, t.orders)
  {
    St.FillBuysFrame(st.policy, st.orders, 0, |st.orders|, prices, signals, now, ids);
    var f := St.FillBuys(st.policy, st.orders, 0, |st.orders|, prices, signals, now, ids);
    var t := St.OnUpdatePrices(st, prices, signals, now, ids);
    if !t.crashed {
      assert forall j :: 0 <= j < |t.orders| ==> t.orders[j].id == f.orders[j].id;
    }
  }

  lemma FreshCons(ids: St.IdSource, h: St.Strategy, tail: seq<St.Strategy>)
    requires St.FreshFor(ids, h.orders) && AllFresh(ids, tail)
    ensures AllFresh(ids, [h] + tail)
  {
    forall i | 0 <= i < |[h] + tail|
      ensures St.FreshFor(ids, ([h] + tail)[i].orders)
    {
      if i > 0 {
        assert ([h] + tail)[i] == tail[i - 1];
      }
    }
  }

  /**
   * `onNewSignal` of the service: a falling signal is dropped; any other is
   * taken by every strategy, and then every strategy ticks at the current prices.
   */
  function OnNewSignal(reg: seq<St.Strategy>, s: Signal, prices: map<string, real>, signals: map<string, Signal>,
                       now: int, ids: St.IdSource): (r: Round)
    ensures Falling(s) ==> r == Round(reg, ids, false)
    ensures |r.strategies| == |reg|
    ensures forall i :: 0 <= i < |reg| ==>
      r.strategies[i].name == reg[i].name && r.strategies[i].policy == reg[i].policy
    ensures r.ids.gen == ids.gen && ids.next <= r.ids.next
  {
    if Falling(s) then Round(reg, ids, false)
    else
      var a := SignalAll(reg, s, prices, now, ids);
      UpdateAll(a.0, prices, signals, now, a.1)
  }

  /** The `i`-th strategy once it has taken the signal, with the ids the strategies before it left. */
  function Signalled(reg: seq<St.Strategy>, s: Signal, prices: map<string, real>, now: int, ids: St.IdSource,
                     i: nat): St.Strategy
    requires i < |reg|
  {
    St.OnNewSignal(reg[i], s, prices, now, SignalIdsAt(reg, s, prices, now, ids, i)).0
  }

  /**
   * Handling a signal throws exactly when the signal is not falling and some
   * strategy, once it has taken the signal, throws on the price tick.
   */
  lemma OnNewSignalCrash(reg: seq<St.Strategy>, s: Signal, prices: map<string, real>, signals: map<string, Signal>,
                         now: int, ids: St.IdSource)
    requires AllFresh(ids, reg)
    ensures OnNewSignal(reg, s, prices, signals, now, ids).crashed <==>
      !Falling(s) && exists i :: 0 <= i < |reg| && Throws(Signalled(reg, s, prices, now, ids, i), prices, signals)
  {
    if !Falling(s) {
      var a := SignalAll(reg, s, prices, now, ids);
      SignalAllFresh(reg, s, prices, now, ids);
      UpdateAllCrash(a.0, prices, signals, now, a.1);
      forall i | 0 <= i < |reg|
        ensures a.0[i] == Signalled(reg, s, prices, now, ids, i)
      {
        SignalAllEach(reg, s, prices, now, ids, i);
      }
    }
  }

  /**
   * A strategy that no earlier strategy's throw cut off ends a non-falling
   * signal exactly as on its own: it takes the signal with the ids the
   * strategies before it left, and then ticks at the current prices.
   */
  lemma OnNewSignalEach(reg: seq<St.Strategy>, s: Signal, prices: map<string, real>, signals: map<string, Signal>,
                        now: int, ids: St.IdSource, i: nat)
    requires AllFresh(ids, reg) && !Falling(s)
    requires i < |reg| && forall c :: 0 <= c < i ==> !Throws(Signalled(reg, s, prices, now, ids, c), prices, signals)
    ensures var a := SignalAll(reg, s, prices, now, ids);
      var h := Signalled(reg, s, prices, now, ids, i);
      OnNewSignal(reg, s, prices, signals, now, ids).strategies[i] ==
        h.(orders := St.OnUpdatePrices(h, prices, signals, now, TickIdsAt(a.0, prices, signals, now, a.1, i)).orders)
  {
    var a := SignalAll(reg, s, prices, now, ids);
    SignalAllFresh(reg, s, prices, now, ids);
    forall c | 0 <= c <= i
      ensures a.0[c] == Signalled(reg, s, prices, now, ids, c)
    {
      SignalAllEach(reg, s, prices, now, ids, c);
    }
    UpdateAllEach(a.0, prices, signals, now, a.1, i);
  }

  /** Handling a signal without a throw keeps the ids still to come fresh for every book. */
  lemma OnNewSignalFresh(reg: seq<St.Strategy>, s: Signal, prices: map<string, real>, signals: map<string, Signal>,
                         now: int, ids: St.IdSource)
    requires AllFresh(ids, reg)
    ensures var r := OnNewSignal(reg, s, prices, signals, now, ids); !r.crashed ==> AllFresh(r.ids, r.strategies)
  {
    if !Falling(s) {
      SignalAllFresh(reg, s, prices, now, ids);
      var a := SignalAll(reg, s, prices, now, ids);
      UpdateAllFresh(a.0, prices, signals, now, a.1);
    }
  }

  // ------------------------------------------------------------------ ranking

  /** One row of `getBalances`: a strategy's id with its balances. */
  datatype Ranked = Ranked(strategyId: string, balances: B.Balances)

  /** The TOTAL a row is ranked by. */
  function Total(x: Ranked): JsNum {
    x.balances.total
  }

  /** One step of the ranking sort: `x` goes before the first row it beats, after every row it does not. */
  function Insert(x: Ranked, s: seq<Ranked>): (r: seq<Ranked>)
    ensures multiset(r) == multiset(s) + multiset{x}
    decreases |s|
  {
    if |s| == 0 then [x]
    else if Gt(Total(x), Total(s[0])) then [x] + s
    else
      assert s == [s[0]] + s[1..];
      [s[0]] + Insert(x, s[1..])
  }

  /** The sort with comparator `a > b ? -1 : a < b ? 1 : 0` on TOTAL: an insertion sort, larger totals first. */
  function Rank(xs: seq<Ranked>): (r: seq<Ranked>)
    ensures multiset(r) == multiset(xs)
    decreases |xs|
  {
    if |xs| == 0 then []
    else
      assert xs == xs[..|xs| - 1] + [xs[|xs| - 1]];
      Insert(xs[|xs| - 1], Rank(xs[..|xs| - 1]))
  }

  /** No row has a larger TOTAL than a row before it. */
  predicate Descending(r: seq<Ranked>) {
    forall i, j :: 0 <= i < j < |r| ==> !Gt(Total(r[j]), Total(r[i]))
  }

  predicate NoNaN(r: seq<Ranked>) {
    forall i :: 0 <= i < |r| ==> !Total(r[i]).NaN?
  }

  /** Numbers other than NaN are totally ordered: if `b` is above `a` and `c` not above `b`, then `c` is below `a`. */
  lemma BelowOf(a: JsNum, b: JsNum, c: JsNum)
    requires !a.NaN? && !b.NaN? && !c.NaN?
    requires Gt(a, b) && !Gt(c, b)
    ensures Lt(c, a)
  {
  }

  lemma NoNaNMembers(s: seq<Ranked>, y: Ranked)
    requires NoNaN(s) && y in s
    ensures !Total(y).NaN?
  {
  }

  lemma {:induction false} InsertDescending(x: Ranked, s: seq<Ranked>)
    requires Descending(s) && NoNaN(s) && !Total(x).NaN?
    ensures Descending(Insert(x, s))
    decreases |s|
  {
    if |s| > 0 {
      if Gt(Total(x), Total(s[0])) {
        var r := [x] + s;
        forall i, j | 0 <= i < j < |r|
          ensures !Gt(Total(r[j]), Total(r[i]))
        {
          if i == 0 {
            assert r[j] == s[j - 1];
            assert !Gt(Total(s[j - 1]), Total(s[0])) || j - 1 == 0;
            BelowOf(Total(x), Total(s[0]), Total(s[j - 1]));
          } else {
            assert r[i] == s[i - 1] && r[j] == s[j - 1];
          }
        }
      } else {
        var rest := Insert(x, s[1..]);
        InsertDescending(x, s[1..]);
        var r := [s[0]] + rest;
        forall i, j | 0 <= i < j < |r|
          ensures !Gt(Total(r[j]), Total(r[i]))
        {
          if i == 0 {
            var y := r[j];
            assert y in multiset(rest);
            assert y == x || y in s[1..];
            if y != x {
              var k :| 0 <= k < |s[1..]| && s[1..][k] == y;
              assert s[k + 1] == y;
            }
          } else {
            assert r[i] == rest[i - 1] && r[j] == rest[j - 1];
          }
        }
      }
    }
  }

  lemma {:induction false} RankDescending(xs: seq<Ranked>)
    requires NoNaN(xs)
    ensures Descending(Rank(xs))
    decreases |xs|
  {
    if |xs| > 0 {
      var init := xs[..|xs| - 1];
      RankDescending(init);
      var r := Rank(init);
      forall i | 0 <= i < |r|
        ensures !Total(r[i]).NaN?
      {
        assert r[i] in multiset(init);
        NoNaNMembers(init, r[i]);
      }
      InsertDescending(xs[|xs| - 1], r);
    }
  }

  /** The unsorted rows: each strategy's id with its own balances. */
  function Rows(reg: seq<St.Strategy>, prices: map<string, real>, total: real, amountBuyOnce: real,
                excepts: seq<string>, days: real, now: int): (r: seq<Ranked>)
    ensures |r| == |reg|
    ensures forall i :: 0 <= i < |reg| ==> r[i].strategyId == reg[i].name
    ensures forall i :: 0 <= i < |reg| ==>
      r[i].balances == B.GetBalances(reg[i], prices, total, amountBuyOnce, excepts, days, now)
  {
    seq(|reg|, i requires 0 <= i < |reg| =>
      Ranked(reg[i].name, B.GetBalances(reg[i], prices, total, amountBuyOnce, excepts, days, now)))
  }

  /** `getBalances`: every strategy's balances, ranked by TOTAL; the ranking is a permutation of the rows. */
  function GetBalances(reg: seq<St.Strategy>, prices: map<string, real>, total: real, amountBuyOnce: real,
                       excepts: seq<string>, days: real, now: int): (r: seq<Ranked>)
    ensures multiset(r) == multiset(Rows(reg, prices, total, amountBuyOnce, excepts, days, now))
  {
    Rank(Rows(reg, prices, total, amountBuyOnce, excepts, days, now))
  }

  /** With no NaN total the ranking is a permutation of the rows with no larger TOTAL after a smaller one. */
  lemma GetBalancesRanked(reg: seq<St.Strategy>, prices: map<string, real>, total: real, amountBuyOnce: real,
                          excepts: seq<string>, days: real, now: int)
    requires NoNaN(Rows(reg, prices, total, amountBuyOnce, excepts, days, now))
    ensures var r := GetBalances(reg, prices, total, amountBuyOnce, excepts, days, now);
      multiset(r) == multiset(Rows(reg, prices, total, amountBuyOnce, excepts, days, now)) && Descending(r)
  {
    RankDescending(Rows(reg, prices, total, amountBuyOnce, excepts, days, now));
  }

  // ------------------------------------------------------------------ snapshot

  /** `getData`: each strategy's book under its name. */
  function GetData(reg: seq<St.Strategy>): (r: map<string, seq<Order>>)
    ensures forall k :: k in r <==> exists i :: 0 <= i < |reg| && reg[i].name == k
    decreases |reg|
  {
    if |reg| == 0 then map[]
    else
      var last := reg[|reg| - 1];
      var init := reg[..|reg| - 1];
      var m := GetData(init);
      assert forall i :: 0 <= i < |init| ==> init[i] == reg[i];
      m[last.name := last.orders]
  }

  /** With unique names, the snapshot holds each strategy's own book. */
  lemma {:induction false} GetDataBooks(reg: seq<St.Strategy>, i: nat)
    requires UniqueNames(reg) && i < |reg|
    ensures reg[i].name in GetData(reg) && GetData(reg)[reg[i].name] == reg[i].orders
    decreases |reg|
  {
    var init := reg[..|reg| - 1];
    if i < |reg| - 1 {
      assert init[i] == reg[i];
      GetDataBooks(init, i);
    }
  }

  /** `setData`: every strategy named in the data takes the data's book; other names are ignored. */
  function SetData(reg: seq<St.Strategy>, data: map<string, seq<Order>>): (r: seq<St.Strategy>)
    ensures |r| == |reg|
    ensures forall i :: 0 <= i < |reg| ==> r[i].name == reg[i].name && r[i].policy == reg[i].policy
  {
    seq(|reg|, i requires 0 <= i < |reg| =>
      if reg[i].name in data then reg[i].(orders := data[reg[i].name]) else reg[i])
  }

  /** Restoring a snapshot of the registry itself changes nothing. */
  lemma SetGetData(reg: seq<St.Strategy>)
    requires UniqueNames(reg)
    ensures SetData(reg, GetData(reg)) == reg
  {
    var r := SetData(reg, GetData(reg));
    forall i | 0 <= i < |reg|
      ensures r[i] == reg[i]
    {
      GetDataBooks(reg, i);
    }
  }

  /** After a restore, the snapshot holds the restored book of every named strategy and the old book of the others. */
  lemma GetSetData(reg: seq<St.Strategy>, data: map<string, seq<Order>>, i: nat)
    requires UniqueNames(reg) && i < |reg|
    ensures var k := reg[i].name;
      GetData(SetData(reg, data))[k] == if k in data then data[k] else reg[i].orders
  {
    var r := SetData(reg, data);
    assert UniqueNames(r);
    GetDataBooks(r, i);
  }

  /** Restoring the same data twice is restoring it once. */
  lemma SetDataTwice(reg: seq<St.Strategy>, data: map<string, seq<Order>>)
    ensures SetData(SetData(reg, data), data) == SetData(reg, data)
  {
  }

  // ------------------------------------------------------------------- removal

  /**
   * `signalId == _signalId` with the id from the route (always a string) on
   * the right: a cuid compares as a string, a number compares with the
   * route's string converted by `Number` (`toNumber`, which the model does
   * not look inside), and null equals no string.
   */
  predicate LooseEquals(id: SignalId, route: string, toNumber: string -> JsNum) {
    match id
    case Cuid(t) => t == route
    case Numbered(n) => toNumber(route) == Fin(n as real)
    case NullId => false
  }

  /** The book without the orders whose signal id loosely equals `route`, in the same order. */
  function Without(book: seq<Order>, route: string, toNumber: string -> JsNum): (r: seq<Order>)
    ensures |r| <= |book|
    decreases |book|
  {
    if |book| == 0 then []
    else (if LooseEquals(book[0].rawId, route, toNumber) then [] else [book[0]]) + Without(book[1..], route, toNumber)
  }

  /** An order survives exactly when it was in the book and its signal id does not equal the route's. */
  lemma {:induction false} WithoutMembers(book: seq<Order>, route: string, toNumber: string -> JsNum, o: Order)
    ensures o in Without(book, route, toNumber) <==> o in book && !LooseEquals(o.rawId, route, toNumber)
    decreases |book|
  {
    if |book| > 0 {
      WithoutMembers(book[1..], route, toNumber, o);
      assert book == [book[0]] + book[1..];
    }
  }

  /** Removing a signal's orders twice is removing them once. */
  lemma {:induction false} WithoutTwice(book: seq<Order>, route: string, toNumber: string -> JsNum)
    ensures Without(Without(book, route, toNumber), route, toNumber) == Without(book, route, toNumber)
    decreases |book|
  {
    if |book| > 0 {
      WithoutTwice(book[1..], route, toNumber);
      var r := Without(book, route, toNumber);
      if !LooseEquals(book[0].rawId, route, toNumber) {
        assert r == [book[0]] + Without(book[1..], route, toNumber);
        assert r[1..] == Without(book[1..], route, toNumber);
      } else {
        assert r == Without(book[1..], route, toNumber);
      }
    }
  }

  /** `removeSignal`: every strategy drops the orders whose signal id loosely equals the route's. */
  function RemoveSignal(reg: seq<St.Strategy>, route: string, toNumber: string -> JsNum): (r: seq<St.Strategy>)
    ensures |r| == |reg|
    ensures forall i :: 0 <= i < |reg| ==> r[i].name == reg[i].name && r[i].policy == reg[i].policy
  {
    seq(|reg|, i requires 0 <= i < |reg| => reg[i].(orders := Without(reg[i].orders, route, toNumber)))
  }

  /**
   * After a removal each book holds exactly its orders whose signal id does
   * not loosely equal the route's: a Cornix order goes exactly when its cuid
   * is the route string, a VIP order exactly when the route reads as its
   * number, and an order whose signal id is null always stays.
   */
  lemma RemoveSignalMembers(reg: seq<St.Strategy>, route: string, toNumber: string -> JsNum, i: nat, o: Order)
    requires i < |reg|
    ensures o in RemoveSignal(reg, route, toNumber)[i].orders <==>
      o in reg[i].orders && !LooseEquals(o.rawId, route, toNumber)
    ensures o.rawId.Cuid? ==>
      (o in RemoveSignal(reg, route, toNumber)[i].orders <==> o in reg[i].orders && o.signalId != route)
    ensures o.rawId.Numbered? ==>
      (o in RemoveSignal(reg, route, toNumber)[i].orders <==>
       o in reg[i].orders && toNumber(route) != Fin(o.rawId.n as real))
    ensures o.rawId == NullId ==>
      (o in RemoveSignal(reg, route, toNumber)[i].orders <==> o in reg[i].orders)
  {
    WithoutMembers(reg[i].orders, route, toNumber, o);
  }

  /** Removing twice is removing once. */
  lemma RemoveSignalTwice(reg: seq<St.Strategy>, route: string, toNumber: string -> JsNum)
    ensures RemoveSignal(RemoveSignal(reg, route, toNumber), route, toNumber) == RemoveSignal(reg, route, toNumber)
  {
    var r := RemoveSignal(reg, route, toNumber);
    forall i | 0 <= i < |reg|
      ensures RemoveSignal(r, route, toNumber)[i] == r[i]
    {
      WithoutTwice(reg[i].orders, route, toNumber);
    }
  }
}

=== FILE: router.dfy ===
/**
 * The Telegram routing filter (src/services/telegram/telegram.service.ts):
 * each alert is parsed by the parser of its channel, then passes a one-slot
 * duplicate check, a USDT-quote check and the entry/target check before it is
 * stored under its id and emitted to the strategies.
 *
 * The daily statistics of the exchange client are a parameter (`stats`); the
 * log lines and the event bus are not modelled beyond the emitted signal.
 */
module Router {
  import opened Wrappers
  import opened Text
  import opened JsNumbers
  import opened Signals
  import Cornix
  import Vip
  import Registry

  /** Which parser reads the alert: the channel it came from decides. */
  datatype Channel = CornixChannel | VipChannel

  /** The filter's state: the last symbol let through and the stored signals by id. */
  datatype Router = Router(lastSymbol: Option<string>, signals: map<string, Signal>)

  /** Why an alert went no further, or the signal it delivered. */
  datatype Verdict =
    | Thrown(error: string)
    | Duplicate
    | NotUsdt
    | FallingDown
    | Accepted(signal: Signal)

  datatype Routed = Routed(state: Router, verdict: Verdict)

  /** The state the service starts in: no last symbol and no stored signal. */
  const Initial: Router := Router(None, map[])

  /**
   * The parse step. The VIP parser returns nothing for a message that is not a
   * signal, and taking the id and coin out of nothing throws.
   */
  function ParseWith(ch: Channel, message: string, id: string, now: int, num: NumberSyntax): (r: Result<Signal>)
    ensures ch == CornixChannel ==> r == Cornix.Parse(message, id, now, num)
    ensures ch == VipChannel ==>
      (r.Success? <==> Vip.Parse(message, now, num).Success? && Vip.Parse(message, now, num).value.Some?)
    ensures ch == VipChannel && r.Success? ==> r.value == Vip.Parse(message, now, num).value.value
  {
    match ch
    case CornixChannel => Cornix.Parse(message, id, now, num)
    case VipChannel =>
      match Vip.Parse(message, now, num)
      case Success(Some(s)) => Success(s)
      case Success(None) => Failure("TypeError: cannot destructure undefined")
      case Failure(e) => Failure(e)
  }

  /** `verifySignalData`: the largest entry is not above the smallest short target. */
  predicate VerifySignalData(s: Signal) {
    !Gt(MaxReal(s.entry), MinReal(s.terms.short))
  }

  /** Every entry lies at or under every short target. */
  predicate EntriesUnderTargets(s: Signal) {
    forall i, j :: 0 <= i < |s.entry| && 0 <= j < |s.terms.short| ==> s.entry[i] <= s.terms.short[j]
  }

  /**
   * The check passes exactly when no entry exceeds a short target; in
   * particular it passes when either list is empty, since the maximum of
   * nothing is -Infinity and the minimum of nothing is +Infinity.
   */
  lemma VerifySignalDataIff(s: Signal)
    ensures VerifySignalData(s) <==> EntriesUnderTargets(s)
  {
    var e := s.entry;
    var t := s.terms.short;
    var hi := MaxReal(e);
    var lo := MinReal(t);
    if |e| > 0 && |t| > 0 {
      if EntriesUnderTargets(s) {
        var i :| 0 <= i < |e| && e[i] == hi.v;
        var j :| 0 <= j < |t| && t[j] == lo.v;
        assert e[i] <= t[j];
      } else {
        var i, j :| 0 <= i < |e| && 0 <= j < |t| && e[i] > t[j];
        assert e[i] in e && t[j] in t;
      }
    }
  }

  /**
   * `processMessage` after the parse: a throw leaves the state alone; a
   * repeat of the last symbol and a pair not quoted in USDT are dropped; any
   * other signal becomes the last symbol, gets the daily statistics, and is
   * stored and emitted only when it passes `VerifySignalData`.
   */
  function Route(r: Router, parsed: Result<Signal>, stats: string -> Option<DailyStats>): (o: Routed)
    ensures parsed.Failure? ==> o == Routed(r, Thrown(parsed.error))
    ensures parsed.Success? && r.lastSymbol == Some(parsed.value.coin) ==> o == Routed(r, Duplicate)
    ensures parsed.Success? && r.lastSymbol != Some(parsed.value.coin) && !EndsWith(parsed.value.coin, "USDT") ==>
      o == Routed(r, NotUsdt)
    ensures parsed.Success? && r.lastSymbol != Some(parsed.value.coin) && EndsWith(parsed.value.coin, "USDT") ==>
      o.state.lastSymbol == Some(parsed.value.coin)
    ensures o.verdict.Accepted? <==>
      && parsed.Success? && r.lastSymbol != Some(parsed.value.coin) && EndsWith(parsed.value.coin, "USDT")
      && EntriesUnderTargets(parsed.value)
    ensures o.verdict.Accepted? ==>
      var s := parsed.value.(dailyStats := stats(parsed.value.coin));
      o.verdict.signal == s && o.state.signals == r.signals[s.signalId := s]
    ensures !o.verdict.Accepted? ==> o.state.signals == r.signals
  {
    match parsed
    case Failure(e) => Routed(r, Thrown(e))
    case Success(s) =>
      if r.lastSymbol == Some(s.coin) then Routed(r, Duplicate)
      else if !EndsWith(s.coin, "USDT") then Routed(r, NotUsdt)
      else
        var s' := s.(dailyStats := stats(s.coin));
        var r' := r.(lastSymbol := Some(s.coin));
        VerifySignalDataIff(s');
        if !VerifySignalData(s') then Routed(r', FallingDown)
        else Routed(r'.(signals := r'.signals[s'.signalId := s']), Accepted(s'))
  }

  /** `processMessage`: parse with the channel's parser, then route. */
  function ProcessMessage(r: Router, ch: Channel, message: string, id: string, now: int, num: NumberSyntax,
                          stats: string -> Option<DailyStats>): (o: Routed)
    ensures ParseWith(ch, message, id, now, num).Failure? ==> o.state == r
    ensures o.verdict.Accepted? ==>
      && ParseWith(ch, message, id, now, num).Success?
      && o.verdict.signal.coin == ParseWith(ch, message, id, now, num).value.coin
      && EndsWith(o.verdict.signal.coin, "USDT") && EntriesUnderTargets(o.verdict.signal)
      && o.verdict.signal.signalId in o.state.signals
  {
    var parsed := ParseWith(ch, message, id, now, num);
    Route(r, parsed, stats)
  }

  /** Every stored signal sits under its own id, is quoted in USDT and passed the check. */
  predicate Sound(r: Router) {
    forall k :: k in r.signals ==>
      r.signals[k].signalId == k && EndsWith(r.signals[k].coin, "USDT") && EntriesUnderTargets(r.signals[k])
  }

  /** Routing keeps the store sound, whatever comes in. */
  lemma RouteSound(r: Router, parsed: Result<Signal>, stats: string -> Option<DailyStats>)
    requires Sound(r)
    ensures Sound(Route(r, parsed, stats).state)
  {
  }

  /**
   * Once a signal got past the duplicate and USDT checks, another one for the
   * same coin right after it is dropped as a duplicate and changes nothing,
   * whether the first was stored or rejected.
   */
  lemma RouteRepeat(r: Router, a: Signal, b: Signal, stats: string -> Option<DailyStats>)
    requires Route(r, Success(a), stats).verdict.FallingDown? || Route(r, Success(a), stats).verdict.Accepted?
    requires b.coin == a.coin
    ensures var first := Route(r, Success(a), stats).state;
      Route(first, Success(b), stats) == Routed(first, Duplicate)
  {
  }

  /** The filter is a one-slot memory: after a different coin went through, the first coin is accepted again. */
  lemma RouteAlternate(r: Router, a: Signal, b: Signal, stats: string -> Option<DailyStats>)
    requires Route(r, Success(a), stats).verdict.Accepted?
    requires b.coin != a.coin && EndsWith(b.coin, "USDT") && EntriesUnderTargets(b)
    ensures var s1 := Route(r, Success(a), stats).state;
      var s2 := Route(s1, Success(b), stats).state;
      Route(s2, Success(a), stats).verdict.Accepted?
  {
  }

  /** `isDowning`: the first short target is above the second; missing targets compare as `undefined`. */
  predicate IsDowning(s: Signal) {
    Gt(At(s.terms.short, 0), At(s.terms.short, 1))
  }

  /** Falling-down holds exactly for at least two short targets with the first above the second. */
  lemma IsDowningIff(s: Signal)
    ensures IsDowning(s) <==> |s.terms.short| >= 2 && s.terms.short[0] > s.terms.short[1]
  {
  }

  /** A falling-down signal is one the strategy service drops, since its first target is not the smallest. */
  lemma DowningDropped(s: Signal)
    ensures IsDowning(s) ==> Registry.Falling(s)
  {
    IsDowningIff(s);
    Registry.FallingCases(s);
    if IsDowning(s) {
      assert s.terms.short[1] < s.terms.short[0];
    }
  }
}

=== FILE: scenarios.dfy ===
module StrategyScenarios {
  import opened Wrappers
  import opened JsNumbers
  import opened Signals
  import opened Orders
  import opened Policies
  import opened Strategy

  function FilSignal(): Signal {
    Signal(Cuid("7"), "FILUSDT", "LONG", [1.0], [81.0, 84.5], 82.75,
           Terms([85.5, 86.5, 88.0, 90.0], [], []), 75.67, 0, None)
  }

  function Ids(): IdSource {
    IdSource(k => if k == 0 then "buy" else "sell", 0)
  }

  function Defaults(): Policy {
    Policy(None, None, None, None)
  }

  function FilBuy(): Order {
    Order("buy", None, Cuid("7"), "FILUSDT", Buy, Fin(82.75), None, 1000 + BuyOrderLifetime, Fin(1.0), Active, 1000, None)
  }

  function FilSell(): Order {
    Order("sell", Some("buy"), Cuid("7"), "FILUSDT", Sell, Fin(90.0), Some(Fin(75.67)), -1, Fin(1.0), Active, 1000, None)
  }

  lemma FilNewSignal()
    ensures var (st, ids) := OnNewSignal(Strategy("default", Defaults(), []), FilSignal(),
                                         map["FILUSDT" := 80.0], 1000, Ids());
      st == Strategy("default", Defaults(), [FilBuy()]) && ids == Ids().(next := 1)
  {
    var r := OnNewSignal(Strategy("default", Defaults(), []), FilSignal(), map["FILUSDT" := 80.0], 1000, Ids());
    assert r.0.orders[0] == FilBuy();
  }

  lemma FilFirstStop()
    ensures StopLoss(Defaults(), FilSignal(), Fin(82.75), Fin(1.0), Fin(0.0)) == Fin(75.67)
  {
    assert Floor(Fin(82.75), Fin(1.0)) == Fin(41.375);
  }

  lemma FilFill()
    ensures FillBuys(Defaults(), [FilBuy()], 0, 1, map["FILUSDT" := 80.0], map["7" := FilSignal()], 1000, Ids().(next := 1))
         == Tick([FilBuy().(status := Processed), FilSell()], Ids().(next := 2), false)
  {
    FilFirstStop();
    assert SellFor(Defaults(), FilBuy(), FilSignal(), 1000, "sell") == FilSell();
    assert Put([FilBuy().(status := Processed)], FilSell()) == [FilBuy().(status := Processed), FilSell()];
  }

  lemma FilSettleAt80()
    ensures Settle(Defaults(), FilSell(), map["FILUSDT" := 80.0], map["7" := FilSignal()], 1000) == FilSell()
  {
    assert StopLoss(Defaults(), FilSignal(), Fin(80.0), Fin(1.0), Fin(75.67)) == Fin(75.67);
  }

  lemma FilFillsAt80()
    ensures OnUpdatePrices(Strategy("default", Defaults(), [FilBuy()]), map["FILUSDT" := 80.0],
                           map["7" := FilSignal()], 1000, Ids().(next := 1))
         == Tick([FilBuy().(status := Processed), FilSell()], Ids().(next := 2), false)
  {
    FilFill();
    FilSettleAt80();
    var book := [FilBuy().(status := Processed), FilSell()];
    var settled := SettleAll(Defaults(), book, map["FILUSDT" := 80.0], map["7" := FilSignal()], 1000);
    assert settled[0] == book[0];
    assert settled[1] == book[1];
    assert settled == book;
  }

  lemma FilStopsAt74()
    ensures OnUpdatePrices(Strategy("default", Defaults(), [FilBuy().(status := Processed), FilSell()]),
                           map["FILUSDT" := 74.0], map["7" := FilSignal()], 5000, Ids().(next := 2))
         == Tick([FilBuy().(status := Processed), FilSell().(status := StopLess, closedAt := Some(5000))],
                 Ids().(next := 2), false)
  {
  }
}

module BalanceScenarios {
  import opened Wrappers
  import opened JsNumbers
  import opened Signals
  import opened Orders
  import opened Policies
  import opened Strategy
  import opened Balance

  function PairBuy(): Order {
    Order("b", None, Cuid("9"), "XUSDT", Buy, Fin(100.0), None, 1000 + BuyOrderLifetime, Fin(2.0), Processed, 1000, None)
  }

  function PairSell(): Order {
    Order("s", Some("b"), Cuid("9"), "XUSDT", Sell, Fin(110.0), Some(Fin(90.0)), -1, Fin(2.0), Processed, 1100, Some(1500))
  }

  function PairWindow(): Window {
    Window(0.5, [], 2000.0 - 30.0 * DayMs as real)
  }

  function PairStart(): Ledger {
    Ledger(Fin(1000.0), Fin(0.0), [], map[])
  }

  /** Replaying two orders is stepping through both. */
  lemma ReplayTwo(l: Ledger, x: Order, y: Order, w: Window)
    ensures Replay(l, [x, y], w) == Step(Step(l, x, w), y, w)
  {
    var m := Step(l, x, w);
    assert [x, y][1..] == [y] && [y][1..] == [];
    assert Replay(l, [x, y], w) == Replay(m, [y], w);
    assert Replay(m, [y], w) == Replay(Step(m, y, w), [], w);
  }

  /** The buy is created before the sell closes, so the replay keeps them in that order. */
  lemma PairReplay()
    ensures Replay(PairStart(), SortByTime([PairBuy(), PairSell()]), PairWindow())
         == Step(Step(PairStart(), PairBuy(), PairWindow()), PairSell(), PairWindow())
  {
    assert SortedByTime([PairBuy(), PairSell()]);
    SortKeepsSorted([PairBuy(), PairSell()]);
    ReplayTwo(PairStart(), PairBuy(), PairSell(), PairWindow());
  }

  lemma PairValue()
    ensures Value([Holding("XUSDT", Fin(0.0))], map["XUSDT" := 120.0], Fin(1100.0)) == Valued(Fin(1100.0), [], [])
  {
    var prices := map["XUSDT" := 120.0];
    var hs := [Holding("XUSDT", Fin(0.0))];
    assert PriceOf(prices, "XUSDT") == Fin(120.0);
    assert Dropped(hs[0], prices);
    assert hs[1..] == [];
  }
}

=== FILE: seqs.dfy ===
/** Facts about sequences shared by the catalog, the registry and the news scanner. */
module Sequences {

  /** No element occurs twice. */
  predicate Distinct<T(==)>(xs: seq<T>) {
    forall i, j :: 0 <= i < j < |xs| ==> xs[i] != xs[j]
  }

  /** Two repetition-free sequences with no element in common concatenate to one. */
  lemma DistinctAppend<T>(a: seq<T>, b: seq<T>)
    requires Distinct(a) && Distinct(b)
    requires forall x :: x in a ==> x !in b
    ensures Distinct(a + b)
  {
    forall i, j | 0 <= i < j < |a + b|
      ensures (a + b)[i] != (a + b)[j]
    {
      if i < |a| && j >= |a| {
        assert (a + b)[i] in a;
        assert (a + b)[j] == b[j - |a|];
      }
    }
  }
}

=== FILE: signals.dfy ===
/** The canonical trading signal every parser produces (src/models/bk-signal.ts). */
module Signals {
  import opened Wrappers
  import opened Text

  /** Take-profit prices in three tiers. */
  datatype Terms = Terms(short: seq<real>, mid: seq<real>, long: seq<real>)

  /** The 24-hour change of BTCUSDT and of the signal's own pair, when the exchange reported both. */
  datatype DailyStats = DailyStats(btc: real, coin: real)

  /**
   * The id a parser gives an alert: the cuid a Cornix alert is stamped with,
   * the integer `parseInt` read from a VIP alert, or null when the first line
   * of a VIP alert lacks the marker.
   */
  datatype SignalId = Cuid(text: string) | Numbered(n: int) | NullId

  /** The property key JavaScript makes of an id: the string itself, the decimal spelling, or "null". */
  function Key(id: SignalId): string {
    match id
    case Cuid(t) => t
    case Numbered(n) => IntToDecimal(n)
    case NullId => "null"
  }

  /** A parsed alert; `rawId` is its id as the parser produced it. */
  datatype Signal = Signal(
    rawId: SignalId,
    coin: string,
    direction: string,
    leverage: seq<real>,
    entry: seq<real>,
    ote: real,
    terms: Terms,
    stopLoss: real,
    createdAt: int,
    dailyStats: Option<DailyStats>)
  {
    /** The key the alert is stored and looked up under. */
    const signalId: string := Key(rawId)
  }

  /** `parseFloat` and `parseInt`, which the model does not look inside. */
  datatype NumberSyntax = NumberSyntax(float: string -> real, integer: string -> int)

  function Sum(xs: seq<real>): real {
    if |xs| == 0 then 0.0 else xs[0] + Sum(xs[1..])
  }

  /** The arithmetic mean `xs.reduce(+, 0) / xs.length` of a non-empty list. */
  function Mean(xs: seq<real>): real
    requires |xs| > 0
  {
    Sum(xs) / |xs| as real
  }
}

=== FILE: strategy.dfy ===
/**
 * One paper-trading strategy (src/libs/strategy/base-strategy.ts): it turns
 * signals into buy orders, fills buys into sells when the price comes down to
 * them, settles or stops out sells, and lets unfilled buys time out.
 *
 * `cuid()` becomes an id source passed in and handed back, `Date.now()` the
 * parameter `now`, the exchange's price table the map `prices`, and the
 * router's signal store the map `signals`.
 */
module Strategy {
  import opened Wrappers
  import opened JsNumbers
  import opened Signals
  import opened Orders
  import opened Policies

  /** How long a buy order waits for its price: 24 hours in milliseconds. */
  const BuyOrderLifetime: int := 24 * 60 * 60 * 1000

  /** A strategy: the name it is registered under, its pricing policy and its order book. */
  datatype Strategy = Strategy(name: string, policy: Policy, orders: seq<Order>)

  /** The id generator: `gen(next)` is the id the next new order receives. */
  datatype IdSource = IdSource(gen: nat -> string, next: nat)

  /** Every id still to be handed out is new to `book`, and no id is handed out twice. */
  ghost predicate FreshFor(ids: IdSource, book: seq<Order>) {
    (forall k: nat :: ids.next <= k ==> !HasId(book, ids.gen(k))) &&
    (forall k: nat, m: nat :: ids.next <= k < m ==> ids.gen(k) != ids.gen(m))
  }

  function Advance(ids: IdSource): IdSource {
    ids.(next := ids.next + 1)
  }

  /** `prices[coin]`, undefined when the exchange has not reported the pair. */
  function PriceOf(prices: map<string, real>, coin: string): JsNum {
    if coin in prices then Fin(prices[coin]) else NaN
  }

  // ---------------------------------------------------------------- new signal

  /** The effect of a new signal for `coin` on one existing order. */
  function Supersede(o: Order, coin: string): Order {
    if o.coin == coin && IsActiveBuy(o) then o.(status := Cancelled) else o
  }

  predicate HasActiveSell(book: seq<Order>, coin: string) {
    exists i :: 0 <= i < |book| && book[i].coin == coin && IsActiveSell(book[i])
  }

  function NewBuy(p: Policy, s: Signal, prices: map<string, real>, now: int, id: string): Order {
    Order(id, None, s.rawId, s.coin, Buy, BuyPrice(p, s, PriceOf(prices, s.coin)), None,
          now + BuyOrderLifetime, Leverage(p, s), Active, now, None)
  }

  /**
   * `onNewSignal`: every active buy for the coin is cancelled; then, unless an
   * active sell for the coin exists, one new active buy is added.
   */
  function OnNewSignal(st: Strategy, s: Signal, prices: map<string, real>, now: int, ids: IdSource): (r: (Strategy, IdSource))
    ensures r.0.name == st.name && r.0.policy == st.policy
    ensures |r.0.orders| >= |st.orders|
    ensures HasActiveSell(st.orders, s.coin) ==> r.1 == ids && |r.0.orders| == |st.orders|
    ensures !HasActiveSell(st.orders, s.coin) ==> r.1 == Advance(ids)
    ensures !HasId(st.orders, ids.gen(ids.next)) ==>
      forall i :: 0 <= i < |st.orders| ==>
        r.0.orders[i] == (if st.orders[i].coin == s.coin && IsActiveBuy(st.orders[i])
                          then st.orders[i].(status := Cancelled) else st.orders[i])
    ensures !HasId(st.orders, ids.gen(ids.next)) && !HasActiveSell(st.orders, s.coin) ==>
      |r.0.orders| == |st.orders| + 1 &&
      var o := r.0.orders[|st.orders|];
      o.id == ids.gen(ids.next) && IsActiveBuy(o) && o.coin == s.coin && o.rawId == s.rawId && o.signalId == s.signalId &&
      o.price == BuyPrice(st.policy, s, PriceOf(prices, s.coin)) && o.leverage == Leverage(st.policy, s) &&
      o.lifeTime == now + BuyOrderLifetime && o.createdAt == now &&
      o.refOrderId.None? && o.stopLoss.None? && o.closedAt.None?
    ensures !HasId(st.orders, ids.gen(ids.next)) ==>
      forall i :: 0 <= i < |r.0.orders| && r.0.orders[i].coin == s.coin && IsActiveBuy(r.0.orders[i]) ==>
        !HasActiveSell(st.orders, s.coin) && i == |st.orders|
  {
    var cancelled := seq(|st.orders|, i requires 0 <= i < |st.orders| => Supersede(st.orders[i], s.coin));
    assert forall i :: 0 <= i < |st.orders| ==> cancelled[i].id == st.orders[i].id;
    assert HasActiveSell(cancelled, s.coin) == HasActiveSell(st.orders, s.coin) by {
      assert forall i :: 0 <= i < |st.orders| ==> IsActiveSell(cancelled[i]) == IsActiveSell(st.orders[i]);
    }
    if HasActiveSell(cancelled, s.coin) then
      (st.(orders := cancelled), ids)
    else
      var o := NewBuy(st.policy, s, prices, now, ids.gen(ids.next));
      assert HasId(st.orders, o.id) == HasId(cancelled, o.id);
      (st.(orders := Put(cancelled, o)), Advance(ids))
  }

  // ------------------------------------------------------------------ buy fills

  /** An active buy fills once a price is known and the price is not above the buy price. */
  predicate Fills(o: Order, prices: map<string, real>) {
    IsActiveBuy(o) && Truthy(PriceOf(prices, o.coin)) && !Lt(o.price, PriceOf(prices, o.coin))
  }

  /** The buy `o` after a fill. */
  function Filled(o: Order, prices: map<string, real>): Order {
    if Fills(o, prices) then o.(status := Processed) else o
  }

  /**
   * The sell a filled buy opens: a copy of the buy under a new id, pointing back
   * at the buy, priced by the sell policy and protected by a stop computed from
   * the buy price with no current stop.
   */
  function SellFor(p: Policy, buy: Order, s: Signal, now: int, id: string): Order {
    buy.(id := id, refOrderId := Some(buy.id), side := Sell, price := SellPrice(p, s),
         stopLoss := Some(StopLoss(p, s, buy.price, buy.leverage, Fin(0.0))),
         lifeTime := -1, status := Active, createdAt := now)
  }

  /** The state of a book after (part of) a price update; `crashed` when it threw. */
  datatype Tick = Tick(orders: seq<Order>, ids: IdSource, crashed: bool)

  /**
   * `updateBuyOrders` over the orders at positions `i` to `n`: a filling buy
   * becomes processed and a sell for it is stored. When the buy's signal is
   * unknown the sell price cannot be read and the update throws, leaving the
   * buy processed and the rest untouched.
   */
  function FillBuys(p: Policy, orders: seq<Order>, i: nat, n: nat, prices: map<string, real>,
                    signals: map<string, Signal>, now: int, ids: IdSource): (r: Tick)
    requires i <= n <= |orders|
    ensures |r.orders| >= |orders|
    decreases n - i
  {
    if i == n then Tick(orders, ids, false)
    else
      var o := orders[i];
      if !Fills(o, prices) then FillBuys(p, orders, i + 1, n, prices, signals, now, ids)
      else
        var filled := orders[i := o.(status := Processed)];
        if o.signalId !in signals then Tick(filled, ids, true)
        else
          var sell := SellFor(p, o, signals[o.signalId], now, ids.gen(ids.next));
          FillBuys(p, Put(filled, sell), i + 1, n, prices, signals, now, Advance(ids))
  }

  /** `o` is the sell opened for one of the filling buys at positions `i` to `n` of `book`. */
  ghost predicate OpenedBy(p: Policy, o: Order, book: seq<Order>, i: nat, n: nat, prices: map<string, real>,
                           signals: map<string, Signal>, now: int) {
    exists m :: i <= m < n && m < |book| && Fills(book[m], prices) && book[m].signalId in signals &&
      o == SellFor(p, book[m], signals[book[m].signalId], now, o.id)
  }

  /** Some order of `book` from position `from` on is the sell `buy` opens with signal `s`. */
  ghost predicate HasSellFor(p: Policy, buy: Order, s: Signal, now: int, book: seq<Order>, from: nat) {
    exists j :: from <= j < |book| && book[j] == SellFor(p, buy, s, now, book[j].id)
  }

  /** Being opened by a buy of a later stretch of a book that agrees on that stretch. */
  lemma OpenedWiden(p: Policy, o: Order, next: seq<Order>, orders: seq<Order>, i: nat, n: nat,
                    prices: map<string, real>, signals: map<string, Signal>, now: int)
    requires i <= n <= |orders| <= |next|
    requires forall m :: i < m < n ==> next[m] == orders[m]
    requires OpenedBy(p, o, next, i + 1, n, prices, signals, now)
    ensures OpenedBy(p, o, orders, i, n, prices, signals, now)
  {
    var m :| i + 1 <= m < n && m < |next| && Fills(next[m], prices) && next[m].signalId in signals &&
      o == SellFor(p, next[m], signals[next[m].signalId], now, o.id);
    assert next[m] == orders[m];
  }

  /** Storing a sell under a fresh id appends it and keeps the remaining ids fresh. */
  lemma PutFresh(book: seq<Order>, i: nat, o: Order, ids: IdSource)
    requires i < |book| && FreshFor(ids, book) && o.id == ids.gen(ids.next)
    ensures var filled := book[i := book[i].(status := Processed)];
      Put(filled, o) == filled + [o] && FreshFor(Advance(ids), filled + [o])
  {
    var filled := book[i := book[i].(status := Processed)];
    assert forall j :: 0 <= j < |book| ==> filled[j].id == book[j].id;
    assert !HasId(book, o.id);
    assert !HasId(filled, o.id);
    forall k: nat | Advance(ids).next <= k
      ensures !HasId(filled + [o], ids.gen(k))
    {
      assert !HasId(book, ids.gen(k));
      assert ids.gen(ids.next) != ids.gen(k);
    }
  }

  /** `updateBuyOrders` over positions `i` to `n` leaves the orders outside them alone and keeps ids fresh. */
  lemma {:induction false} FillBuysFrame(p: Policy, orders: seq<Order>, i: nat, n: nat, prices: map<string, real>,
                                         signals: map<string, Signal>, now: int, ids: IdSource)
    requires i <= n <= |orders|
    requires FreshFor(ids, orders)
    ensures var r := FillBuys(p, orders, i, n, prices, signals, now, ids);
      (forall j :: 0 <= j < i ==> r.orders[j] == orders[j]) &&
      (forall j :: n <= j < |orders| ==> r.orders[j] == orders[j]) &&
      (!r.crashed ==> FreshFor(r.ids, r.orders))
    decreases n - i
  {
    if i < n {
      var o := orders[i];
      if !Fills(o, prices) {
        FillBuysFrame(p, orders, i + 1, n, prices, signals, now, ids);
      } else if o.signalId in signals {
        var filled := orders[i := o.(status := Processed)];
        var sell := SellFor(p, o, signals[o.signalId], now, ids.gen(ids.next));
        PutFresh(orders, i, sell, ids);
        var next := filled + [sell];
        FillBuysFrame(p, next, i + 1, n, prices, signals, now, Advance(ids));
        assert forall j :: 0 <= j < |orders| && j != i ==> next[j] == orders[j];
      }
    }
  }

  /** `updateBuyOrders` over positions `i` to `n` throws iff a filling buy there has no signal. */
  lemma {:induction false} FillBuysCrash(p: Policy, orders: seq<Order>, i: nat, n: nat, prices: map<string, real>,
                                         signals: map<string, Signal>, now: int, ids: IdSource)
    requires i <= n <= |orders|
    requires FreshFor(ids, orders)
    ensures var r := FillBuys(p, orders, i, n, prices, signals, now, ids);
      r.crashed <==> exists j :: i <= j < n && Fills(orders[j], prices) && orders[j].signalId !in signals
    decreases n - i
  {
    if i < n {
      var o := orders[i];
      if !Fills(o, prices) {
        FillBuysCrash(p, orders, i + 1, n, prices, signals, now, ids);
      } else if o.signalId in signals {
        var filled := orders[i := o.(status := Processed)];
        var sell := SellFor(p, o, signals[o.signalId], now, ids.gen(ids.next));
        PutFresh(orders, i, sell, ids);
        var next := filled + [sell];
        FillBuysCrash(p, next, i + 1, n, prices, signals, now, Advance(ids));
        assert forall j :: i < j < n ==> next[j] == orders[j];
      }
    }
  }

  /** In an update of positions `i` to `n` that does not throw, exactly the filling buys there become processed. */
  lemma {:induction false} FillBuysFilled(p: Policy, orders: seq<Order>, i: nat, n: nat, prices: map<string, real>,
                                          signals: map<string, Signal>, now: int, ids: IdSource)
    requires i <= n <= |orders|
    requires FreshFor(ids, orders)
    ensures var r := FillBuys(p, orders, i, n, prices, signals, now, ids);
      !r.crashed ==> forall j :: i <= j < n ==> r.orders[j] == Filled(orders[j], prices)
    decreases n - i
  {
    if i < n {
      var o := orders[i];
      if !Fills(o, prices) {
        FillBuysFilled(p, orders, i + 1, n, prices, signals, now, ids);
        FillBuysFrame(p, orders, i + 1, n, prices, signals, now, ids);
      } else if o.signalId in signals {
        var filled := orders[i := o.(status := Processed)];
        var sell := SellFor(p, o, signals[o.signalId], now, ids.gen(ids.next));
        PutFresh(orders, i, sell, ids);
        var next := filled + [sell];
        FillBuysFilled(p, next, i + 1, n, prices, signals, now, Advance(ids));
        FillBuysFrame(p, next, i + 1, n, prices, signals, now, Advance(ids));
        assert forall j :: i < j < n ==> next[j] == orders[j];
        assert next[i] == Filled(o, prices);
      }
    }
  }

  /**
   * What `updateBuyOrders` does to positions `i` to `n` when ids are fresh: it
   * throws iff a filling buy has no signal, and otherwise exactly the filling
   * buys become processed while the other existing orders stay as they were.
   */
  lemma FillBuysSpec(p: Policy, orders: seq<Order>, i: nat, n: nat, prices: map<string, real>,
                     signals: map<string, Signal>, now: int, ids: IdSource)
    requires i <= n <= |orders|
    requires FreshFor(ids, orders)
    ensures var r := FillBuys(p, orders, i, n, prices, signals, now, ids);
      (r.crashed <==> exists j :: i <= j < n && Fills(orders[j], prices) && orders[j].signalId !in signals) &&
      (forall j :: 0 <= j < i ==> r.orders[j] == orders[j]) &&
      (forall j :: n <= j < |orders| ==> r.orders[j] == orders[j]) &&
      (!r.crashed ==> FreshFor(r.ids, r.orders)) &&
      (!r.crashed ==> forall j :: i <= j < n ==> r.orders[j] == Filled(orders[j], prices))
  {
    FillBuysFrame(p, orders, i, n, prices, signals, now, ids);
    FillBuysCrash(p, orders, i, n, prices, signals, now, ids);
    FillBuysFilled(p, orders, i, n, prices, signals, now, ids);
  }

  /** In an update that does not throw, every order appended to the book is the sell of a filling buy. */
  lemma {:induction false} FillBuysOpened(p: Policy, orders: seq<Order>, i: nat, n: nat, prices: map<string, real>,
                                          signals: map<string, Signal>, now: int, ids: IdSource)
    requires i <= n <= |orders|
    requires FreshFor(ids, orders)
    ensures var r := FillBuys(p, orders, i, n, prices, signals, now, ids);
      !r.crashed ==> forall j :: |orders| <= j < |r.orders| ==> OpenedBy(p, r.orders[j], orders, i, n, prices, signals, now)
    decreases n - i
  {
    if i < n {
      var o := orders[i];
      if !Fills(o, prices) {
        FillBuysOpened(p, orders, i + 1, n, prices, signals, now, ids);
        var r := FillBuys(p, orders, i + 1, n, prices, signals, now, ids);
        if !r.crashed {
          forall j | |orders| <= j < |r.orders|
            ensures OpenedBy(p, r.orders[j], orders, i, n, prices, signals, now)
          {
            assert OpenedBy(p, r.orders[j], orders, i + 1, n, prices, signals, now);
          }
        }
      } else if o.signalId in signals {
        var filled := orders[i := o.(status := Processed)];
        var sell := SellFor(p, o, signals[o.signalId], now, ids.gen(ids.next));
        PutFresh(orders, i, sell, ids);
        var next := filled + [sell];
        var r := FillBuys(p, next, i + 1, n, prices, signals, now, Advance(ids));
        FillBuysOpened(p, next, i + 1, n, prices, signals, now, Advance(ids));
        FillBuysSpec(p, next, i + 1, n, prices, signals, now, Advance(ids));
        if !r.crashed {
          assert r.orders[|orders|] == next[|orders|];
          OpenedAfterFill(p, orders, i, n, prices, signals, now, sell, next, r.orders);
        }
      }
    }
  }

  /** The step of `FillBuysOpened` at a filling buy: its sell and the later stretch's sells are all opened from `i` on. */
  lemma OpenedAfterFill(p: Policy, orders: seq<Order>, i: nat, n: nat, prices: map<string, real>,
                        signals: map<string, Signal>, now: int, sell: Order, next: seq<Order>, r: seq<Order>)
    requires i < n <= |orders|
    requires Fills(orders[i], prices) && orders[i].signalId in signals
    requires sell == SellFor(p, orders[i], signals[orders[i].signalId], now, sell.id)
    requires next == orders[i := orders[i].(status := Processed)] + [sell]
    requires |r| >= |next| && r[|orders|] == sell
    requires forall j :: |next| <= j < |r| ==> OpenedBy(p, r[j], next, i + 1, n, prices, signals, now)
    ensures forall j :: |orders| <= j < |r| ==> OpenedBy(p, r[j], orders, i, n, prices, signals, now)
  {
    forall j | |orders| <= j < |r|
      ensures OpenedBy(p, r[j], orders, i, n, prices, signals, now)
    {
      if j == |orders| {
        assert r[j] == sell;
      } else {
        assert forall m :: i < m < n ==> next[m] == orders[m];
        OpenedWiden(p, r[j], next, orders, i, n, prices, signals, now);
      }
    }
  }

  /** In an update that does not throw, every filling buy has its sell appended to the book. */
  lemma {:induction false} FillBuysCovers(p: Policy, orders: seq<Order>, i: nat, n: nat, prices: map<string, real>,
                                          signals: map<string, Signal>, now: int, ids: IdSource)
    requires i <= n <= |orders|
    requires FreshFor(ids, orders)
    ensures var r := FillBuys(p, orders, i, n, prices, signals, now, ids);
      !r.crashed ==> forall m :: i <= m < n && Fills(orders[m], prices) ==>
        orders[m].signalId in signals &&
        HasSellFor(p, orders[m], signals[orders[m].signalId], now, r.orders, |orders|)
    decreases n - i
  {
    if i < n {
      var o := orders[i];
      FillBuysSpec(p, orders, i, n, prices, signals, now, ids);
      if !Fills(o, prices) {
        FillBuysCovers(p, orders, i + 1, n, prices, signals, now, ids);
      } else if o.signalId in signals {
        var filled := orders[i := o.(status := Processed)];
        var sell := SellFor(p, o, signals[o.signalId], now, ids.gen(ids.next));
        PutFresh(orders, i, sell, ids);
        var next := filled + [sell];
        FillBuysCovers(p, next, i + 1, n, prices, signals, now, Advance(ids));
        FillBuysSpec(p, next, i + 1, n, prices, signals, now, Advance(ids));
        var r := FillBuys(p, next, i + 1, n, prices, signals, now, Advance(ids));
        if !r.crashed {
          forall m | i <= m < n && Fills(orders[m], prices)
            ensures orders[m].signalId in signals &&
              HasSellFor(p, orders[m], signals[orders[m].signalId], now, r.orders, |orders|)
          {
            if m == i {
              assert r.orders[|orders|] == next[|orders|] == sell;
            } else {
              assert next[m] == orders[m];
              assert HasSellFor(p, next[m], signals[next[m].signalId], now, r.orders, |next|);
            }
          }
        }
      }
    }
  }

  // ------------------------------------------------------------------ sell updates

  /**
   * `updateSellOrders` on one order: an active sell with a known price and a
   * known signal gets the ratcheted stop, is stopped out when the stop is above
   * the price, and is otherwise taken profit when the price is above its target.
   */
  function Settle(p: Policy, o: Order, prices: map<string, real>, signals: map<string, Signal>, now: int): (r: Order)
    ensures !IsActiveSell(o) || !Truthy(PriceOf(prices, o.coin)) || o.signalId !in signals ==> r == o
    ensures IsActiveSell(o) && Truthy(PriceOf(prices, o.coin)) && o.signalId in signals ==>
      var cur := PriceOf(prices, o.coin);
      var x := StopLoss(p, signals[o.signalId], cur, o.leverage, o.stopLoss.GetOr(NaN));
      r.stopLoss == Some(x) &&
      (r.status == StopLess <==> Gt(x, cur)) &&
      (r.status == Processed <==> !Gt(x, cur) && Lt(o.price, cur)) &&
      (r.status == Active <==> !Gt(x, cur) && !Lt(o.price, cur))
    ensures r.closedAt == (if r.status != o.status then Some(now) else o.closedAt)
    ensures r == o.(stopLoss := r.stopLoss, status := r.status, closedAt := r.closedAt)
    ensures o.stopLoss.Some? && !o.stopLoss.value.NaN? && r.stopLoss.Some? && !r.stopLoss.value.NaN? ==>
      Le(o.stopLoss.value, r.stopLoss.value)
  {
    var cur := PriceOf(prices, o.coin);
    if !IsActiveSell(o) || !Truthy(cur) || o.signalId !in signals then o
    else
      var x := StopLoss(p, signals[o.signalId], cur, o.leverage, o.stopLoss.GetOr(NaN));
      var o1 := o.(stopLoss := Some(x));
      if Gt(x, cur) then o1.(status := StopLess, closedAt := Some(now))
      else if Lt(o.price, cur) then o1.(status := Processed, closedAt := Some(now))
      else o1
  }

  // ------------------------------------------------------------------ expiry

  /** `disableOldOrders` on one order: an active buy past its deadline times out. */
  function Expire(o: Order, now: int): (r: Order)
    ensures o.side == Sell ==> r == o
    ensures r.status == Timeout <==>
      o.status == Timeout || (IsActiveBuy(o) && o.lifeTime != -1 && o.lifeTime < now)
    ensures r == o || r == o.(status := Timeout, closedAt := Some(now))
  {
    if IsActiveBuy(o) && o.lifeTime != -1 && o.lifeTime < now then
      o.(status := Timeout, closedAt := Some(now))
    else o
  }

  // ------------------------------------------------------------------ price tick

  /** `updateSellOrders` as a pass of its own: the active sells are settled, every other order is left alone. */
  function UpdateSellOrders(p: Policy, book: seq<Order>, prices: map<string, real>, signals: map<string, Signal>,
                            now: int): (r: seq<Order>)
    ensures |r| == |book|
    ensures forall j :: 0 <= j < |book| ==> r[j] == Settle(p, book[j], prices, signals, now)
    decreases |book|
  {
    if |book| == 0 then []
    else
      var rest := UpdateSellOrders(p, book[1..], prices, signals, now);
      var o := if IsActiveSell(book[0]) then Settle(p, book[0], prices, signals, now) else book[0];
      assert forall j :: 1 <= j < |book| ==> ([o] + rest)[j] == rest[j - 1] && book[j] == book[1..][j - 1];
      [o] + rest
  }

  /** `disableOldOrders` as a pass of its own: the active buys past a finite lifetime time out, nothing else changes. */
  function DisableOldOrders(book: seq<Order>, now: int): (r: seq<Order>)
    ensures |r| == |book|
    ensures forall j :: 0 <= j < |book| ==> r[j] == Expire(book[j], now)
    decreases |book|
  {
    if |book| == 0 then []
    else
      var rest := DisableOldOrders(book[1..], now);
      var o := book[0];
      var o' := if IsActiveBuy(o) && o.lifeTime != -1 && o.lifeTime < now then o.(status := Timeout, closedAt := Some(now))
                else o;
      assert forall j :: 1 <= j < |book| ==> ([o'] + rest)[j] == rest[j - 1] && book[j] == book[1..][j - 1];
      [o'] + rest
  }

  /** `updateSellOrders` followed by `disableOldOrders`, fused into one pass over the book. */
  function SettleAll(p: Policy, book: seq<Order>, prices: map<string, real>, signals: map<string, Signal>,
                     now: int): seq<Order>
  {
    seq(|book|, j requires 0 <= j < |book| => Expire(Settle(p, book[j], prices, signals, now), now))
  }

  /** The fused pass gives the same book as running `updateSellOrders` and then `disableOldOrders`. */
  lemma SettleAllPasses(p: Policy, book: seq<Order>, prices: map<string, real>, signals: map<string, Signal>,
                        now: int)
    ensures SettleAll(p, book, prices, signals, now) ==
      DisableOldOrders(UpdateSellOrders(p, book, prices, signals, now), now)
  {
    var u := UpdateSellOrders(p, book, prices, signals, now);
    assert forall j :: 0 <= j < |book| ==> DisableOldOrders(u, now)[j] == Expire(u[j], now);
  }

  /**
   * `onUpdatePrices`: buy fills over the whole book, then sell updates, then
   * expiry. A throw during the buy fills ends the tick there.
   */
  function OnUpdatePrices(st: Strategy, prices: map<string, real>, signals: map<string, Signal>,
                          now: int, ids: IdSource): (r: Tick)
    ensures |r.orders| >= |st.orders|
  {
    var t := FillBuys(st.policy, st.orders, 0, |st.orders|, prices, signals, now, ids);
    if t.crashed then t
    else Tick(SettleAll(st.policy, t.orders, prices, signals, now), t.ids, false)
  }

  /** A tick throws exactly when a filling buy has no signal. */
  lemma TickCrash(st: Strategy, prices: map<string, real>, signals: map<string, Signal>, now: int, ids: IdSource)
    requires FreshFor(ids, st.orders)
    ensures OnUpdatePrices(st, prices, signals, now, ids).crashed <==>
      exists j :: 0 <= j < |st.orders| && Fills(st.orders[j], prices) && st.orders[j].signalId !in signals
  {
    FillBuysSpec(st.policy, st.orders, 0, |st.orders|, prices, signals, now, ids);
  }

  /**
   * A tick that does not throw, order by order over the existing book: a buy is
   * filled and then may time out, a sell is settled.
   */
  lemma TickExisting(st: Strategy, prices: map<string, real>, signals: map<string, Signal>, now: int, ids: IdSource,
                     j: nat)
    requires FreshFor(ids, st.orders)
    requires j < |st.orders|
    requires !OnUpdatePrices(st, prices, signals, now, ids).crashed
    ensures st.orders[j].side == Buy ==>
      OnUpdatePrices(st, prices, signals, now, ids).orders[j] == Expire(Filled(st.orders[j], prices), now)
    ensures st.orders[j].side == Sell ==>
      OnUpdatePrices(st, prices, signals, now, ids).orders[j] == Settle(st.policy, st.orders[j], prices, signals, now)
  {
    FillBuysSpec(st.policy, st.orders, 0, |st.orders|, prices, signals, now, ids);
    var t := FillBuys(st.policy, st.orders, 0, |st.orders|, prices, signals, now, ids);
    assert t.orders[j] == Filled(st.orders[j], prices);
  }

  /**
   * In a tick that does not throw, the sell each filling buy opens is settled in
   * the same tick, at the same prices.
   */
  lemma TickNewSells(st: Strategy, prices: map<string, real>, signals: map<string, Signal>, now: int, ids: IdSource,
                     m: nat)
    requires FreshFor(ids, st.orders)
    requires m < |st.orders| && Fills(st.orders[m], prices) && st.orders[m].signalId in signals
    requires !OnUpdatePrices(st, prices, signals, now, ids).crashed
    ensures var r := OnUpdatePrices(st, prices, signals, now, ids);
      exists j :: |st.orders| <= j < |r.orders| &&
        r.orders[j] == Settle(st.policy, SellFor(st.policy, st.orders[m], signals[st.orders[m].signalId], now, r.orders[j].id),
                              prices, signals, now)
  {
    var p := st.policy;
    var book := st.orders;
    FillBuysSpec(p, book, 0, |book|, prices, signals, now, ids);
    var t := FillBuys(p, book, 0, |book|, prices, signals, now, ids);
    FillBuysCovers(p, book, 0, |book|, prices, signals, now, ids);
    var r := OnUpdatePrices(st, prices, signals, now, ids);
    assert HasSellFor(p, book[m], signals[book[m].signalId], now, t.orders, |book|);
    var j :| |book| <= j < |t.orders| &&
      t.orders[j] == SellFor(p, book[m], signals[book[m].signalId], now, t.orders[j].id);
    assert r.orders[j] == Expire(Settle(p, t.orders[j], prices, signals, now), now);
    assert r.orders[j].id == t.orders[j].id;
  }
}

=== FILE: text.dfy ===
/**
 * The JavaScript string primitives the parsers rely on, over strings as
 * sequences of characters: `indexOf`, `lastIndexOf`, `startsWith`,
 * `endsWith`, `replace` of a first occurrence, `split` on one character,
 * `trim`, `substring` and `toLowerCase`.
 */
module Text {

  /** `p` occurs in `s` starting at position `i`. */
  predicate OccursAt(s: string, p: string, i: int) {
    0 <= i && i + |p| <= |s| && s[i..i + |p|] == p
  }

  /** `p` occurs somewhere in `s` (`s.includes(p)`). */
  predicate Contains(s: string, p: string) {
    exists i :: 0 <= i <= |s| && OccursAt(s, p, i)
  }

  predicate StartsWith(s: string, p: string) {
    OccursAt(s, p, 0)
  }

  predicate EndsWith(s: string, p: string) {
    |p| <= |s| && s[|s| - |p|..] == p
  }

  /** A position argument clamped into `[0, n]`, as the string methods do. */
  function Clamp(i: int, n: nat): (r: nat)
    ensures r <= n
    ensures 0 <= i <= n ==> r == i
  {
    if i < 0 then 0 else if i > n then n else i
  }

  /** `s.indexOf(p, from)`: the first occurrence at or after `from`, or -1. */
  function IndexOf(s: string, p: string, from: int): (r: int)
    ensures r == -1 || (Clamp(from, |s|) <= r && OccursAt(s, p, r))
    ensures r == -1 <==> forall i :: Clamp(from, |s|) <= i <= |s| ==> !OccursAt(s, p, i)
    ensures r != -1 ==> forall i :: Clamp(from, |s|) <= i < r ==> !OccursAt(s, p, i)
    decreases |s| - Clamp(from, |s|)
  {
    var k := Clamp(from, |s|);
    if k + |p| > |s| then -1
    else if s[k..k + |p|] == p then k
    else IndexOf(s, p, k + 1)
  }

  /** The last occurrence of `p` starting at or before `k`, or -1. */
  function LastAtOrBefore(s: string, p: string, k: int): (r: int)
    ensures r == -1 || (0 <= r <= k && OccursAt(s, p, r))
    ensures r == -1 <==> forall i :: 0 <= i <= k ==> !OccursAt(s, p, i)
    ensures r != -1 ==> forall i :: r < i <= k ==> !OccursAt(s, p, i)
    decreases k
  {
    if k < 0 then -1
    else if OccursAt(s, p, k) then k
    else LastAtOrBefore(s, p, k - 1)
  }

  /** `s.lastIndexOf(p, from)`: the last occurrence starting at or before `from`, or -1. */
  function LastIndexOf(s: string, p: string, from: int): (r: int)
    ensures r == -1 || (0 <= r <= Clamp(from, |s|) && OccursAt(s, p, r))
    ensures r == -1 <==> forall i :: 0 <= i <= Clamp(from, |s|) ==> !OccursAt(s, p, i)
    ensures r != -1 ==> forall i :: r < i <= Clamp(from, |s|) ==> !OccursAt(s, p, i)
  {
    LastAtOrBefore(s, p, Clamp(from, |s|))
  }

  /** `s.replace(p, t)` with a string pattern: only the first occurrence is replaced. */
  function ReplaceFirst(s: string, p: string, t: string): (r: string)
    ensures !Contains(s, p) ==> r == s
    ensures Contains(s, p) ==>
      exists i :: 0 <= i <= |s| - |p| && OccursAt(s, p, i) && (forall j :: 0 <= j < i ==> !OccursAt(s, p, j))
                  && r == s[..i] + t + s[i + |p|..]
  {
    var i := IndexOf(s, p, 0);
    if i < 0 then s else s[..i] + t + s[i + |p|..]
  }

  /** `s.replace(/c/g, '')` for a single character `c`. */
  function RemoveAll(s: string, c: char): (r: string)
    ensures c !in r
    ensures forall x :: x in r <==> x in s && x != c
    ensures |r| <= |s|
  {
    if |s| == 0 then ""
    else if s[0] == c then RemoveAll(s[1..], c)
    else [s[0]] + RemoveAll(s[1..], c)
  }

  /** The characters `String.prototype.trim` strips: ECMAScript WhiteSpace and LineTerminator. */
  predicate IsSpace(c: char) {
    c == ' ' || c == '\t' || c == '\n' || c == '\r' || c == '\U{000B}' || c == '\U{000C}'
    || c == '\U{00A0}' || c == '\U{1680}' || ('\U{2000}' <= c <= '\U{200A}')
    || c == '\U{2028}' || c == '\U{2029}' || c == '\U{202F}' || c == '\U{205F}'
    || c == '\U{3000}' || c == '\U{FEFF}'
  }

  /** The number of white-space characters that start `s`. */
  function LeadingSpaces(s: string): (k: nat)
    ensures k <= |s|
    ensures forall i :: 0 <= i < k ==> IsSpace(s[i])
    ensures k == |s| || !IsSpace(s[k])
  {
    if |s| > 0 && IsSpace(s[0]) then
      var k := LeadingSpaces(s[1..]);
      assert forall i :: 1 <= i < k + 1 ==> s[i] == s[1..][i - 1];
      k + 1
    else 0
  }

  /** The length of `s` once its trailing white space is cut off. */
  function TrailingStart(s: string): (k: nat)
    ensures k <= |s|
    ensures forall i :: k <= i < |s| ==> IsSpace(s[i])
    ensures k == 0 || !IsSpace(s[k - 1])
  {
    if |s| > 0 && IsSpace(s[|s| - 1]) then
      var k := TrailingStart(s[..|s| - 1]);
      assert forall i :: k <= i < |s| - 1 ==> s[i] == s[..|s| - 1][i];
      k
    else |s|
  }

  /** `s.trim()`: the infix of `s` left once white space is cut from both ends. */
  function Trim(s: string): (r: string)
    ensures |r| == 0 || (!IsSpace(r[0]) && !IsSpace(r[|r| - 1]))
    ensures LeadingSpaces(s) + |r| <= |s|
    ensures s == s[..LeadingSpaces(s)] + r + s[LeadingSpaces(s) + |r|..]
    ensures forall i :: LeadingSpaces(s) + |r| <= i < |s| ==> IsSpace(s[i])
  {
    var a := LeadingSpaces(s);
    var t := s[a..];
    var b := TrailingStart(t);
    assert forall i :: a + b <= i < |s| ==> s[i] == t[i - a];
    assert s == s[..a] + t[..b] + s[a + b..];
    t[..b]
  }

  /** `s.indexOf(c, from)` for one character: the first position at or after `from` holding `c`, or -1. */
  function IndexOfChar(s: string, c: char, from: nat): (r: int)
    ensures r == -1 || (from <= r < |s| && s[r] == c)
    ensures r == -1 <==> forall i :: from <= i < |s| ==> s[i] != c
    ensures r != -1 ==> forall i :: from <= i < r ==> s[i] != c
    decreases |s| - from
  {
    if from >= |s| then -1
    else if s[from] == c then from
    else IndexOfChar(s, c, from + 1)
  }

  /** Searching for a one-character string is searching for that character. */
  lemma {:induction false} IndexOfSingle(s: string, c: char, from: nat)
    requires from <= |s|
    ensures IndexOf(s, [c], from) == IndexOfChar(s, c, from)
    decreases |s| - from
  {
    if from < |s| && s[from] != c {
      assert s[from..from + 1] != [c] by {
        assert s[from..from + 1][0] == s[from];
      }
      IndexOfSingle(s, c, from + 1);
    }
  }

  /** Replacing a character replaces its first occurrence. */
  lemma ReplaceFirstChar(pre: string, c: char, post: string, t: string)
    requires c !in pre
    ensures ReplaceFirst(pre + [c] + post, [c], t) == pre + t + post
  {
    var s := pre + [c] + post;
    IndexOfSingle(s, c, 0);
    assert forall j :: 0 <= j < |pre| ==> s[j] == pre[j];
    assert s[|pre|] == c;
    assert IndexOfChar(s, c, 0) == |pre|;
    assert s[..|pre|] == pre;
    assert s[|pre| + 1..] == post;
  }

  /** Removing the first occurrence of a character: `s.replace(c, '')`. */
  lemma RemoveFirstChar(pre: string, c: char, post: string)
    requires c !in pre
    ensures ReplaceFirst(pre + [c] + post, [c], "") == pre + post
  {
    assert pre + "" + post == pre + post by {
      assert pre + "" == pre;
    }
    ReplaceFirstChar(pre, c, post, "");
  }

  /** Replacing a character that does not occur changes nothing. */
  lemma ReplaceAbsentChar(s: string, c: char, t: string)
    requires c !in s
    ensures ReplaceFirst(s, [c], t) == s
  {
    IndexOfSingle(s, c, 0);
  }

  /** `s.split(c)` for a one-character separator. */
  function Split(s: string, c: char): (r: seq<string>)
    ensures |r| >= 1
    ensures forall i :: 0 <= i < |r| ==> c !in r[i]
    decreases |s|
  {
    var i := IndexOfChar(s, c, 0);
    if i < 0 then [s]
    else [s[..i]] + Split(s[i + 1..], c)
  }

  /** `parts.join(sep)` for a one-character separator. */
  function Join(parts: seq<string>, c: char): string {
    if |parts| == 0 then ""
    else if |parts| == 1 then parts[0]
    else parts[0] + [c] + Join(parts[1..], c)
  }

  /** Splitting undoes joining with the same separator when no part contains it. */
  lemma {:induction false} SplitJoin(parts: seq<string>, c: char)
    requires |parts| >= 1
    requires forall i :: 0 <= i < |parts| ==> c !in parts[i]
    ensures Split(Join(parts, c), c) == parts
    decreases |parts|
  {
    var s := Join(parts, c);
    var p := parts[0];
    if |parts| == 1 {
      assert IndexOfChar(s, c, 0) == -1;
    } else {
      var rest := Join(parts[1..], c);
      assert s == p + [c] + rest;
      assert forall j :: 0 <= j < |p| ==> s[j] == p[j];
      assert s[|p|] == c;
      assert IndexOfChar(s, c, 0) == |p|;
      assert s[|p| + 1..] == rest;
      assert s[..|p|] == p;
      SplitJoin(parts[1..], c);
      assert Split(s, c) == [p] + Split(rest, c);
      assert parts == [p] + parts[1..];
    }
  }
  /** Two parts joined by a separator neither contains split back into those two parts. */
  lemma SplitPair(a: string, b: string, c: char)
    requires c !in a && c !in b
    ensures Split(a + [c] + b, c) == [a, b]
  {
    assert Join([a, b], c) == a + [c] + Join([b], c);
    SplitJoin([a, b], c);
  }

  /** Three parts joined by a separator none contains split back into those three parts. */
  lemma SplitTriple(a: string, b: string, d: string, c: char)
    requires c !in a && c !in b && c !in d
    ensures Split(a + [c] + b + [c] + d, c) == [a, b, d]
  {
    var tail := b + [c] + d;
    assert Join([b, d], c) == tail by {
      assert Join([b, d], c) == b + [c] + Join([d], c);
    }
    assert Join([a, b, d], c) == a + [c] + tail by {
      assert [a, b, d][1..] == [b, d];
    }
    assert a + [c] + b + [c] + d == a + [c] + tail;
    SplitJoin([a, b, d], c);
  }


  /** Joining what was split gives back the original string. */
  lemma {:induction false} JoinSplit(s: string, c: char)
    ensures Join(Split(s, c), c) == s
    decreases |s|
  {
    var i := IndexOfChar(s, c, 0);
    if i >= 0 {
      JoinSplit(s[i + 1..], c);
      assert s == s[..i] + [c] + s[i + 1..];
    }
  }

  /** `s.substring(a, b)`: both ends clamped into range, and swapped when out of order. */
  function Substring(s: string, a: int, b: int): (r: string)
    ensures var lo := if Clamp(a, |s|) <= Clamp(b, |s|) then Clamp(a, |s|) else Clamp(b, |s|);
            var hi := if Clamp(a, |s|) <= Clamp(b, |s|) then Clamp(b, |s|) else Clamp(a, |s|);
            r == s[lo..hi]
  {
    var x := Clamp(a, |s|);
    var y := Clamp(b, |s|);
    if x <= y then s[x..y] else s[y..x]
  }

  /** The decimal spelling JavaScript gives an integer used as a property key. */
  function IntToDecimal(n: int): (r: string)
    ensures |r| > 0
  {
    if n < 0 then "-" + NatToDecimal(-n) else NatToDecimal(n)
  }

  function NatToDecimal(n: nat): (r: string)
    ensures |r| > 0
    ensures forall i :: 0 <= i < |r| ==> '0' <= r[i] <= '9'
  {
    var d := ['0' + (n % 10) as char];
    if n < 10 then d else NatToDecimal(n / 10) + d
  }
}

=== FILE: vip.dfy ===
/** The VIP channel alert format (src/libs/message/vip.msg.ts). */
module Vip {
  import opened Wrappers
  import opened Text
  import opened Signals
  import opened LabeledLines

  /**
   * The prefix `parseSignalId` looks for. The source spells it as the three
   * characters U+00F0 U+0178 U+201C (the bytes of the pin emoji decoded as
   * Windows-1252), and the model keeps that spelling.
   */
  const Marker: string := "\U{00F0}\U{0178}\U{201C}"

  /** `s.replace(/p/g, '')`: every occurrence found scanning left to right is removed. */
  function RemoveEvery(s: string, p: string): (r: string)
    requires |p| > 0
    ensures |r| <= |s|
    ensures !Contains(s, p) ==> r == s
    decreases |s|
  {
    var i := IndexOf(s, p, 0);
    if i < 0 then s else s[..i] + RemoveEvery(s[i + |p|..], p)
  }

  /**
   * `parseSignalId`: null unless the line starts with the marker; otherwise
   * the integer after `SIGNAL ID:` once the markers are removed and white
   * space trimmed.
   */
  function ParseSignalId(line: string, num: NumberSyntax): (r: SignalId)
    ensures r == NullId <==> !StartsWith(line, Marker)
    ensures StartsWith(line, Marker) ==>
      r == Numbered(num.integer(ReplaceFirst(Trim(RemoveEvery(line, Marker)), "SIGNAL ID:", "")))
  {
    if !StartsWith(line, Marker) then NullId
    else Numbered(num.integer(ReplaceFirst(Trim(RemoveEvery(line, Marker)), "SIGNAL ID:", "")))
  }

  /** What the second line of an alert carries: the pair and its leverage options. */
  datatype CoinLine = CoinLine(coin: string, leverage: seq<real>)

  /** The leverage token with `(`, `x` and `)` stripped (first occurrence of each). */
  function LeverageText(token: string): string {
    StrReplace(token, ["(", "x", ")"], "")
  }

  /**
   * `parseCoin`: the line is split on spaces; unless the first token is `COIN:`
   * there is no coin (the source returns null, which `parse` then fails on);
   * fewer than three tokens make the source throw. The coin is the second token
   * with its first `$` and `/` removed; the leverage list is the stripped third
   * token split on `-`, or `[1]` when that is empty.
   */
  function ParseCoin(line: string, num: NumberSyntax): (r: Result<CoinLine>)
    ensures r.Success? <==> Split(line, ' ')[0] == "COIN:" && |Split(line, ' ')| >= 3
    ensures r.Success? ==> r.value.coin == ReplaceFirst(ReplaceFirst(Split(line, ' ')[1], "$", ""), "/", "")
    ensures r.Success? ==> |r.value.leverage| > 0
    ensures r.Success? && LeverageText(Split(line, ' ')[2]) == "" ==> r.value.leverage == [1.0]
    ensures r.Success? && LeverageText(Split(line, ' ')[2]) != "" ==>
      r.value.leverage == SplitValues(Some(LeverageText(Split(line, ' ')[2])), num)
  {
    var tokens := Split(line, ' ');
    if tokens[0] != "COIN:" then Failure("COIN NOT FOUND")
    else if |tokens| < 3 then Failure("TypeError: missing coin or leverage token")
    else
      var leverage := SplitValues(Some(LeverageText(tokens[2])), num);
      Success(CoinLine(StrReplace(tokens[1], ["$", "/"], ""), if |leverage| == 0 then [1.0] else leverage))
  }

  /** `parseTerms`: each tier from its own labelled line; a missing line gives `[]`. */
  function ParseTerms(lines: seq<string>, num: NumberSyntax): (r: Terms)
    ensures FindLine(lines, "Short Term:").None? ==> r.short == []
    ensures FindLine(lines, "Mid Term:").None? ==> r.mid == []
    ensures FindLine(lines, "Long Term:").None? ==> r.long == []
    ensures r.short == SplitValues(FindLine(lines, "Short Term:"), num)
    ensures r.mid == SplitValues(FindLine(lines, "Mid Term:"), num)
    ensures r.long == SplitValues(FindLine(lines, "Long Term:"), num)
  {
    Terms(
      SplitValues(FindLine(lines, "Short Term:"), num),
      SplitValues(FindLine(lines, "Mid Term:"), num),
      SplitValues(FindLine(lines, "Long Term:"), num))
  }

  function Lines(message: string): seq<string> {
    Split(message, '\n')
  }

  /** The first line names a signal id. */
  predicate IsSignal(message: string) {
    IndexOf(Lines(message)[0], "SIGNAL ID:", 0) != -1
  }

  /** Every mandatory part of an alert whose first line names a signal id is there. */
  predicate Complete(message: string, num: NumberSyntax) {
    var lines := Lines(message);
    && |lines| >= 2
    && ParseCoin(lines[1], num).Success?
    && Present(lines, "Direction:") && Present(lines, "ENTRY:")
    && Present(lines, "OTE:") && Present(lines, "STOP LOSS:")
  }

  /**
   * `parse`: nothing (`Success(None)`) when the first line does not name a
   * signal id; a failure when the coin line or a mandatory field is missing;
   * otherwise the signal, with `ote` capped at the mean of the entry band.
   */
  function Parse(message: string, now: int, num: NumberSyntax): (r: Result<Option<Signal>>)
    ensures r == Success(None) <==> !IsSignal(message)
    ensures r.Success? && r.value.Some? <==> IsSignal(message) && Complete(message, num)
    ensures r.Success? && r.value.Some? ==>
      var s := r.value.value;
      var lines := Lines(message);
      && s.rawId == ParseSignalId(lines[0], num)
      && ParseCoin(lines[1], num) == Success(CoinLine(s.coin, s.leverage))
      && Some(s.direction) == FindLine(lines, "Direction:")
      && s.entry == ParseRange(FindLine(lines, "ENTRY:").value, num)
      && s.terms == ParseTerms(lines, num)
      && s.stopLoss == num.float(FindLine(lines, "STOP LOSS:").value)
      && s.createdAt == now && s.dailyStats == None
    ensures r.Success? && r.value.Some? ==>
      var s := r.value.value;
      && |s.entry| > 0 && |s.leverage| > 0
      && s.ote <= Mean(s.entry)
      && s.ote <= num.float(FindLine(Lines(message), "OTE:").value)
      && (s.ote == Mean(s.entry) || s.ote == num.float(FindLine(Lines(message), "OTE:").value))
  {
    var lines := Lines(message);
    if IndexOf(lines[0], "SIGNAL ID:", 0) == -1 then Success(None)
    else
      var signalId := ParseSignalId(lines[0], num);
      if |lines| < 2 then Failure("TypeError: no coin line")
      else
        var coinLine :- ParseCoin(lines[1], num);
        var direction :- Required(lines, "Direction:", "Direction NOT FOUND");
        var entryValue :- Required(lines, "ENTRY:", "ENTRY NOT FOUND");
        var oteValue :- Required(lines, "OTE:", "OTE NOT FOUND");
        var terms := ParseTerms(lines, num);
        var stopLoss :- Required(lines, "STOP LOSS:", "STOP LOSS NOT FOUND");
        var entry := ParseRange(entryValue, num);
        var ote := num.float(oteValue);
        var average := Mean(entry);
        Success(Some(Signal(signalId, coinLine.coin, direction, coinLine.leverage, entry,
          if ote < average then ote else average, terms, num.float(stopLoss), now, None)))
  }

  /** The documented example: the token `(3-5x)` gives the leverage options 3 and 5. */
  lemma LeverageExample(num: NumberSyntax)
    requires num.float("3") == 3.0 && num.float("5") == 5.0
    ensures ParseCoin("COIN: $FIL/USDT (3-5x)", num).Success?
    ensures ParseCoin("COIN: $FIL/USDT (3-5x)", num).value.leverage == [3.0, 5.0]
  {
    CoinLineTokens();
    LeverageTokenStripped();
    RangeExample(num);
  }

  lemma RangeExample(num: NumberSyntax)
    requires num.float("3") == 3.0 && num.float("5") == 5.0
    ensures SplitValues(Some("3-5"), num) == [3.0, 5.0]
  {
    assert "3" + "-" + "5" == "3-5";
    SplitValuesPair("3", "5", num);
  }

  /** Two clean values joined by `-` are read back as those two numbers. */
  lemma SplitValuesPair(a: string, b: string, num: NumberSyntax)
    requires '-' !in a && '-' !in b
    requires |a| > 0 && !IsSpace(a[0]) && !IsSpace(a[|a| - 1])
    requires |b| > 0 && !IsSpace(b[0]) && !IsSpace(b[|b| - 1])
    ensures SplitValues(Some(a + "-" + b), num) == [num.float(a), num.float(b)]
  {
    var v := a + "-" + b;
    assert v == a + ['-'] + b;
    SplitPair(a, b, '-');
    CleanPairValues(v, a, b, num);
    assert Trim(a) == a by { TrimClean(a); }
    assert Trim(b) == b by { TrimClean(b); }
  }

  lemma CleanPairValues(v: string, a: string, b: string, num: NumberSyntax)
    requires v != "" && Split(v, '-') == [a, b]
    ensures SplitValues(Some(v), num) == [num.float(Trim(a)), num.float(Trim(b))]
  {
    var r := SplitValues(Some(v), num);
    assert |r| == 2;
  }

  lemma CoinLineTokens()
    ensures Split("COIN: $FIL/USDT (3-5x)", ' ') == ["COIN:", "$FIL/USDT", "(3-5x)"]
  {
    assert "COIN:" + [' '] + "$FIL/USDT" + [' '] + "(3-5x)" == "COIN: $FIL/USDT (3-5x)";
    SplitTriple("COIN:", "$FIL/USDT", "(3-5x)", ' ');
  }

  lemma LeverageTokenStripped()
    ensures LeverageText("(3-5x)") == "3-5"
  {
    LeverageStripped("(3-5x)", "3-5");
  }

  /** A `(<range>x)` token loses its parentheses and its `x`. */
  lemma LeverageStripped(token: string, range: string)
    requires token == [] + ['('] + (range + ['x'] + [')']) && 'x' !in range && ')' !in range
    ensures LeverageText(token) == range
  {
    var t1 := range + ['x'] + [')'];
    var t2 := range + [')'] + [];
    assert ReplaceFirst(token, "(", "") == t1 by {
      assert [] + t1 == t1;
      RemoveFirstChar([], '(', t1);
    }
    assert ReplaceFirst(t1, "x", "") == t2 by {
      assert range + [')'] == t2;
      RemoveFirstChar(range, 'x', [')']);
    }
    assert ReplaceFirst(t2, ")", "") == range by {
      assert range + [] == range;
      RemoveFirstChar(range, ')', []);
    }
  }
}

=== FILE: wrappers.dfy ===
/** Failure-compatible result types shared by every module of the model. */
module Wrappers {

  /** A value that may be absent: JavaScript's `null` / `undefined`. */
  datatype Option<+T> = None | Some(value: T) {

    predicate IsFailure() {
      None?
    }

    function PropagateFailure<U>(): Option<U>
      requires None?
    {
      None
    }

    function Extract(): T
      requires Some?
    {
      value
    }

    function GetOr(default: T): T {
      match this
      case Some(v) => v
      case None => default
    }
  }

  /** The outcome of an operation that may throw: `Failure` carries the thrown message. */
  datatype Result<+R> = Success(value: R) | Failure(error: string) {

    predicate IsFailure() {
      Failure?
    }

    function PropagateFailure<U>(): Result<U>
      requires Failure?
    {
      Failure(error)
    }

    function Extract(): R
      requires Success?
    {
      value
    }
  }
}
